=== FILE: README.md ===
# Chanderhat betting backend — a Dafny model of its core

This project models the core of a NestJS betting backend and proves
properties of the model. The backend serves live and upcoming sports
matches, places bets against player balances, and pushes live scores to
socket clients. The model covers:

- **HierParser**: the hierarchical bet365 in-play parser (`parseBet365Inplay`).
  It comes in two dialects, the compiled service and the earlier stand-alone
  script. The model is one left fold over the record stream with a category,
  event and market cursor.
- **Bet365Fetch**: `getLiveGames` of the compiled service. It tries the two
  endpoints in turn over all the sports, keeps the first endpoint whose
  joined results are non-empty, and caches that for 15 s.
- **EventsApi**: the flat-feed service (`getLiveGames`, `getUpcomingGames`,
  `getGameDetails`). It normalises events with defaults, filters virtual
  matches (live only) and caches non-empty results. The parallel fetch
  finishes in an order the program does not control, so that order is a
  permutation parameter.
- **Ledger**: bet validation, the potential win in exact decimals, and the
  all-or-nothing placement step. The step debits the balance, writes a
  PENDING bet and writes a BET_PLACED transaction. It also covers the
  paginated, newest-first history of a player's bets and transactions.
- **LiveScores**: the five-second poller with its re-entrancy flag, the
  grouping of matches by sport field, and the per-sport and all-sports
  pushes. Entry order follows JavaScript object-key order: array-index keys
  ascending first, then the other keys in first-seen order.
- **Gateway**: the socket gateway. It has a connection counter, `sport:<id>`
  rooms that clients join and leave, and the push to one room plus the push
  to everyone.
- **Currency**: the site–currency link table. `setSiteCurrency` keeps one
  row per (site, currency) pair and at most one default currency per site.
- **Sites**: site configuration by domain. It has a 60-second in-process
  cache and a built-in Playbaji fallback, and the controller derives the
  domain from the Host header.
- **Auth** and **JwtGuard**: registration, login, token verification,
  profile lookup, and the `Bearer` guard.
- **Text**, **Wrappers**, **Cache**: the JavaScript string behaviour the
  code relies on, and the shared Option/Result and cache-trace vocabulary.
  The string behaviour covers `split`, `includes`, ASCII `toLowerCase`,
  `parseInt(_, 10)`, `String(int)` and truthiness.

These things are parameters rather than modelled:

- the clock;
- the shared cache's reads;
- the upstream HTTP replies and the order the parallel replies complete in;
- the database lookups;
- bcrypt and JWT (a `Crypto` record of functions).

Money is `real`, so every amount is exact.

## Model

| member | source | states |
|---|---|---|
| HierParser.Parse | dist/bets-api.service.js:89-92 | A payload that is not an array yields no matches; the parse fails (JavaScript reads `type` of `null`) exactly when the record list holds a null element |
| HierParser.ParseBet365Inplay | dist/bets-api.service.js:89-141 | The imperative loop with its early exit computes the same result as the fold `Parse` |
| HierParser.Label | dist/bets-api.service.js:135 | `OR` "0" is labelled "1", `OR` "1" is labelled "X", and any other or missing `OR` is labelled "2" |
| HierParser.EmittedMatches | dist/bets-api.service.js:97-129 | The emitted matches, with odds stripped, are exactly one per non-virtual EV record, in stream order, judged under the latest category; the category cursor is the latest CT record |
| HierParser.CategoryCursor | dist/bets-api.service.js:98-100 | The category is unset iff no CT record has arrived; otherwise it is a CT record with no CT after it |
| HierParser.CursorViews | dist/bets-api.service.js:101-133 | The loop's cursors agree with stream views defined without it. A match is current iff some EV has arrived and the last one was not virtual under the category current when it came. The market cursor is the last MA that arrived while a match was current |
| HierParser.MarketCursorUnset | dist/bets-api.service.js:130-132 | The market cursor is unset iff no MA record arrived while a match was current, "current" meaning the last EV before it was not virtual |
| HierParser.MarketCursor | dist/bets-api.service.js:130-132 | The market cursor is the last MA that arrived while a match was current (the last EV before it not virtual); CT and EV records do not reset it |
| HierParser.QuoteCount | dist/bets-api.service.js:133-137 | The total number of odds equals the number of PA records that arrive while the last EV was non-virtual and the last MA since then qualifies, so no match's odds are capped. Each match's odds are its own such quotes |
| HierParser.OddsOfMatch | dist/bets-api.service.js:111-137 | Match i's odds are exactly the PA records that arrive while it is the latest match announced, with the last EV non-virtual and a qualifying market current. They come in stream order, each labelled from its `OR` and priced with its `OD` |
| HierParser.LabelsWellFormed | dist/bets-api.service.js:135-136 | Every odds entry of every emitted match is labelled "1", "X" or "2" |
| HierParser.StrayQuoteIgnored | dist/bets-api.service.js:133 | A PA with no current match (no EV yet, or the last EV virtual) changes nothing |
| HierParser.VirtualEventCloses | dist/bets-api.service.js:111-114 | A virtual EV emits nothing and clears the current match, so later quotes are dropped |
| HierParser.PrototypeFilterWeaker | test_parse.js:19-22 | Every event the stand-alone script's virtual filter drops is dropped by the compiled service's filter too |
| HierParser.NestedUnwrap | dist/bets-api.service.js:92 | When `results[0]` is itself an array of records, it is parsed in place of `results` |
| HierParser.TeamNames | dist/bets-api.service.js:119-120 | A name `home v away` split at its first " v " gives home and away |
| HierParser.SingleTeamName | dist/bets-api.service.js:118-120 | A name without " v " is the home team; away defaults to "Team B" and the league to "Unknown League" |
| Bet365Fetch.SportsToFetch | dist/bets-api.service.js:49 | A truthy sport id fetches that sport alone; otherwise the fixed six sports |
| Bet365Fetch.Collect | dist/bets-api.service.js:51-67 | The collected matches are exactly those the fetched sports' replies yield. Each comes from some fetched sport's reply, and every match any fetched sport yields is collected |
| Bet365Fetch.CollectAppend | dist/bets-api.service.js:51-67 | `Promise.all(...).flat()` keeps sport order: collecting two runs of sports joins their two collections in order |
| Bet365Fetch.CollectSingle | dist/bets-api.service.js:51-66 | A single sport's collection is that sport's own results |
| Bet365Fetch.GetLiveGames | dist/bets-api.service.js:29-82 | A cache hit is returned with no request. Otherwise: the first endpoint's results if non-empty, else the second's; the requests made; `count` equals the result length; a 15 s cache write iff the results are non-empty |
| Bet365Fetch.FreshMatchesComeFromReplies | dist/bets-api.service.js:50-73 | Every fresh match was parsed from one sport's reply on one of the two endpoints |
| Bet365Fetch.FailedSportContributesNothing | dist/bets-api.service.js:52-65 | A thrown request, a `success` other than 1, or non-array results contribute nothing |
| EventsApi.SportsToFetch | src/bets-api.service.ts:46-48 | A non-zero sport id fetches exactly that sport; otherwise the whole sport table |
| EventsApi.LiveKeysDistinct | src/bets-api.service.ts:34 | Distinct sport selections never share a live cache key |
| EventsApi.LiveBlock | src/bets-api.service.ts:66-83 | A sport's live block never grows; every match in it is non-virtual (neither by name nor by flag), tagged with the request's sport id, and has no odds |
| EventsApi.LiveBlockMembers | src/bets-api.service.ts:66-83 | A match is in a sport's live block iff it is the mapping of some feed event and it is not virtual |
| EventsApi.Events | src/bets-api.service.ts:65-67 | A reply yields events iff it is `success === 1` with an array holding no `null`; the events are then the array's elements, in order. A `null` element makes `ev.id` throw |
| EventsApi.LiveContribution | src/bets-api.service.ts:65-92 | A reply that yields no events, whether thrown, unsuccessful, not an array or holding a `null`, contributes nothing; every contributed match is non-virtual, has no odds, and carries the sport's id |
| EventsApi.UpcomingContribution | src/bets-api.service.ts:149-163 | Upcoming events are mapped one-to-one and never filtered; every one is scheduled (status "0", no score, no clock); a failed reply contributes nothing |
| EventsApi.GetLiveGames | src/bets-api.service.ts:31-110 | A cache hit is returned as is. Otherwise: one request per fetched sport, in table order. The results are the sports' live blocks joined in completion order, and as a multiset they are all the blocks' matches. `count` equals the result length, the timestamp is the clock's, and a 20 s cache write happens iff there are results |
| EventsApi.OrderPool | src/bets-api.service.ts:52-93 | Whatever the completion order, the joined blocks hold, as a multiset, every block's matches |
| EventsApi.BlockInPlace | src/bets-api.service.ts:86 | The k-th block to complete appears in one piece, in its own order, right after the blocks that completed before it (`push(...events)`) |
| EventsApi.AllBlocksHold | src/bets-api.service.ts:52-93 | A match of any block is among the joined blocks |
| EventsApi.LiveMatchServed | src/bets-api.service.ts:52-99 | Every non-virtual event of every fetched sport whose reply yields events is served as its mapped match |
| EventsApi.PoolPermutation | src/bets-api.service.ts:52-93 | The matches the blocks contribute, as a multiset, do not depend on the order the requests complete in |
| EventsApi.LiveResultsIndependentOfOrder | src/bets-api.service.ts:50-99 | Any two completion orders give the same matches the same number of times, and the same count |
| EventsApi.LiveResultsShape | src/bets-api.service.ts:66-86 | Every fresh live match is non-virtual, has no odds, and carries the id of one of the fetched sports |
| EventsApi.DayOffset | src/bets-api.service.ts:132 | The day offset is 1 exactly for the filter "tomorrow", else 0 |
| EventsApi.GetUpcomingGames | src/bets-api.service.ts:115-185 | One request per fetched sport, in table order, each for the day offset. The results are the sports' mapped events joined in completion order, and as a multiset they are all of them. Every result is scheduled, `count` equals the result length, the timestamp is the clock's, and a 60 s cache write happens iff there are results |
| EventsApi.UpcomingMatchServed | src/bets-api.service.ts:134-171 | Every event of every fetched sport whose reply for the day yields events is served as its mapped match |
| EventsApi.GetGameDetails | src/bets-api.service.ts:190-221 | Found iff the reply is `success === 1` with results, and then cached for 10 s. A thrown error is returned as its message; any other failure is "Event not found" and writes nothing |
| EventsApi.DetailsKeysDistinct | src/bets-api.service.ts:193 | Different event ids get different `betsapi:details:` cache keys, so one event's cached details are never served for another |
| EventsApi.DetailsServedFromCache | src/bets-api.service.ts:193-215 | After a found reply, the one write is under the event's key, and a later request that finds that value in the cache returns it unchanged, with no fetch and no write, whatever the API would have said |
| Text.Split | src/site.controller.ts:13 | `split` yields at least one piece, exactly one iff the separator does not occur; the first piece is the text before the first separator, or the whole string |
| Text.SplitPiecesFree | src/site.controller.ts:13 | No piece of a split contains the separator |
| Text.SplitJoin | src/site.controller.ts:13 | Joining the pieces of a split with the separator gives back the original string |
| Text.SplitAround | dist/bets-api.service.js:119-120 | `(a + sep + b).split(sep)` is `[a, b]` when neither part holds the separator |
| Text.ParseIntOfIntToString | src/live-scores.service.ts:55 | `parseInt(String(n), 10)` gives back `n` |
| Ledger.Validate | src/bets.service.ts:24-30 | Each rejection occurs iff its condition holds and every earlier check passed; a request that passes has stake, odds and type in range |
| Ledger.StakeBoundsInclusive | src/bets.service.ts:27-28 | A stake of exactly 10 or exactly 100000 is not rejected for its size |
| Ledger.PotentialWin | src/bets.service.ts:32-36 | Back: stake plus win equals stake times odds. Lay: the win is the stake. The win is always positive |
| Ledger.PotentialWinExamples | src/bets.service.ts:34-36 | 100 at odds 2.50 wins 150 on Back and 100 on Lay, exactly |
| Ledger.PlaceBet | src/bets.service.ts:20-102 | Any failure leaves the store unchanged, and errors come in check order with their statuses. Success iff valid, found, active and funded. Then the balance is debited by the stake and other players are untouched. One PENDING bet is appended with the next bet id, carrying the request's match id, match name, market, selection, odds type, stake and odds, created now and not settled. One BET_PLACED transaction is appended with the next transaction id, created now, with amount −stake, before + amount = after, and ref the bet id |
| Ledger.PlaceBetKeepsSolvent | src/bets.service.ts:44-56 | No balance goes negative |
| Ledger.PlaceBetKeepsIdsFresh | src/bets.service.ts:59-86 | Bet and transaction ids stay unique |
| Ledger.PlaceBetKeepsReconciled | src/bets.service.ts:76-86 | Every transaction's before plus amount is its after, and each player's latest transaction ends at the current balance |
| Ledger.PlaceBetKeepsChronological | src/bets.service.ts:59-86 | Bets and transactions stay in non-decreasing time order |
| Ledger.NoDoubleSpend | src/bets.service.ts:39-56 | Two bets each staking the whole balance: the first is placed, and the second is refused for insufficient balance (available 0) |
| Ledger.OwnBets | src/bets.service.ts:109 | A bet is listed iff it is in the store and belongs to the player |
| Ledger.Window | src/bets.service.ts:106-112 | Skip `(page − 1) * limit` rows and take `limit` of them, or all that remain if fewer; so a limit of 0 takes nothing and a page past the end is empty |
| Ledger.PageCount | src/bets.service.ts:132 | `ceil(total / limit)`: the fewest pages of `limit` rows that hold every row |
| Ledger.PagesFor | src/bets.service.ts:132 | `Math.ceil(total / limit)`: for a positive limit, the fewest pages that hold every row. For a limit of 0 it is Infinity when there are rows and NaN when there are none |
| Ledger.GetMyBets | src/bets.service.ts:105-134 | Exactly `limit` of the caller's own bets, or what remains after the skipped rows if fewer, so none past the end; `total` is the caller's bet count. For a positive limit, `pages` is the ceiling of `total` over `limit`. For a limit of 0 the page is empty and `pages` is Infinity or NaN |
| Ledger.GetMyTransactions | src/bets.service.ts:136-149 | Exactly `limit` of the caller's own transactions, or what remains after the skipped rows if fewer, so none past the end and none for a limit of 0 |
| Ledger.EveryBetOnItsPage | src/bets.service.ts:105-134 | The caller's k-th newest bet is row k mod limit of page k div limit + 1, and that page is within `pages` |
| Ledger.EveryTxnOnItsPage | src/bets.service.ts:136-142 | The caller's k-th newest transaction is row k mod limit of page k div limit + 1 |
| Ledger.OwnBetsChronological | src/bets.service.ts:108-110 | Filtering to one player keeps the time order |
| Ledger.BetPagesNewestFirst | src/bets.service.ts:108-112 | Every page of bets is newest first |
| Gateway.Room | src/events.gateway.ts:53 | Every room name starts with "sport:" |
| Gateway.RoomsDistinct | src/events.gateway.ts:53 | Distinct sport ids, including an absent one, name distinct rooms |
| Gateway.Connect | src/events.gateway.ts:34-41 | The counter goes up by one; the client is added with no rooms and greeted with the fixed message |
| Gateway.Disconnect | src/events.gateway.ts:43-46 | The counter goes down by one; the client leaves every room; other clients are unchanged |
| Gateway.ConnectDisconnect | src/events.gateway.ts:34-46 | A new client that connects and then disconnects leaves the hub as it was |
| Gateway.ConnectKeepsCounted | src/events.gateway.ts:28-41 | Connecting a new client keeps the counter equal to the number of connected clients |
| Gateway.DisconnectKeepsCounted | src/events.gateway.ts:43-46 | Disconnecting a known client keeps the counter equal to the number of connected clients |
| Gateway.Subscribe | src/events.gateway.ts:48-56 | The client joins `sport:<id>` and is told the room and the id; nothing else changes |
| Gateway.Unsubscribe | src/events.gateway.ts:58-64 | The client leaves `sport:<id>`; nothing else changes and nothing is sent |
| Gateway.SubscribeIdempotent | src/events.gateway.ts:48-56 | Subscribing twice is subscribing once |
| Gateway.PushLiveUpdate | src/events.gateway.ts:67-76 | With no server, nothing is sent. With a sport id: a room update, then the all-sports update. Without one: the all-sports update only |
| Gateway.SubscribedClientReceives | src/events.gateway.ts:48-76 | A subscribed client receives both updates. After unsubscribing it receives only the all-sports update |
| Gateway.RoomUpdateReachesSubscribersOnly | src/events.gateway.ts:72-74 | The room update reaches a client iff it is connected and joined that sport's room |
| Gateway.ConnectedClients | src/events.gateway.ts:78-80 | While counted, the reported number is the number of connected clients |
| LiveScores.Init | src/live-scores.service.ts:23-28 | The interval is armed, and the immediate first poll runs iff no poll is in progress |
| LiveScores.BeginPoll | src/live-scores.service.ts:38-39 | A poll starts iff none is running, and the flag is set afterwards |
| LiveScores.EndPoll | src/live-scores.service.ts:64-66 | The flag is cleared whatever the poll did; the interval is kept |
| LiveScores.Destroy | src/live-scores.service.ts:30-35 | The interval is cleared if set, and the handle cleared is returned |
| LiveScores.DestroyIdempotent | src/live-scores.service.ts:30-35 | A second destroy clears nothing |
| LiveScores.TicksDoNotOverlap | src/live-scores.service.ts:37-39 | Of two ticks with no poll ending in between, at most one polls; after a poll ends, the next tick polls |
| LiveScores.File | src/live-scores.service.ts:51 | `??=` then push: a new key is appended with the match; an existing key's group gains the match at its end |
| LiveScores.FileDistinct | src/live-scores.service.ts:51 | Filing a match keeps the group keys distinct |
| LiveScores.GroupByKeys | src/live-scores.service.ts:48-52 | The grouping has a key iff some match carries it (`sport_id ?? 'unknown'`) |
| LiveScores.GroupByMembers | src/live-scores.service.ts:48-52 | Each group holds exactly the matches with its key, in feed order |
| LiveScores.GroupSizes | src/live-scores.service.ts:48-52 | The group sizes add up to the number of matches |
| LiveScores.EntriesOrder | src/live-scores.service.ts:54 | `Object.entries` gives the same groups: array-index keys first, in ascending numeric order, then the other keys in first-seen order |
| LiveScores.PollPushes | src/live-scores.service.ts:41-60 | A thrown fetch or an empty result pushes nothing. Otherwise one push per entry, with the key's `parseInt` value, then one push of the whole list |
| LiveScores.Tick | src/live-scores.service.ts:37-67 | A tick while polling does nothing; otherwise it makes the poll's pushes and leaves the flag clear |
| LiveScores.PollPushesShape | src/live-scores.service.ts:54-60 | A non-empty feed gives one push per distinct key plus a final all-matches push |
| LiveScores.PushesComeFromKeys | src/live-scores.service.ts:54-57 | Every per-sport push carries some key's number and exactly that key's matches |
| LiveScores.KeysArePushed | src/live-scores.service.ts:48-57 | Every key of the feed is pushed with its number and its matches |
| LiveScores.NumericKeyPushedAsNumber | src/live-scores.service.ts:55-56 | A key written as a decimal number is pushed under that number |
| LiveScores.DeliverCounts | src/live-scores.service.ts:54-60 | Through the gateway, each push sends one all-sports update, plus one room update when it has a sport number |
| Currency.SetSiteCurrency | src/currency.service.ts:18-34 | The written row has the pair and the flag. The row is updated in place if the pair exists, else appended with the next id. Other sites' rows are untouched. When not default, other rows are untouched. When default, no other currency of the site stays default |
| Currency.ExactlyOnePairRow | src/currency.service.ts:27-33 | Afterwards there is exactly one row for the pair; it is the row returned and carries the requested flag |
| Currency.KeepsUniquePairs | src/currency.service.ts:27-33 | The (site, currency) uniqueness holds afterwards |
| Currency.KeepsOneDefaultPerSite | src/currency.service.ts:18-34 | No site ends up with two default currencies |
| Currency.SetSiteCurrencyIdempotent | src/currency.service.ts:18-34 | Setting the same link twice is setting it once |
| Currency.GetSiteCurrencies | src/currency.service.ts:36-41 | A link is returned iff it belongs to the site |
| Sites.CacheKeysDistinct | src/site.service.ts:14 | Distinct domains never share a cache entry |
| Sites.WrittenTakaIsMojibake | src/site.service.ts:34 | The symbol as written is the taka sign's UTF-8 bytes read as Latin-1: three characters, not the taka sign |
| Sites.DefaultSiteAsWritten | src/site.service.ts:32-52 | The fallback as written carries the three-character symbol |
| Sites.DefaultSymbolAsWrittenIsWrong | src/site.service.ts:34 | The as-written fallback's currency symbol is not the taka sign |
| Sites.DefaultSite | src/site.service.ts:32-52 | The fallback is Playbaji, id 0, for the requested domain and active, with one default BDT currency at rate 1 shown as the taka sign; it differs from the as-written fallback only in that symbol |
| Sites.GetConfigByDomain | src/site.service.ts:13-59 | A live cache entry (deadline after the first clock reading) is served with no query. Otherwise the domain is queried, a missing site is replaced by the fallback stamped with the second reading, taken after the query, and the result is cached until 60 s after that second reading iff the site is active |
| Sites.UnknownDomainGetsDefault | src/site.service.ts:31-56 | An unknown domain gets the fallback stamped with the write-time reading, and it is cached, fresh, until 60 s after that reading |
| Sites.CachedForSixtySeconds | src/site.service.ts:16-56 | An active site is served from cache, without a query, while a later request's clock is before 60 s after the write (taken after the first query, not at the first request); from then on the database is asked again |
| Sites.InactiveNeverCached | src/site.service.ts:54-58 | An inactive site is returned but the cache is unchanged |
| Sites.OtherEntriesUntouched | src/site.service.ts:54-56 | A lookup touches only its own domain's cache entry |
| Sites.Domain | src/site.controller.ts:11-13 | The domain never contains ':'; a missing or empty Host gives "unknown" |
| Sites.DomainIsHostPrefix | src/site.controller.ts:13 | The domain is the Host up to its first ':', or the whole Host when it has none |
| Sites.GetConfig | src/site.controller.ts:10-15 | The service is queried with the port-free domain |
| Auth.CheckRegistration | src/auth.service.ts:26-28 | Each input rejection occurs iff its condition holds and the earlier checks passed; the username rule is 3–20 of `[a-zA-Z0-9_]` |
| Auth.Register | src/auth.service.ts:24-49 | Any failure leaves the table unchanged. An existing row matching email or username gives "email taken" if its email matches, else "username taken". Success iff the inputs pass and no row matches. The new player gets the next id, the hashed password, a zero balance, is active, and receives a token signed over id, email and username |
| Auth.Login | src/auth.service.ts:51-66 | No match, or a wrong password, gives invalid credentials. A suspended player is refused before the password is checked. Otherwise a session for the first matching player |
| Auth.VerifyToken | src/auth.service.ts:68-74 | Success iff the token verifies, with its claims; otherwise an invalid-token error |
| Auth.GetProfile | src/auth.service.ts:76-83 | Not found (status 401) iff no player has the id; otherwise that player's id, email, username, balance and creation time |
| Auth.RegisterKeepsWellFormed | src/auth.service.ts:30-42 | Emails, usernames and ids stay unique |
| Auth.RegisterThenLoginByEmail | src/auth.service.ts:24-66 | A just-registered player logs in by email with the same password and gets the same session, unless an older player's username equals that email |
| Auth.RegisterThenLoginByUsername | src/auth.service.ts:24-66 | Likewise by username, unless an older player's email equals that username |
| Auth.SuspendedBeforePassword | src/auth.service.ts:55-59 | A suspended account gets "suspended" whatever password is given |
| Auth.UnknownAndWrongPasswordAlike | src/auth.service.ts:55-59 | An unknown identifier and a wrong password give the same error |
| Auth.RegisteredProfile | src/auth.service.ts:39-83 | A new player's profile is found with a zero balance |
| JwtGuard.TokenOf | src/jwt.guard.ts:16 | `slice(7)` after the scheme: the scheme followed by the token is the header |
| JwtGuard.CanActivate | src/jwt.guard.ts:8-20 | A header not starting with `Bearer ` is refused as a missing token. Otherwise the request passes with the verified claims attached iff the token verifies, and is otherwise refused as invalid |
| JwtGuard.MissingHeaderRefused | src/jwt.guard.ts:10-14 | A request with no header is refused before any verification |
| JwtGuard.SchemeIsExact | src/jwt.guard.ts:12-14 | `bearer x` and `Bearerx` are refused: the scheme is case-sensitive and needs its space |
| JwtGuard.BearerRoundTrip | src/jwt.guard.ts:12-19 | `Bearer ` + a valid token passes with exactly that token's claims |

## Left out

- Logging, the debug list of the compiled `getLiveGames`, and its outer `catch`. The outer catch is unreachable in the model, because every per-sport failure is already caught.
- The JSON round trip through the shared cache, and cache expiry. A read is Hit, Miss or Unavailable; Unavailable is handled like Miss, as the source ignores read errors. A write is recorded with its key and TTL.
- HTTP parameters other than the sport id and day: the token, page, per_page and timeouts.
- Timestamps: `now` is a parameter, and `toISOString` formatting is not modelled.
- Sites.GetConfigByDomain: the two `new Date()` calls (src/site.service.ts:49-50) and the `Date.now()` of the cache write (:55) run synchronously after the lookup, so they are one reading `written`; they can differ by a millisecond in the service.
- The `is_virtual: false` flag of each match is kept. The `name` template renders a missing team as `undefined`.
- `toLowerCase` is ASCII-only. JavaScript lower-cases all of Unicode, which could only matter for non-ASCII league or team names.
- String lengths count characters, not UTF-16 code units. This matters only for the password-length check on non-BMP characters.
- The `toFixed(2)` and `toFixed(4)` rounding of stake and odds, and the float-to-Decimal conversion. Amounts are exact reals, taken to arrive with at most 2 (stake) and 4 (odds) decimals.
- The transaction's free-text `note`, and the response's float conversions (`toNumber`).
- Concurrency: the Prisma transaction is modelled as one atomic step on a store value. Isolation between concurrent placements is not modelled.
- Ledger.GetMyBets: requires page ≥ 1 and limit ≥ 0. A limit of 0 is modelled. A negative limit (a negative `take`, which Prisma reads as "take from the end") and a page below 1 (a negative `skip`, which Prisma rejects) are not, and neither is a `NaN` page or limit from an unparsable query string.
- Ledger.GetMyTransactions: requires page ≥ 1 and limit ≥ 0, for the same reason.
- Ledger.Window: requires page ≥ 1 and limit ≥ 0, for the same reason.
- EventsApi.SportsToFetch: the sport id is an optional integer. `?sportId=abc` becomes `NaN` through `parseInt` in src/games.controller.ts:10. `NaN` is falsy, so every sport is fetched but the cache key reads `betsapi:inplay:v2:NaN`; that key is not modelled.
- Upstream field values of the wrong type are not modelled. Feed fields are strings or missing; elements of `results` are objects or `null`. A truthy non-string `NA` or `TU` would make `toLowerCase`, `includes` or `split` throw in dist/bets-api.service.js:102-134, and the per-sport catch would drop that sport. A non-string `league.name` or `home.name` would make the virtual filter throw in src/bets-api.service.ts:80-82, with the same effect.
- The live response's constant `is_simulated: false` field is not carried.
- Database ordering by `createdAt` with ties: rows are kept in insertion order, and creation times are non-decreasing (`ChronologicalUpTo`).
- Auth.Register: the new player's `createdAt` is 0 and `isActive` is true, standing for the database defaults. The real default time is not modelled.
- Auth.RegisterThenLoginByEmail: states the round trip only when no older username equals the email, because `findFirst` over `email OR username` takes the first row.
- Auth.RegisterThenLoginByUsername: states the round trip only when no older email equals the username, for the same reason.
- `findFirst` without an `orderBy` is taken to return the first row in table order.
- bcrypt and JWT: hashing, comparison, signing and verification are the `Crypto` parameter. The secret, the seven-day expiry and the cost factor are not modelled.
- Gateway.Subscribe: requires the client to be connected, since socket.io delivers messages only from connected sockets.
- Gateway.Unsubscribe: requires the client to be connected, for the same reason.
- Socket.io internals (namespaces, adapters, transports, the Redis adapter) are not modelled. A disconnect drops the client from every room, as socket.io does.
- The `subscribe:sport` body without a numeric `sportId` is modelled as an absent id, giving the room `sport:undefined`. Other non-number bodies are not modelled.
- `parseInt` is modelled for decimal keys: optional leading white space, an optional sign, then digits. `Infinity`, `0x` prefixes and the like do not arise from `sport_id` values here.
- The sport field of a match is given by a function `sportOf`. Only its string value or absence matters.
- `createCurrency`, `getAllCurrencies` and the currency join of `getSiteCurrencies` (its `include`) are not modelled. Nor are foreign-key constraints between sites, currencies and links.
- The database lookup of a site (with its currencies) is the function parameter `lookup`.
- The owner service and controller, the BullMQ processor, Redis and Prisma setup, `main.ts`, the HTTP controllers other than the site controller, and the framework's exception-to-response mapping (errors carry their HTTP status as `Status()`) are not modelled.

## Findings

| source | as written | input that shows it | evidently intended | confidence | as-written member | corrected member |
|---|---|---|---|---|---|---|
| src/site.service.ts:34 | the fallback currency symbol is the three characters `à§³` (U+00E0 U+00A7 U+00B3), the taka sign's UTF-8 bytes decoded as Latin-1 | any domain with no stored site | the taka sign `৳` (U+09F3), as the bet messages in src/bets.service.ts:27-28 show it | high; not executed | Sites.DefaultSiteAsWritten, Sites.DefaultSymbolAsWrittenIsWrong | Sites.DefaultSite |

=== FILE: auth.dfy ===
/**
 * Player registration, login and profile (src/auth.service.ts).
 *
 * Password hashing, hash comparison and token signing and verification
 * are function parameters: the model fixes the order of the checks and what
 * is hashed, compared and signed, not how.
 */
module Auth {
  import opened Wrappers

  const MinPasswordLength: nat := 6

  datatype Player = Player(
    id: nat,
    email: string,
    username: string,
    passwordHash: string,
    balance: real,
    isActive: bool,
    createdAt: int)

  /** The player table in insertion order and the next id. */
  datatype Users = Users(players: seq<Player>, nextId: nat)

  /** The signed token's claims: `{ sub, email, username }`. */
  datatype Claims = Claims(sub: nat, email: string, username: string)

  datatype PlayerView = PlayerView(id: nat, email: string, username: string, balance: real)

  datatype Session = Session(token: string, player: PlayerView)

  datatype Profile = Profile(id: nat, email: string, username: string, balance: real, createdAt: int)

  datatype AuthError =
    | AllFieldsRequired
    | PasswordTooShort
    | BadUsername
    | EmailTaken
    | UsernameTaken
    | InvalidCredentials
    | AccountSuspended
    | PlayerNotFound
    | InvalidToken
  {
    /** The HTTP status of the exception raised. */
    function Status(): nat {
      match this
      case AllFieldsRequired | PasswordTooShort | BadUsername => 400
      case EmailTaken | UsernameTaken => 409
      case _ => 401
    }
  }

  /** The bcrypt and JWT capabilities: hash, compare, sign and verify. */
  datatype Crypto = Crypto(
    hash: string -> string,
    compare: (string, string) -> bool,
    sign: Claims -> string,
    verify: string -> Option<Claims>)

  predicate UsernameChar(c: char) {
    ('a' <= c <= 'z') || ('A' <= c <= 'Z') || ('0' <= c <= '9') || c == '_'
  }

  /** `/^[a-zA-Z0-9_]{3,20}$/`. */
  predicate UsernameOk(u: string) {
    3 <= |u| <= 20 && forall i :: 0 <= i < |u| ==> UsernameChar(u[i])
  }

  /** The first player, in table order, satisfying `email = a OR username = b`. */
  function FindFirst(players: seq<Player>, email: string, username: string): (r: Option<nat>)
    ensures r.Some? ==> r.value < |players| && (players[r.value].email == email || players[r.value].username == username)
    ensures r.Some? ==> forall j :: 0 <= j < r.value ==> players[j].email != email && players[j].username != username
    ensures r.None? ==> forall j :: 0 <= j < |players| ==> players[j].email != email && players[j].username != username
  {
    if |players| == 0 then None
    else if players[0].email == email || players[0].username == username then Some(0)
    else
      match FindFirst(players[1..], email, username)
      case None => None
      case Some(i) => Some(i + 1)
  }

  function ViewOf(p: Player): PlayerView {
    PlayerView(p.id, p.email, p.username, p.balance)
  }

  function SessionFor(p: Player, crypto: Crypto): (s: Session)
    ensures s.player.id == p.id && s.token == crypto.sign(Claims(p.id, p.email, p.username))
  {
    Session(crypto.sign(Claims(p.id, p.email, p.username)), ViewOf(p))
  }

  /** The first failing input check of a registration, if any; none reads the table. */
  function CheckRegistration(email: string, username: string, password: string): (e: Option<AuthError>)
    ensures e == Some(AllFieldsRequired) <==> email == "" || username == "" || password == ""
    ensures e == Some(PasswordTooShort) <==>
      email != "" && username != "" && password != "" && |password| < MinPasswordLength
    ensures e == Some(BadUsername) <==>
      email != "" && username != "" && |password| >= MinPasswordLength && !UsernameOk(username)
    ensures e.None? <==> email != "" && |password| >= MinPasswordLength && UsernameOk(username)
  {
    if email == "" || username == "" || password == "" then Some(AllFieldsRequired)
    else if |password| < MinPasswordLength then Some(PasswordTooShort)
    else if !UsernameOk(username) then Some(BadUsername)
    else None
  }

  /** `register(email, username, password)`. */
  function Register(u: Users, email: string, username: string, password: string, crypto: Crypto)
    : (r: (Users, Result<Session, AuthError>))
    ensures r.1.Failure? ==> r.0 == u
    ensures CheckRegistration(email, username, password).Some? ==>
      r.1 == Failure(CheckRegistration(email, username, password).value)
    ensures CheckRegistration(email, username, password).None? && FindFirst(u.players, email, username).Some? ==>
      r.1 == Failure(if u.players[FindFirst(u.players, email, username).value].email == email then EmailTaken else UsernameTaken)
    ensures r.1.Success? <==>
      CheckRegistration(email, username, password).None? && FindFirst(u.players, email, username).None?
    ensures r.1.Success? ==>
      && |r.0.players| == |u.players| + 1
      && r.0.players == u.players + [r.0.players[|u.players|]]
      && r.0.nextId == u.nextId + 1
      && r.1.value == SessionFor(r.0.players[|u.players|], crypto)
      && var q := r.0.players[|u.players|];
         (q.id == u.nextId && q.email == email && q.username == username
          && q.passwordHash == crypto.hash(password) && q.balance == 0.0 && q.isActive)
  {
    match CheckRegistration(email, username, password)
    case Some(e) => (u, Failure(e))
    case None =>
      match FindFirst(u.players, email, username)
      case Some(i) => (u, Failure(if u.players[i].email == email then EmailTaken else UsernameTaken))
      case None =>
        var p := Player(u.nextId, email, username, crypto.hash(password), 0.0, true, 0);
        (Users(u.players + [p], u.nextId + 1), Success(SessionFor(p, crypto)))
  }

  /** `login(emailOrUsername, password)`. */
  function Login(u: Users, ident: string, password: string, crypto: Crypto): (r: Result<Session, AuthError>)
    ensures FindFirst(u.players, ident, ident).None? ==> r == Failure(InvalidCredentials)
    ensures FindFirst(u.players, ident, ident).Some? ==>
      var p := u.players[FindFirst(u.players, ident, ident).value];
      && (!p.isActive ==> r == Failure(AccountSuspended))
      && (p.isActive && !crypto.compare(password, p.passwordHash) ==> r == Failure(InvalidCredentials))
      && (p.isActive && crypto.compare(password, p.passwordHash) ==> r == Success(SessionFor(p, crypto)))
  {
    match FindFirst(u.players, ident, ident)
    case None => Failure(InvalidCredentials)
    case Some(i) =>
      var p := u.players[i];
      if !p.isActive then Failure(AccountSuspended)
      else if !crypto.compare(password, p.passwordHash) then Failure(InvalidCredentials)
      else Success(SessionFor(p, crypto))
  }

  /** `verifyToken(token)`. */
  function VerifyToken(token: string, crypto: Crypto): (r: Result<Claims, AuthError>)
    ensures r.Success? <==> crypto.verify(token).Some?
    ensures r.Success? ==> r.value == crypto.verify(token).value
    ensures r.Failure? ==> r.error == InvalidToken
  {
    match crypto.verify(token)
    case Some(c) => Success(c)
    case None => Failure(InvalidToken)
  }

  /** `findUnique({ where: { id } })`: where the player with that id is, if any. */
  function FindById(players: seq<Player>, id: int): (r: Option<nat>)
    ensures r.Some? ==> r.value < |players| && players[r.value].id == id
    ensures r.None? ==> forall j :: 0 <= j < |players| ==> players[j].id != id
  {
    if |players| == 0 then None
    else if players[0].id == id then Some(0)
    else
      match FindById(players[1..], id)
      case None => None
      case Some(i) => Some(i + 1)
  }

  /** `getProfile(playerId)`. */
  function GetProfile(u: Users, playerId: int): (r: Result<Profile, AuthError>)
    ensures r.Failure? <==> forall j :: 0 <= j < |u.players| ==> u.players[j].id != playerId
    ensures r.Failure? ==> r.error == PlayerNotFound && r.error.Status() == 401
    ensures r.Success? ==> exists j :: (0 <= j < |u.players| && u.players[j].id == playerId
      && r.value == Profile(u.players[j].id, u.players[j].email, u.players[j].username, u.players[j].balance, u.players[j].createdAt))
  {
    match FindById(u.players, playerId)
    case None => Failure(PlayerNotFound)
    case Some(j) =>
      var p := u.players[j];
      Success(Profile(p.id, p.email, p.username, p.balance, p.createdAt))
  }

  // ---------------------------------------------------------------- table invariants

  /** Emails are unique, usernames are unique, and ids are below the next id and unique. */
  predicate WellFormed(u: Users) {
    && (forall i, j :: 0 <= i < j < |u.players| ==> u.players[i].email != u.players[j].email)
    && (forall i, j :: 0 <= i < j < |u.players| ==> u.players[i].username != u.players[j].username)
    && (forall i, j :: 0 <= i < j < |u.players| ==> u.players[i].id != u.players[j].id)
    && (forall i :: 0 <= i < |u.players| ==> u.players[i].id < u.nextId)
  }

  /** Registration keeps emails, usernames and ids unique. */
  lemma RegisterKeepsWellFormed(u: Users, email: string, username: string, password: string, crypto: Crypto)
    requires WellFormed(u)
    ensures WellFormed(Register(u, email, username, password, crypto).0)
  {
  }

  /**
   * A player who has just registered can log in with the same password by
   * email, unless an older player's username equals that email (the lookup
   * matches either field and takes the first row).
   */
  lemma RegisterThenLoginByEmail(u: Users, email: string, username: string, password: string, crypto: Crypto)
    requires forall pw :: crypto.compare(pw, crypto.hash(pw))
    requires Register(u, email, username, password, crypto).1.Success?
    requires forall j :: 0 <= j < |u.players| ==> u.players[j].username != email
    ensures var r := Register(u, email, username, password, crypto);
      Login(r.0, email, password, crypto) == r.1
  {
    var r := Register(u, email, username, password, crypto);
    var players := r.0.players;
    forall j | 0 <= j < |u.players|
      ensures players[j].email != email && players[j].username != email
    {
      assert players[j] == u.players[j];
    }
    assert players[|u.players|].email == email;
  }

  /** Likewise by username, unless an older player's email equals that username. */
  lemma RegisterThenLoginByUsername(u: Users, email: string, username: string, password: string, crypto: Crypto)
    requires forall pw :: crypto.compare(pw, crypto.hash(pw))
    requires Register(u, email, username, password, crypto).1.Success?
    requires forall j :: 0 <= j < |u.players| ==> u.players[j].email != username
    ensures var r := Register(u, email, username, password, crypto);
      Login(r.0, username, password, crypto) == r.1
  {
    var r := Register(u, email, username, password, crypto);
    var players := r.0.players;
    forall j | 0 <= j < |u.players|
      ensures players[j].email != username && players[j].username != username
    {
      assert players[j] == u.players[j];
    }
    assert players[|u.players|].username == username;
  }

  /** A suspended account is reported as suspended whatever password is given. */
  lemma SuspendedBeforePassword(u: Users, ident: string, pw1: string, pw2: string, crypto: Crypto)
    requires FindFirst(u.players, ident, ident).Some?
    requires !u.players[FindFirst(u.players, ident, ident).value].isActive
    ensures Login(u, ident, pw1, crypto) == Login(u, ident, pw2, crypto) == Failure(AccountSuspended)
  {
  }

  /** An unknown identifier and a wrong password fail alike, so a caller cannot tell them apart. */
  lemma UnknownAndWrongPasswordAlike(u: Users, ident: string, password: string, crypto: Crypto)
    requires FindFirst(u.players, ident, ident).None? ||
      (var p := u.players[FindFirst(u.players, ident, ident).value]; p.isActive && !crypto.compare(password, p.passwordHash))
    ensures Login(u, ident, password, crypto) == Failure(InvalidCredentials)
  {
  }

  /** A registered player's profile is found, with a zero balance. */
  lemma RegisteredProfile(u: Users, email: string, username: string, password: string, crypto: Crypto)
    requires WellFormed(u)
    requires Register(u, email, username, password, crypto).1.Success?
    ensures var r := Register(u, email, username, password, crypto);
      GetProfile(r.0, u.nextId) == Success(Profile(u.nextId, email, username, 0.0, 0))
  {
    var r := Register(u, email, username, password, crypto);
    var players := r.0.players;
    forall j | 0 <= j < |u.players|
      ensures players[j].id != u.nextId
    {
      assert players[j] == u.players[j];
    }
    assert players[|u.players|].id == u.nextId;
    assert FindById(players, u.nextId) == Some(|u.players|);
  }
}

=== FILE: bet365_fetch.dfy ===
/**
 * `getLiveGames` of the compiled service (dist/bets-api.service.js): a
 * cache-fronted fetch of the bet365 in-play stream for each sport, trying two
 * endpoints in turn and keeping the first whose per-sport results, joined in
 * sport order, are non-empty.
 */
module Bet365Fetch {
  import opened Wrappers
  import opened Text
  import opened Cache
  import P = HierParser

  const Endpoints: seq<string> := [
    "https://api.betsapi.com/v1/bet365/inplay",
    "https://api.b365api.com/v1/bet365/inplay"
  ]

  /** The sports fetched when no sport is requested. */
  const AllSports: seq<int> := [1, 13, 18, 12, 4, 16]

  const LiveTtlSeconds: nat := 15

  /** The upstream reply to one request: a thrown error, or a body with its `success` flag and `results`. */
  datatype Reply = Threw(message: string) | Answered(success: Option<int>, results: P.Payload)

  /** One upstream request: which endpoint, for which sport. */
  datatype Request = Request(endpoint: nat, sportId: int)

  datatype Response = Response(
    success: bool,
    results: seq<P.FeedEvent>,
    count: nat,
    timestamp: string,
    isSimulated: bool)

  /** A requested sport counts only when it is a non-zero number (JavaScript truthiness). */
  predicate Requested(sportId: Option<int>) {
    sportId.Some? && sportId.value != 0
  }

  function SportsToFetch(sportId: Option<int>): (sports: seq<int>)
    ensures Requested(sportId) ==> sports == [sportId.value]
    ensures !Requested(sportId) ==> sports == AllSports
  {
    if Requested(sportId) then [sportId.value] else AllSports
  }

  function CacheKey(sportId: Option<int>): string {
    "betsapi:live_games:" + (if Requested(sportId) then IntToString(sportId.value) else "all")
  }

  /** What one sport's request contributes: its parsed matches, or nothing on any failure. */
  function SportResults(reply: Reply): seq<P.FeedEvent> {
    match reply
    case Threw(_) => []
    case Answered(success, results) =>
      if success != Some(1) then []
      else
        match P.Parse(P.Deployed, results)
        case Success(events) => events
        case Failure(_) => []
  }

  /** Blocks joined end to end, in order. */
  function Flatten<T>(blocks: seq<seq<T>>): seq<T> {
    if |blocks| == 0 then [] else Flatten(blocks[..|blocks| - 1]) + blocks[|blocks| - 1]
  }

  /** An element is in the joined blocks exactly when it is in one of them. */
  lemma {:induction false} FlattenMembers<T>(blocks: seq<seq<T>>, e: T)
    ensures e in Flatten(blocks) <==> exists i :: 0 <= i < |blocks| && e in blocks[i]
  {
    if |blocks| > 0 {
      var n := |blocks| - 1;
      FlattenMembers(blocks[..n], e);
      assert forall i :: 0 <= i < n ==> blocks[..n][i] == blocks[i];
    }
  }

  lemma {:induction false} FlattenAppend<T>(a: seq<seq<T>>, b: seq<seq<T>>)
    ensures Flatten(a + b) == Flatten(a) + Flatten(b)
  {
    if |b| == 0 {
      assert a + b == a;
    } else {
      var n := |b| - 1;
      var ab := a + b;
      assert ab[..|ab| - 1] == a + b[..n];
      assert ab[|ab| - 1] == b[n];
      FlattenAppend(a, b[..n]);
      calc {
        Flatten(ab);
        Flatten(a + b[..n]) + b[n];
        (Flatten(a) + Flatten(b[..n])) + b[n];
        Flatten(a) + (Flatten(b[..n]) + b[n]);
      }
    }
  }

  /** One endpoint's per-sport results, in sport order. */
  function PerSport(endpoint: nat, sports: seq<int>, replies: (nat, int) -> Reply): (b: seq<seq<P.FeedEvent>>)
    ensures |b| == |sports| && forall i :: 0 <= i < |sports| ==> b[i] == SportResults(replies(endpoint, sports[i]))
  {
    seq(|sports|, i requires 0 <= i < |sports| => SportResults(replies(endpoint, sports[i])))
  }

  lemma CollectedFromSome(endpoint: nat, sports: seq<int>, replies: (nat, int) -> Reply, e: P.FeedEvent)
    requires e in Flatten(PerSport(endpoint, sports, replies))
    ensures exists s :: s in sports && e in SportResults(replies(endpoint, s))
  {
    var blocks := PerSport(endpoint, sports, replies);
    FlattenMembers(blocks, e);
    var i :| 0 <= i < |blocks| && e in blocks[i];
    var s := sports[i];
    assert blocks[i] == SportResults(replies(endpoint, s));
    assert s in sports && e in SportResults(replies(endpoint, s));
  }

  lemma CollectedFromEach(endpoint: nat, sports: seq<int>, replies: (nat, int) -> Reply, i: nat, e: P.FeedEvent)
    requires i < |sports| && e in SportResults(replies(endpoint, sports[i]))
    ensures e in Flatten(PerSport(endpoint, sports, replies))
  {
    var blocks := PerSport(endpoint, sports, replies);
    assert e in blocks[i];
    FlattenMembers(blocks, e);
  }

  /**
   * The per-sport results of one endpoint, joined in sport order
   * (`Promise.all(...).flat()`): exactly the matches some fetched sport yields.
   */
  function Collect(endpoint: nat, sports: seq<int>, replies: (nat, int) -> Reply): (r: seq<P.FeedEvent>)
    ensures forall e :: e in r ==> exists s :: s in sports && e in SportResults(replies(endpoint, s))
    ensures forall i, e :: 0 <= i < |sports| && e in SportResults(replies(endpoint, sports[i])) ==> e in r
  {
    var r := Flatten(PerSport(endpoint, sports, replies));
    forall e | e in r
      ensures exists s :: s in sports && e in SportResults(replies(endpoint, s))
    {
      CollectedFromSome(endpoint, sports, replies, e);
    }
    forall i: nat, e | i < |sports| && e in SportResults(replies(endpoint, sports[i]))
      ensures e in r
    {
      CollectedFromEach(endpoint, sports, replies, i, e);
    }
    r
  }

  /** Collecting over two runs of sports joins the two collections in the same order. */
  lemma CollectAppend(endpoint: nat, a: seq<int>, b: seq<int>, replies: (nat, int) -> Reply)
    ensures Collect(endpoint, a + b, replies) == Collect(endpoint, a, replies) + Collect(endpoint, b, replies)
  {
    assert PerSport(endpoint, a + b, replies) == PerSport(endpoint, a, replies) + PerSport(endpoint, b, replies);
    FlattenAppend(PerSport(endpoint, a, replies), PerSport(endpoint, b, replies));
  }

  /** One sport's collection is that sport's own results. */
  lemma CollectSingle(endpoint: nat, s: int, replies: (nat, int) -> Reply)
    ensures Collect(endpoint, [s], replies) == SportResults(replies(endpoint, s))
  {
    var blocks := PerSport(endpoint, [s], replies);
    assert blocks[..0] == [];
    assert Flatten(blocks) == Flatten(blocks[..0]) + blocks[0];
  }

  function RequestsTo(endpoint: nat, sports: seq<int>): (rs: seq<Request>)
    ensures |rs| == |sports|
    ensures forall i :: 0 <= i < |sports| ==> rs[i] == Request(endpoint, sports[i])
  {
    seq(|sports|, i requires 0 <= i < |sports| => Request(endpoint, sports[i]))
  }

  /** `getLiveGames(sportId)` given the cache read, the upstream replies and the clock. */
  function GetLiveGames(sportId: Option<int>, cached: Lookup<Response>, replies: (nat, int) -> Reply, now: string)
    : (t: Trace<Response, Request>)
    ensures cached.Hit? ==> t == Trace(cached.value, [], [])
    ensures !cached.Hit? ==>
      var sports := SportsToFetch(sportId);
      var first := Collect(0, sports, replies);
      && t.response.success && !t.response.isSimulated
      && t.response.count == |t.response.results|
      && t.response.timestamp == now
      && (|first| > 0 ==> t.response.results == first && t.requests == RequestsTo(0, sports))
      && (|first| == 0 ==> t.response.results == Collect(1, sports, replies)
                           && t.requests == RequestsTo(0, sports) + RequestsTo(1, sports))
      && (|t.response.results| > 0 <==> t.writes == [Write(CacheKey(sportId), t.response, LiveTtlSeconds)])
      && (|t.response.results| == 0 <==> t.writes == [])
  {
    if cached.Hit? then Trace(cached.value, [], [])
    else
      var sports := SportsToFetch(sportId);
      var first := Collect(0, sports, replies);
      var results := if |first| > 0 then first else Collect(1, sports, replies);
      var requests := RequestsTo(0, sports) + (if |first| > 0 then [] else RequestsTo(1, sports));
      var response := Response(true, results, |results|, now, false);
      Trace(response, requests, if |results| > 0 then [Write(CacheKey(sportId), response, LiveTtlSeconds)] else [])
  }

  /** Every match served fresh was parsed from one sport's reply on one of the two endpoints. */
  lemma FreshMatchesComeFromReplies(sportId: Option<int>, cached: Lookup<Response>, replies: (nat, int) -> Reply, now: string, e: P.FeedEvent)
    requires !cached.Hit?
    requires e in GetLiveGames(sportId, cached, replies, now).response.results
    ensures exists ep: nat, s :: ep < |Endpoints| && s in SportsToFetch(sportId) && e in SportResults(replies(ep, s))
  {
    var sports := SportsToFetch(sportId);
    if |Collect(0, sports, replies)| > 0 {
      var s :| s in sports && e in SportResults(replies(0, s));
      assert 0 < |Endpoints|;
    } else {
      var s :| s in sports && e in SportResults(replies(1, s));
      assert 1 < |Endpoints|;
    }
  }

  /** A sport whose reply fails in any way contributes nothing. */
  lemma FailedSportContributesNothing(reply: Reply)
    requires reply.Threw? || (reply.Answered? && reply.success != Some(1)) || (reply.Answered? && reply.results.NotArray?)
    ensures SportResults(reply) == []
  {
  }
}

=== FILE: cache.dfy ===
/**
 * The shared key/value cache as the services see it: a read either finds a
 * value, finds nothing, or fails (the services ignore read failures), and a
 * write stores a value under a key for a number of seconds. Expiry itself
 * belongs to the store and is not modelled here.
 */
module Cache {

  datatype Lookup<V> = Hit(value: V) | Miss | Unavailable

  datatype Write<V> = Write(key: string, value: V, ttlSeconds: nat)

  /**
   * What one read-through call did: the response it returned, the upstream
   * requests it issued, in issue order, and the cache writes it made.
   */
  datatype Trace<V, Q> = Trace(response: V, requests: seq<Q>, writes: seq<Write<V>>)
}

=== FILE: currency.dfy ===
/**
 * Site currencies (src/currency.service.ts): the link table between sites
 * and currencies, with at most one default currency per site.
 *
 * A link row is unique per (site, currency) pair. `setSiteCurrency` first
 * clears every default flag of the site when the new link is to be the
 * default, then updates the pair's row or creates it.
 */
module Currency {
  import opened Wrappers

  datatype Link = Link(id: nat, siteId: int, currencyId: int, isDefault: bool)

  /** The link rows in insertion order and the next row id. */
  datatype Links = Links(rows: seq<Link>, nextId: nat)

  /** The unique index on (siteId, currencyId). */
  predicate UniquePairs(rows: seq<Link>) {
    forall i, j :: 0 <= i < j < |rows| ==>
      rows[i].siteId != rows[j].siteId || rows[i].currencyId != rows[j].currencyId
  }

  /** No site has two default currencies. */
  predicate OneDefaultPerSite(rows: seq<Link>) {
    forall i, j :: 0 <= i < j < |rows| && rows[i].siteId == rows[j].siteId ==>
      !(rows[i].isDefault && rows[j].isDefault)
  }

  /** The number of rows for a (site, currency) pair. */
  function PairCount(rows: seq<Link>, siteId: int, currencyId: int): nat {
    if |rows| == 0 then 0
    else PairCount(rows[..|rows| - 1], siteId, currencyId)
         + (if rows[|rows| - 1].siteId == siteId && rows[|rows| - 1].currencyId == currencyId then 1 else 0)
  }

  /** Where the pair's row is, if it exists. */
  function FindPair(rows: seq<Link>, siteId: int, currencyId: int): (r: Option<nat>)
    ensures r.Some? ==> r.value < |rows| && rows[r.value].siteId == siteId && rows[r.value].currencyId == currencyId
    ensures r.None? ==> forall i :: 0 <= i < |rows| ==> rows[i].siteId != siteId || rows[i].currencyId != currencyId
  {
    if |rows| == 0 then None
    else if rows[0].siteId == siteId && rows[0].currencyId == currencyId then Some(0)
    else
      match FindPair(rows[1..], siteId, currencyId)
      case None => None
      case Some(i) => Some(i + 1)
  }

  /** `updateMany({ where: { siteId }, data: { isDefault: false } })`. */
  function ClearDefaults(rows: seq<Link>, siteId: int): (r: seq<Link>)
    ensures |r| == |rows|
    ensures forall i :: 0 <= i < |rows| ==>
      r[i] == if rows[i].siteId == siteId then rows[i].(isDefault := false) else rows[i]
  {
    seq(|rows|, i requires 0 <= i < |rows| =>
      if rows[i].siteId == siteId then rows[i].(isDefault := false) else rows[i])
  }

  /** `upsert`: set the pair's flag if its row exists, else append a new row. Returns the row written. */
  function Upsert(t: Links, siteId: int, currencyId: int, isDefault: bool): (r: (Links, Link))
    ensures r.1 in r.0.rows
  {
    match FindPair(t.rows, siteId, currencyId)
    case Some(i) =>
      var row := t.rows[i].(isDefault := isDefault);
      assert t.rows[i := row][i] == row;
      (t.(rows := t.rows[i := row]), row)
    case None =>
      var row := Link(t.nextId, siteId, currencyId, isDefault);
      (Links(t.rows + [row], t.nextId + 1), row)
  }

  /** `setSiteCurrency(siteId, currencyId, isDefault)`. */
  function SetSiteCurrency(t: Links, siteId: int, currencyId: int, isDefault: bool): (r: (Links, Link))
    ensures r.1.siteId == siteId && r.1.currencyId == currencyId && r.1.isDefault == isDefault
    ensures r.1 in r.0.rows
    ensures FindPair(t.rows, siteId, currencyId).Some? ==> |r.0.rows| == |t.rows| && r.0.nextId == t.nextId
    ensures FindPair(t.rows, siteId, currencyId).None? ==>
      |r.0.rows| == |t.rows| + 1 && r.0.rows[|t.rows|] == r.1 && r.1.id == t.nextId && r.0.nextId == t.nextId + 1
    ensures forall i :: 0 <= i < |t.rows| ==>
      r.0.rows[i].id == t.rows[i].id && r.0.rows[i].siteId == t.rows[i].siteId
      && r.0.rows[i].currencyId == t.rows[i].currencyId
    ensures forall i :: 0 <= i < |t.rows| && t.rows[i].siteId != siteId ==> r.0.rows[i] == t.rows[i]
    ensures forall i :: 0 <= i < |t.rows| && !isDefault && (t.rows[i].siteId != siteId || t.rows[i].currencyId != currencyId) ==>
      r.0.rows[i] == t.rows[i]
    ensures forall i :: 0 <= i < |r.0.rows| && isDefault && r.0.rows[i].siteId == siteId && r.0.rows[i].currencyId != currencyId ==>
      !r.0.rows[i].isDefault
  {
    var cleared := if isDefault then t.(rows := ClearDefaults(t.rows, siteId)) else t;
    assert FindPair(cleared.rows, siteId, currencyId) == FindPair(t.rows, siteId, currencyId) by {
      FindPairIgnoresFlags(t.rows, cleared.rows, siteId, currencyId);
    }
    Upsert(cleared, siteId, currencyId, isDefault)
  }

  /** The pair search looks only at site and currency ids. */
  lemma {:induction false} FindPairIgnoresFlags(a: seq<Link>, b: seq<Link>, siteId: int, currencyId: int)
    requires |a| == |b|
    requires forall i :: 0 <= i < |a| ==> a[i].siteId == b[i].siteId && a[i].currencyId == b[i].currencyId
    ensures FindPair(a, siteId, currencyId) == FindPair(b, siteId, currencyId)
  {
    if |a| > 0 {
      FindPairIgnoresFlags(a[1..], b[1..], siteId, currencyId);
    }
  }

  lemma {:induction false} PairCountZero(rows: seq<Link>, siteId: int, currencyId: int)
    requires forall i :: 0 <= i < |rows| ==> rows[i].siteId != siteId || rows[i].currencyId != currencyId
    ensures PairCount(rows, siteId, currencyId) == 0
  {
    if |rows| > 0 {
      PairCountZero(rows[..|rows| - 1], siteId, currencyId);
    }
  }

  lemma {:induction false} PairCountOne(rows: seq<Link>, k: nat, siteId: int, currencyId: int)
    requires k < |rows| && rows[k].siteId == siteId && rows[k].currencyId == currencyId
    requires forall i :: 0 <= i < |rows| && i != k ==> rows[i].siteId != siteId || rows[i].currencyId != currencyId
    ensures PairCount(rows, siteId, currencyId) == 1
  {
    var prefix := rows[..|rows| - 1];
    if k == |rows| - 1 {
      PairCountZero(prefix, siteId, currencyId);
    } else {
      PairCountOne(prefix, k, siteId, currencyId);
    }
  }

  /** Afterwards there is exactly one row for the pair, and it carries the requested flag. */
  lemma ExactlyOnePairRow(t: Links, siteId: int, currencyId: int, isDefault: bool)
    requires UniquePairs(t.rows)
    ensures var r := SetSiteCurrency(t, siteId, currencyId, isDefault);
      && PairCount(r.0.rows, siteId, currencyId) == 1
      && FindPair(r.0.rows, siteId, currencyId).Some?
      && r.0.rows[FindPair(r.0.rows, siteId, currencyId).value] == r.1
      && r.0.rows[FindPair(r.0.rows, siteId, currencyId).value].isDefault == isDefault
  {
    var r := SetSiteCurrency(t, siteId, currencyId, isDefault);
    var rows := r.0.rows;
    var k: nat := if FindPair(t.rows, siteId, currencyId).Some? then FindPair(t.rows, siteId, currencyId).value else |t.rows|;
    assert rows[k] == r.1;
    PairCountOne(rows, k, siteId, currencyId);
    var f := FindPair(rows, siteId, currencyId);
    assert f.Some? && f.value == k;
  }

  /** The unique index holds afterwards. */
  lemma KeepsUniquePairs(t: Links, siteId: int, currencyId: int, isDefault: bool)
    requires UniquePairs(t.rows)
    ensures UniquePairs(SetSiteCurrency(t, siteId, currencyId, isDefault).0.rows)
  {
  }

  /** A site never ends up with two default currencies. */
  lemma KeepsOneDefaultPerSite(t: Links, siteId: int, currencyId: int, isDefault: bool)
    requires UniquePairs(t.rows) && OneDefaultPerSite(t.rows)
    ensures OneDefaultPerSite(SetSiteCurrency(t, siteId, currencyId, isDefault).0.rows)
  {
    var rows := SetSiteCurrency(t, siteId, currencyId, isDefault).0.rows;
    forall i, j | 0 <= i < j < |rows| && rows[i].siteId == rows[j].siteId
      ensures !(rows[i].isDefault && rows[j].isDefault)
    {
      if rows[i].siteId == siteId && isDefault {
        assert rows[i].currencyId != currencyId || rows[j].currencyId != currencyId;
      }
    }
  }

  /** Setting the same link twice is setting it once. */
  lemma SetSiteCurrencyIdempotent(t: Links, siteId: int, currencyId: int, isDefault: bool)
    requires UniquePairs(t.rows)
    ensures var once := SetSiteCurrency(t, siteId, currencyId, isDefault);
      SetSiteCurrency(once.0, siteId, currencyId, isDefault) == once
  {
    var once := SetSiteCurrency(t, siteId, currencyId, isDefault);
    var rows := once.0.rows;
    ExactlyOnePairRow(t, siteId, currencyId, isDefault);
    KeepsUniquePairs(t, siteId, currencyId, isDefault);
    var k := FindPair(rows, siteId, currencyId).value;
    var cleared := if isDefault then ClearDefaults(rows, siteId) else rows;
    FindPairIgnoresFlags(rows, cleared, siteId, currencyId);
    var after := cleared[k := cleared[k].(isDefault := isDefault)];
    forall j | 0 <= j < |rows|
      ensures after[j] == rows[j]
    {
      if j != k && isDefault && rows[j].siteId == siteId {
        assert rows[j].currencyId != currencyId;
      }
    }
    assert after == rows;
    assert SetSiteCurrency(once.0, siteId, currencyId, isDefault) == (Links(after, once.0.nextId), rows[k]);
  }

  /** The rows of one site, in table order. */
  function SiteRows(rows: seq<Link>, siteId: int): (r: seq<Link>)
    ensures forall x :: x in r ==> x in rows && x.siteId == siteId
    ensures forall i :: 0 <= i < |rows| && rows[i].siteId == siteId ==> rows[i] in r
  {
    if |rows| == 0 then []
    else
      var prefix := rows[..|rows| - 1];
      assert forall i :: 0 <= i < |prefix| ==> rows[i] == prefix[i];
      SiteRows(prefix, siteId) + (if rows[|rows| - 1].siteId == siteId then [rows[|rows| - 1]] else [])
  }

  /** `getSiteCurrencies(siteId)`: exactly the site's links. */
  function GetSiteCurrencies(t: Links, siteId: int): (r: seq<Link>)
    ensures forall x :: x in r <==> x in t.rows && x.siteId == siteId
  {
    var r := SiteRows(t.rows, siteId);
    assert forall x :: x in t.rows && x.siteId == siteId ==> x in r by {
      forall x | x in t.rows && x.siteId == siteId
        ensures x in r
      {
        var i :| 0 <= i < |t.rows| && t.rows[i] == x;
      }
    }
    r
  }
}

=== FILE: events_api.dfy ===
/**
 * The flat-feed service (src/bets-api.service.ts): live and upcoming match
 * lists fetched per sport in parallel, normalised with defaults, filtered for
 * virtual matches (live only) and cached when non-empty; and a single-event
 * detail lookup with its own short cache.
 *
 * The parallel requests finish in an order the program does not control:
 * each call takes that completion order as a permutation `order` of the
 * fetched sports.
 */
module EventsApi {
  import opened Wrappers
  import opened Text
  import opened Cache

  datatype Sport = Sport(id: int, name: string)

  /** The sport table, in table order. */
  const Sports: seq<Sport> := [
    Sport(1, "Soccer"),
    Sport(3, "Cricket"),
    Sport(13, "Tennis"),
    Sport(18, "Basketball"),
    Sport(12, "American Football"),
    Sport(4, "Ice Hockey")
  ]

  const LiveTtlSeconds: nat := 20
  const UpcomingTtlSeconds: nat := 60
  const DetailsTtlSeconds: nat := 10

  /** One upstream event; each field is the named nested value and may be missing. */
  datatype UpEvent = UpEvent(
    id: Option<string>,
    league: Option<string>,
    home: Option<string>,
    away: Option<string>,
    ss: Option<string>,
    timer: Option<string>,
    timeStatus: Option<string>,
    time: Option<string>)

  /**
   * The upstream reply for one sport: a thrown error, or a body whose
   * `results` may not be an array; an element of the array is an event, or
   * `None` for a `null` (or `undefined`) element.
   */
  datatype Reply = Threw(message: string) | Answered(success: Option<int>, results: Option<seq<Option<UpEvent>>>)

  /** One normalised match as served to clients. */
  datatype Match = Match(
    id: string,
    sportId: string,
    league: string,
    home: string,
    away: string,
    name: string,
    ss: Option<string>,
    timer: Option<string>,
    timeStatus: string,
    scheduledTime: Option<string>,
    isVirtual: bool,
    odds: seq<string>)

  datatype ListResponse = ListResponse(success: bool, results: seq<Match>, count: nat, timestamp: string)

  /** One upstream request: the sport and the day offset (always 0 for live). */
  datatype Request = Request(sportId: int, day: nat)

  /** A template literal of a possibly missing value. */
  function Render(o: Option<string>): string {
    if o.Some? then o.value else "undefined"
  }

  /** `o || null`. */
  function OrNull(o: Option<string>): (r: Option<string>)
    ensures Truthy(o) ==> r == o
    ensures !Truthy(o) ==> r == None
  {
    if Truthy(o) then o else None
  }

  // ---------------------------------------------------------------- sport selection

  function NameOf(id: int, table: seq<Sport>): string {
    if |table| == 0 then "Sport"
    else if table[0].id == id then table[0].name
    else NameOf(id, table[1..])
  }

  /** With a (non-zero) sport id exactly that sport is fetched; otherwise the whole table. */
  function SportsToFetch(sportId: Option<int>): (sports: seq<Sport>)
    ensures sportId.Some? && sportId.value != 0 ==> |sports| == 1 && sports[0].id == sportId.value
    ensures sportId.None? || sportId.value == 0 ==> sports == Sports
  {
    if sportId.Some? && sportId.value != 0 then [Sport(sportId.value, NameOf(sportId.value, Sports))]
    else Sports
  }

  /** `${sportId ?? 'all'}`: a zero sport id is kept in the key even though it fetches every sport. */
  function SportTag(sportId: Option<int>): string {
    if sportId.Some? then IntToString(sportId.value) else "all"
  }

  function LiveKey(sportId: Option<int>): string {
    "betsapi:inplay:v2:" + SportTag(sportId)
  }

  function UpcomingKey(sportId: Option<int>, dateFilter: Option<string>): string {
    "betsapi:upcoming:v2:" + SportTag(sportId) + ":" + dateFilter.GetOr("today")
  }

  function DetailsKey(eventId: string): string {
    "betsapi:details:" + eventId
  }

  lemma RenderedIntIsNotAll(v: int)
    ensures IntToString(v) != "all"
  {
    assert IntToString(v)[0] == '-' || IsDigit(IntToString(v)[0]);
  }

  /** Distinct live-sport selections never share a cache entry. */
  lemma LiveKeysDistinct(a: Option<int>, b: Option<int>)
    requires LiveKey(a) == LiveKey(b)
    ensures a == b
  {
    if a.Some? {
      RenderedIntIsNotAll(a.value);
    }
    if b.Some? {
      RenderedIntIsNotAll(b.value);
    }
    PrefixCancel("betsapi:inplay:v2:", SportTag(a), SportTag(b));
    if a.Some? && b.Some? {
      IntToStringInjective(a.value, b.value);
    }
  }

  // ---------------------------------------------------------------- normalisation

  /** A live event mapped with its defaults; the sport id comes from the request, not the event. */
  function LiveMatch(sport: Sport, ev: UpEvent): Match {
    Match(
      id := Render(ev.id),
      sportId := IntToString(sport.id),
      league := OrElse(ev.league, "Unknown League"),
      home := OrElse(ev.home, "Home"),
      away := OrElse(ev.away, "Away"),
      name := Render(ev.home) + " vs " + Render(ev.away),
      ss := OrNull(ev.ss),
      timer := OrNull(ev.timer),
      timeStatus := OrElse(ev.timeStatus, "1"),
      scheduledTime := None,
      isVirtual := false,
      odds := [])
  }

  /** The virtual-match filter on a mapped live match. */
  predicate LooksVirtual(m: Match) {
    Contains(Lower(m.league), "esoccer") || Contains(Lower(m.league), "ebasketball")
    || Contains(Lower(m.home), "virtual")
  }

  /** A sport's live block: its events mapped and filtered, in feed order. */
  function LiveBlock(sport: Sport, evs: seq<UpEvent>): (r: seq<Match>)
    ensures |r| <= |evs|
    ensures forall m :: m in r ==> !LooksVirtual(m) && !m.isVirtual && m.sportId == IntToString(sport.id) && m.odds == []
  {
    if |evs| == 0 then []
    else
      var m := LiveMatch(sport, evs[|evs| - 1]);
      LiveBlock(sport, evs[..|evs| - 1]) + (if LooksVirtual(m) then [] else [m])
  }

  /** Every feed event mapped to a live match, in feed order. */
  function LiveMatches(sport: Sport, evs: seq<UpEvent>): (r: seq<Match>)
    ensures |r| == |evs| && forall i :: 0 <= i < |evs| ==> r[i] == LiveMatch(sport, evs[i])
  {
    seq(|evs|, i requires 0 <= i < |evs| => LiveMatch(sport, evs[i]))
  }

  lemma LiveMatchesStep(sport: Sport, evs: seq<UpEvent>)
    requires |evs| > 0
    ensures LiveMatches(sport, evs) == LiveMatches(sport, evs[..|evs| - 1]) + [LiveMatch(sport, evs[|evs| - 1])]
  {
    var n := |evs| - 1;
    var whole := LiveMatches(sport, evs);
    var joined := LiveMatches(sport, evs[..n]) + [LiveMatch(sport, evs[n])];
    forall i | 0 <= i < |whole|
      ensures whole[i] == joined[i]
    {
      if i < n {
        assert evs[..n][i] == evs[i];
      }
    }
  }

  /** A match is in a sport's live block exactly when some event of the feed maps to it and it is not virtual. */
  lemma {:induction false} LiveBlockMembers(sport: Sport, evs: seq<UpEvent>, m: Match)
    ensures m in LiveBlock(sport, evs) <==> !LooksVirtual(m) && m in LiveMatches(sport, evs)
  {
    if |evs| > 0 {
      LiveBlockMembers(sport, evs[..|evs| - 1], m);
      LiveMatchesStep(sport, evs);
    }
  }

  /**
   * The events a reply yields: present when the body is `success === 1` with
   * an array holding no `null`. Reading `ev.id` of a `null` element throws
   * inside `map`, and the per-sport `catch` then drops the whole sport.
   */
  function Events(reply: Reply): (r: Option<seq<UpEvent>>)
    ensures r.Some? <==>
      && reply.Answered? && reply.success == Some(1) && reply.results.Some?
      && forall i :: 0 <= i < |reply.results.value| ==> reply.results.value[i].Some?
    ensures r.Some? ==>
      |r.value| == |reply.results.value| && forall i :: 0 <= i < |r.value| ==> reply.results.value[i] == Some(r.value[i])
  {
    if reply.Answered? && reply.success == Some(1) && reply.results.Some?
       && forall i :: 0 <= i < |reply.results.value| ==> reply.results.value[i].Some?
    then
      var xs := reply.results.value;
      Some(seq(|xs|, i requires 0 <= i < |xs| => xs[i].value))
    else None
  }

  /** What one sport contributes: its live block when the reply yields events, else nothing. */
  function LiveContribution(sport: Sport, reply: Reply): (r: seq<Match>)
    ensures Events(reply).None? ==> r == []
    ensures forall m :: m in r ==> !LooksVirtual(m) && !m.isVirtual && m.sportId == IntToString(sport.id) && m.odds == []
  {
    match Events(reply)
    case Some(evs) => LiveBlock(sport, evs)
    case None => []
  }

  function UpcomingMatch(sport: Sport, ev: UpEvent): Match {
    Match(
      id := Render(ev.id),
      sportId := IntToString(sport.id),
      league := OrElse(ev.league, "Unknown League"),
      home := OrElse(ev.home, "Home"),
      away := OrElse(ev.away, "Away"),
      name := Render(ev.home) + " vs " + Render(ev.away),
      ss := None,
      timer := None,
      timeStatus := "0",
      scheduledTime := ev.time,
      isVirtual := false,
      odds := [])
  }

  /** Matches not started yet: status "0", no score and no clock. */
  predicate AllScheduled(ms: seq<Match>) {
    forall m :: m in ms ==> m.timeStatus == "0" && m.ss.None? && m.timer.None?
  }

  /** Upcoming events are mapped, never filtered. */
  function UpcomingContribution(sport: Sport, reply: Reply): (r: seq<Match>)
    ensures Events(reply).Some? ==>
      |r| == |Events(reply).value|
      && forall i :: 0 <= i < |r| ==> r[i] == UpcomingMatch(sport, Events(reply).value[i])
    ensures Events(reply).None? ==> r == []
    ensures AllScheduled(r)
  {
    match Events(reply)
    case Some(evs) => seq(|evs|, i requires 0 <= i < |evs| => UpcomingMatch(sport, evs[i]))
    case None => []
  }

  // ---------------------------------------------------------------- completion order

  function Range(n: nat): (r: seq<nat>)
    ensures |r| == n && forall i :: 0 <= i < n ==> r[i] == i
  {
    if n == 0 then [] else Range(n - 1) + [n - 1]
  }

  /** `order` lists the indices 0..n-1, each once. */
  predicate IsOrder(order: seq<nat>, n: nat) {
    multiset(order) == multiset(Range(n))
  }

  lemma OrderBounded(order: seq<nat>, n: nat)
    requires IsOrder(order, n)
    ensures forall k :: 0 <= k < |order| ==> order[k] < n
  {
    forall k | 0 <= k < |order|
      ensures order[k] < n
    {
      assert order[k] in multiset(order);
      assert order[k] in multiset(Range(n));
      assert order[k] in Range(n);
    }
  }

  /** The blocks joined in completion order. */
  function Assemble(blocks: seq<seq<Match>>, order: seq<nat>): seq<Match>
    requires forall k :: 0 <= k < |order| ==> order[k] < |blocks|
  {
    if |order| == 0 then []
    else Assemble(blocks, order[..|order| - 1]) + blocks[order[|order| - 1]]
  }

  /** The multiset union of the blocks an order names. */
  function Pool(blocks: seq<seq<Match>>, order: seq<nat>): multiset<Match>
    requires forall k :: 0 <= k < |order| ==> order[k] < |blocks|
  {
    if |order| == 0 then multiset{}
    else Pool(blocks, order[..|order| - 1]) + multiset(blocks[order[|order| - 1]])
  }

  lemma {:induction false} AssemblePool(blocks: seq<seq<Match>>, order: seq<nat>)
    requires forall k :: 0 <= k < |order| ==> order[k] < |blocks|
    ensures multiset(Assemble(blocks, order)) == Pool(blocks, order)
  {
    if |order| > 0 {
      AssemblePool(blocks, order[..|order| - 1]);
    }
  }

  lemma {:induction false} PoolAppend(blocks: seq<seq<Match>>, a: seq<nat>, b: seq<nat>)
    requires forall k :: 0 <= k < |a| ==> a[k] < |blocks|
    requires forall k :: 0 <= k < |b| ==> b[k] < |blocks|
    ensures Pool(blocks, a + b) == Pool(blocks, a) + Pool(blocks, b)
    decreases |b|
  {
    if |b| > 0 {
      var b' := b[..|b| - 1];
      assert (a + b)[..|a + b| - 1] == a + b';
      PoolAppend(blocks, a, b');
    } else {
      assert a + b == a;
    }
  }

  lemma PoolRemoveAt(blocks: seq<seq<Match>>, b: seq<nat>, j: nat)
    requires forall k :: 0 <= k < |b| ==> b[k] < |blocks|
    requires j < |b|
    ensures Pool(blocks, b) == Pool(blocks, b[..j] + b[j + 1..]) + multiset(blocks[b[j]])
  {
    var x := b[j];
    assert b == b[..j] + [x] + b[j + 1..];
    PoolAppend(blocks, b[..j], [x]);
    PoolAppend(blocks, b[..j] + [x], b[j + 1..]);
    PoolAppend(blocks, b[..j], b[j + 1..]);
    assert Pool(blocks, [x]) == multiset(blocks[x]) by {
      assert [x][..0] == [];
    }
  }

  lemma MultisetRemoveAt(a: seq<nat>, b: seq<nat>, j: nat)
    requires multiset(a) == multiset(b) && |a| > 0
    requires j < |b| && b[j] == a[|a| - 1]
    ensures multiset(a[..|a| - 1]) == multiset(b[..j] + b[j + 1..])
  {
    var x := b[j];
    assert a == a[..|a| - 1] + [x];
    assert b == b[..j] + [x] + b[j + 1..];
    assert multiset(a) == multiset(a[..|a| - 1]) + multiset{x};
    assert multiset(b) == multiset(b[..j] + b[j + 1..]) + multiset{x};
    assert multiset(a[..|a| - 1]) == multiset(a) - multiset{x};
    assert multiset(b[..j] + b[j + 1..]) == multiset(b) - multiset{x};
  }

  /** The pool depends only on which indices the order names, not on their arrangement. */
  lemma {:induction false} PoolPermutation(blocks: seq<seq<Match>>, a: seq<nat>, b: seq<nat>)
    requires forall k :: 0 <= k < |a| ==> a[k] < |blocks|
    requires forall k :: 0 <= k < |b| ==> b[k] < |blocks|
    requires multiset(a) == multiset(b)
    ensures Pool(blocks, a) == Pool(blocks, b)
    decreases |a|
  {
    if |a| > 0 {
      var x := a[|a| - 1];
      assert x in multiset(b) by {
        assert x in multiset(a);
      }
      var j :| 0 <= j < |b| && b[j] == x;
      var b' := b[..j] + b[j + 1..];
      MultisetRemoveAt(a, b, j);
      PoolPermutation(blocks, a[..|a| - 1], b');
      PoolRemoveAt(blocks, b, j);
    } else {
      assert |b| == |multiset(b)|;
    }
  }

  /** Every match of every block, counted with multiplicity. */
  function AllBlocks(blocks: seq<seq<Match>>): multiset<Match> {
    Pool(blocks, Range(|blocks|))
  }

  /** Whatever the completion order, the joined blocks hold every block's matches, each as often. */
  lemma OrderPool(blocks: seq<seq<Match>>, order: seq<nat>)
    requires IsOrder(order, |blocks|)
    ensures forall k :: 0 <= k < |order| ==> order[k] < |blocks|
    ensures multiset(Assemble(blocks, order)) == AllBlocks(blocks)
  {
    OrderBounded(order, |blocks|);
    AssemblePool(blocks, order);
    PoolPermutation(blocks, order, Range(|blocks|));
  }

  /** A block an order names is wholly in its pool. */
  lemma {:induction false} PoolHoldsBlock(blocks: seq<seq<Match>>, order: seq<nat>, k: nat)
    requires forall j :: 0 <= j < |order| ==> order[j] < |blocks|
    requires k < |order|
    ensures multiset(blocks[order[k]]) <= Pool(blocks, order)
  {
    if k < |order| - 1 {
      PoolHoldsBlock(blocks, order[..|order| - 1], k);
    }
  }

  /** Every match of block i is in the pool of all blocks. */
  lemma AllBlocksHold(blocks: seq<seq<Match>>, i: nat, m: Match)
    requires i < |blocks| && m in blocks[i]
    ensures m in AllBlocks(blocks)
  {
    PoolHoldsBlock(blocks, Range(|blocks|), i);
    assert m in multiset(blocks[i]);
  }

  lemma {:induction false} AssembleAppend(blocks: seq<seq<Match>>, a: seq<nat>, b: seq<nat>)
    requires forall k :: 0 <= k < |a| ==> a[k] < |blocks|
    requires forall k :: 0 <= k < |b| ==> b[k] < |blocks|
    ensures Assemble(blocks, a + b) == Assemble(blocks, a) + Assemble(blocks, b)
    decreases |b|
  {
    if |b| > 0 {
      var b' := b[..|b| - 1];
      assert (a + b)[..|a + b| - 1] == a + b';
      AssembleAppend(blocks, a, b');
    } else {
      assert a + b == a;
    }
  }

  /**
   * The k-th block to complete sits in one piece, in its own order, right
   * after the blocks that completed before it.
   */
  lemma BlockInPlace(blocks: seq<seq<Match>>, order: seq<nat>, k: nat)
    requires forall j :: 0 <= j < |order| ==> order[j] < |blocks|
    requires k < |order|
    ensures var pre := |Assemble(blocks, order[..k])|;
      && pre + |blocks[order[k]]| <= |Assemble(blocks, order)|
      && Assemble(blocks, order)[pre..pre + |blocks[order[k]]|] == blocks[order[k]]
  {
    var head := order[..k + 1];
    assert order == head + order[k + 1..];
    AssembleAppend(blocks, head, order[k + 1..]);
    assert head[..k] == order[..k];
    assert Assemble(blocks, head) == Assemble(blocks, order[..k]) + blocks[order[k]];
  }

  // ---------------------------------------------------------------- the three calls

  /** One request per fetched sport, in table order, for the given day. */
  function RequestsFor(sports: seq<Sport>, day: nat): (rs: seq<Request>)
    ensures |rs| == |sports| && forall i :: 0 <= i < |sports| ==> rs[i] == Request(sports[i].id, day)
  {
    seq(|sports|, i requires 0 <= i < |sports| => Request(sports[i].id, day))
  }

  /**
   * A freshly fetched list: the blocks joined in completion order, counted,
   * stamped, and written to the cache under `key` only when non-empty.
   */
  function FreshList(blocks: seq<seq<Match>>, order: seq<nat>, requests: seq<Request>, key: string, ttl: nat, now: string)
    : (t: Trace<ListResponse, Request>)
    requires IsOrder(order, |blocks|)
    ensures forall k :: 0 <= k < |order| ==> order[k] < |blocks|
    ensures t.response.results == Assemble(blocks, order)
    ensures multiset(t.response.results) == AllBlocks(blocks)
    ensures t.response.success && t.response.count == |t.response.results| && t.response.timestamp == now
    ensures t.requests == requests
    ensures |t.response.results| > 0 ==> t.writes == [Write(key, t.response, ttl)]
    ensures |t.response.results| == 0 ==> t.writes == []
  {
    OrderPool(blocks, order);
    var results := Assemble(blocks, order);
    var response := ListResponse(true, results, |results|, now);
    Trace(response, requests, if |results| > 0 then [Write(key, response, ttl)] else [])
  }

  /** Each fetched sport's contribution, in request order. */
  function LiveBlocks(sports: seq<Sport>, replies: int -> Reply): (r: seq<seq<Match>>)
    ensures |r| == |sports| && forall i :: 0 <= i < |sports| ==> r[i] == LiveContribution(sports[i], replies(sports[i].id))
  {
    seq(|sports|, i requires 0 <= i < |sports| => LiveContribution(sports[i], replies(sports[i].id)))
  }

  /** `getLiveGames(sportId)`. */
  function GetLiveGames(sportId: Option<int>, cached: Lookup<ListResponse>, replies: int -> Reply,
                        order: seq<nat>, now: string): (t: Trace<ListResponse, Request>)
    requires IsOrder(order, |SportsToFetch(sportId)|)
    ensures forall k :: 0 <= k < |order| ==> order[k] < |SportsToFetch(sportId)|
    ensures cached.Hit? ==> t == Trace(cached.value, [], [])
    ensures !cached.Hit? ==> t.response.results == Assemble(LiveBlocks(SportsToFetch(sportId), replies), order)
    ensures !cached.Hit? ==>
      && t.response.success
      && t.response.count == |t.response.results|
      && t.response.timestamp == now
      && |t.requests| == |SportsToFetch(sportId)|
      && (forall i :: 0 <= i < |t.requests| ==> t.requests[i] == Request(SportsToFetch(sportId)[i].id, 0))
      && multiset(t.response.results) == AllBlocks(LiveBlocks(SportsToFetch(sportId), replies))
      && (|t.response.results| > 0 ==> t.writes == [Write(LiveKey(sportId), t.response, LiveTtlSeconds)])
      && (|t.response.results| == 0 ==> t.writes == [])
  {
    OrderBounded(order, |SportsToFetch(sportId)|);
    if cached.Hit? then Trace(cached.value, [], [])
    else
      var sports := SportsToFetch(sportId);
      FreshList(LiveBlocks(sports, replies), order, RequestsFor(sports, 0), LiveKey(sportId), LiveTtlSeconds, now)
  }

  /** Whichever order the requests finish in, the same matches come back, the same number of times. */
  lemma LiveResultsIndependentOfOrder(sportId: Option<int>, cached: Lookup<ListResponse>, replies: int -> Reply,
                                      order1: seq<nat>, order2: seq<nat>, now: string)
    requires !cached.Hit?
    requires IsOrder(order1, |SportsToFetch(sportId)|) && IsOrder(order2, |SportsToFetch(sportId)|)
    ensures multiset(GetLiveGames(sportId, cached, replies, order1, now).response.results)
         == multiset(GetLiveGames(sportId, cached, replies, order2, now).response.results)
    ensures GetLiveGames(sportId, cached, replies, order1, now).response.count
         == GetLiveGames(sportId, cached, replies, order2, now).response.count
  {
    var r1 := GetLiveGames(sportId, cached, replies, order1, now).response.results;
    var r2 := GetLiveGames(sportId, cached, replies, order2, now).response.results;
    assert |multiset(r1)| == |multiset(r2)|;
  }

  lemma {:induction false} AssembleMember(blocks: seq<seq<Match>>, order: seq<nat>, m: Match)
    requires forall k :: 0 <= k < |order| ==> order[k] < |blocks|
    requires m in Assemble(blocks, order)
    ensures exists i :: 0 <= i < |blocks| && m in blocks[i]
  {
    var n := |order| - 1;
    if m !in blocks[order[n]] {
      AssembleMember(blocks, order[..n], m);
    }
  }

  /**
   * Every live match served fresh is non-virtual, has no odds, and carries
   * the id of one of the fetched sports.
   */
  lemma LiveResultsShape(sportId: Option<int>, cached: Lookup<ListResponse>, replies: int -> Reply,
                         order: seq<nat>, now: string, m: Match)
    requires !cached.Hit?
    requires IsOrder(order, |SportsToFetch(sportId)|)
    requires m in GetLiveGames(sportId, cached, replies, order, now).response.results
    ensures !LooksVirtual(m) && m.odds == [] && !m.isVirtual
    ensures exists s :: s in SportsToFetch(sportId) && m.sportId == IntToString(s.id)
  {
    var sports := SportsToFetch(sportId);
    OrderBounded(order, |sports|);
    var blocks := LiveBlocks(sports, replies);
    assert GetLiveGames(sportId, cached, replies, order, now).response.results == Assemble(blocks, order);
    AssembleMember(blocks, order, m);
    var i :| 0 <= i < |blocks| && m in blocks[i];
    assert m in LiveContribution(sports[i], replies(sports[i].id));
    assert sports[i] in sports;
  }
  /** Every non-virtual event of every fetched sport whose reply yields events is served, mapped. */
  lemma LiveMatchServed(sportId: Option<int>, cached: Lookup<ListResponse>, replies: int -> Reply,
                        order: seq<nat>, now: string, i: nat, j: nat)
    requires !cached.Hit?
    requires IsOrder(order, |SportsToFetch(sportId)|)
    requires i < |SportsToFetch(sportId)|
    requires Events(replies(SportsToFetch(sportId)[i].id)).Some?
    requires j < |Events(replies(SportsToFetch(sportId)[i].id)).value|
    requires !LooksVirtual(LiveMatch(SportsToFetch(sportId)[i], Events(replies(SportsToFetch(sportId)[i].id)).value[j]))
    ensures LiveMatch(SportsToFetch(sportId)[i], Events(replies(SportsToFetch(sportId)[i].id)).value[j])
         in GetLiveGames(sportId, cached, replies, order, now).response.results
  {
    var sports := SportsToFetch(sportId);
    var evs := Events(replies(sports[i].id)).value;
    var m := LiveMatch(sports[i], evs[j]);
    var blocks := LiveBlocks(sports, replies);
    assert LiveMatches(sports[i], evs)[j] == m;
    LiveBlockMembers(sports[i], evs, m);
    assert m in blocks[i];
    AllBlocksHold(blocks, i, m);
    assert m in multiset(GetLiveGames(sportId, cached, replies, order, now).response.results);
  }


  /** Day offset: 1 exactly for the filter 'tomorrow'. */
  function DayOffset(dateFilter: Option<string>): (day: nat)
    ensures day == 1 <==> dateFilter == Some("tomorrow")
    ensures day <= 1
  {
    if dateFilter == Some("tomorrow") then 1 else 0
  }

  /** Each fetched sport's upcoming matches for the day, in request order; all of them not started. */
  function UpcomingBlocks(sports: seq<Sport>, replies: (int, nat) -> Reply, day: nat): (r: seq<seq<Match>>)
    ensures |r| == |sports| && forall i :: 0 <= i < |sports| ==> r[i] == UpcomingContribution(sports[i], replies(sports[i].id, day))
    ensures forall i :: 0 <= i < |r| ==> AllScheduled(r[i])
  {
    seq(|sports|, i requires 0 <= i < |sports| => UpcomingContribution(sports[i], replies(sports[i].id, day)))
  }

  /** `getUpcomingGames(sportId, dateFilter)`. */
  function GetUpcomingGames(sportId: Option<int>, dateFilter: Option<string>, cached: Lookup<ListResponse>,
                            replies: (int, nat) -> Reply, order: seq<nat>, now: string): (t: Trace<ListResponse, Request>)
    requires IsOrder(order, |SportsToFetch(sportId)|)
    ensures forall k :: 0 <= k < |order| ==> order[k] < |SportsToFetch(sportId)|
    ensures cached.Hit? ==> t == Trace(cached.value, [], [])
    ensures !cached.Hit? ==>
      t.response.results == Assemble(UpcomingBlocks(SportsToFetch(sportId), replies, DayOffset(dateFilter)), order)
    ensures !cached.Hit? ==>
      && t.response.success
      && t.response.count == |t.response.results|
      && t.response.timestamp == now
      && |t.requests| == |SportsToFetch(sportId)|
      && (forall i :: 0 <= i < |t.requests| ==> t.requests[i] == Request(SportsToFetch(sportId)[i].id, DayOffset(dateFilter)))
      && (forall q :: q in t.requests ==> q.day == DayOffset(dateFilter))
      && multiset(t.response.results) == AllBlocks(UpcomingBlocks(SportsToFetch(sportId), replies, DayOffset(dateFilter)))
      && AllScheduled(t.response.results)
      && (|t.response.results| > 0 ==> t.writes == [Write(UpcomingKey(sportId, dateFilter), t.response, UpcomingTtlSeconds)])
      && (|t.response.results| == 0 ==> t.writes == [])
  {
    OrderBounded(order, |SportsToFetch(sportId)|);
    if cached.Hit? then Trace(cached.value, [], [])
    else
      var sports := SportsToFetch(sportId);
      var day := DayOffset(dateFilter);
      var blocks := UpcomingBlocks(sports, replies, day);
      UpcomingShape(blocks, order);
      FreshList(blocks, order, RequestsFor(sports, day), UpcomingKey(sportId, dateFilter), UpcomingTtlSeconds, now)
  }

  lemma {:induction false} UpcomingShape(blocks: seq<seq<Match>>, order: seq<nat>)
    requires forall k :: 0 <= k < |order| ==> order[k] < |blocks|
    requires forall i :: 0 <= i < |blocks| ==> AllScheduled(blocks[i])
    ensures AllScheduled(Assemble(blocks, order))
  {
    if |order| > 0 {
      UpcomingShape(blocks, order[..|order| - 1]);
    }
  }
  /** Every event of every fetched sport whose reply for the day yields events is served, mapped. */
  lemma UpcomingMatchServed(sportId: Option<int>, dateFilter: Option<string>, cached: Lookup<ListResponse>,
                            replies: (int, nat) -> Reply, order: seq<nat>, now: string, i: nat, j: nat)
    requires !cached.Hit?
    requires IsOrder(order, |SportsToFetch(sportId)|)
    requires i < |SportsToFetch(sportId)|
    requires Events(replies(SportsToFetch(sportId)[i].id, DayOffset(dateFilter))).Some?
    requires j < |Events(replies(SportsToFetch(sportId)[i].id, DayOffset(dateFilter))).value|
    ensures UpcomingMatch(SportsToFetch(sportId)[i], Events(replies(SportsToFetch(sportId)[i].id, DayOffset(dateFilter))).value[j])
         in GetUpcomingGames(sportId, dateFilter, cached, replies, order, now).response.results
  {
    var sports := SportsToFetch(sportId);
    var day := DayOffset(dateFilter);
    var blocks := UpcomingBlocks(sports, replies, day);
    var m := UpcomingMatch(sports[i], Events(replies(sports[i].id, day)).value[j]);
    assert blocks[i][j] == m;
    AllBlocksHold(blocks, i, m);
    assert m in multiset(GetUpcomingGames(sportId, dateFilter, cached, replies, order, now).response.results);
  }


  /** The reply to a detail request: thrown with a message, or a body with `success` and optional `results`. */
  datatype DetailReply<T> = DetailThrew(message: string) | DetailAnswered(success: Option<int>, results: Option<T>)

  datatype DetailResponse<T> = Found(results: T, timestamp: string) | NotFound(error: string)

  /** `getGameDetails(eventId)`: success, cached for 10 s, only for `success === 1` with results. */
  function GetGameDetails<T>(eventId: string, cached: Lookup<DetailResponse<T>>, reply: DetailReply<T>, now: string)
    : (t: Trace<DetailResponse<T>, string>)
    ensures cached.Hit? ==> t == Trace(cached.value, [], [])
    ensures !cached.Hit? ==> t.requests == [eventId]
    ensures !cached.Hit? ==> (t.response.Found? <==> reply.DetailAnswered? && reply.success == Some(1) && reply.results.Some?)
    ensures !cached.Hit? && t.response.Found? ==>
      t.response.results == reply.results.value && t.writes == [Write(DetailsKey(eventId), t.response, DetailsTtlSeconds)]
    ensures !cached.Hit? && t.response.NotFound? ==> t.writes == []
    ensures !cached.Hit? && reply.DetailThrew? ==> t.response == NotFound(reply.message)
    ensures !cached.Hit? && reply.DetailAnswered? && t.response.NotFound? ==> t.response.error == "Event not found"
  {
    if cached.Hit? then Trace(cached.value, [], [])
    else
      match reply
      case DetailThrew(message) => Trace(NotFound(message), [eventId], [])
      case DetailAnswered(success, results) =>
        if success == Some(1) && results.Some? then
          var response := Found(results.value, now);
          Trace(response, [eventId], [Write(DetailsKey(eventId), response, DetailsTtlSeconds)])
        else Trace(NotFound("Event not found"), [eventId], [])
  }

  /** Distinct events never share a details cache key. */
  lemma DetailsKeysDistinct(a: string, b: string)
    requires a != b
    ensures DetailsKey(a) != DetailsKey(b)
  {
    var prefix := "betsapi:details:";
    assert DetailsKey(a)[|prefix|..] == a;
    assert DetailsKey(b)[|prefix|..] == b;
  }

  /**
   * Read-back: a found event is written under its own key, and a later call
   * whose read finds that value serves it unchanged, with no request and no
   * write, whatever upstream would now answer.
   */
  lemma DetailsServedFromCache<T>(eventId: string, reply: DetailReply<T>, now: string,
                                  laterReply: DetailReply<T>, later: string)
    requires reply.DetailAnswered? && reply.success == Some(1) && reply.results.Some?
    ensures var first := GetGameDetails(eventId, Miss, reply, now);
      && first.response == Found(reply.results.value, now)
      && |first.writes| == 1 && first.writes[0].key == DetailsKey(eventId)
      && GetGameDetails(eventId, Hit(first.writes[0].value), laterReply, later) == Trace(first.response, [], [])
  {
  }
}

=== FILE: gateway.dfy ===
/**
 * The live socket gateway (src/events.gateway.ts, namespace `/live`): a
 * connection counter, per-sport rooms that clients join and leave, and the
 * push that sends one sport's matches to that sport's room and every update
 * to all clients.
 *
 * Socket.io itself is abstract: the hub records which clients are connected
 * and which rooms each has joined, and an operation returns the emissions it
 * asks the server to make. Who receives an emission is `Recipients`.
 */
module Gateway {
  import opened Wrappers
  import opened Text

  type ClientId = nat

  const Greeting: string := "Connected to Chanderhat live feed"

  /** The messages the gateway sends, with their payloads. */
  datatype Message<M> =
    | Connected(message: string, timestamp: string)
    | Subscribed(room: string, requested: Option<int>)
    | LiveUpdate(sportId: int, matches: seq<M>, timestamp: string)
    | LiveUpdateAll(matches: seq<M>, timestamp: string)

  /** Where a message goes: one client, every member of a room, or every client. */
  datatype Emission<M> =
    | ToClient(client: ClientId, msg: Message<M>)
    | ToRoom(room: string, msg: Message<M>)
    | ToAll(msg: Message<M>)

  /**
   * `hasServer`: the socket server has been injected; `connected`: the
   * gateway's own counter; `members`: each connected client with the rooms it
   * has joined.
   */
  datatype Hub = Hub(hasServer: bool, connected: int, members: map<ClientId, set<string>>)

  /** `sport:${sportId}`; an absent id renders as `undefined`. */
  function Room(sportId: Option<int>): (room: string)
    ensures StartsWith(room, "sport:")
  {
    "sport:" + (if sportId.Some? then IntToString(sportId.value) else "undefined")
  }

  /** Distinct sport ids name distinct rooms. */
  lemma RoomsDistinct(a: Option<int>, b: Option<int>)
    requires a != b
    ensures Room(a) != Room(b)
  {
    var ta := if a.Some? then IntToString(a.value) else "undefined";
    var tb := if b.Some? then IntToString(b.value) else "undefined";
    assert Room(a) == "sport:" + ta && Room(b) == "sport:" + tb;
    if Room(a) == Room(b) {
      PrefixCancel("sport:", ta, tb);
      if a.Some? && b.Some? {
        IntToStringInjective(a.value, b.value);
      } else if a.Some? {
        UndefinedIsNoNumber(a.value);
      } else {
        UndefinedIsNoNumber(b.value);
      }
    }
  }

  lemma UndefinedIsNoNumber(i: int)
    ensures IntToString(i) != "undefined"
  {
    var s := IntToString(i);
    if i >= 0 {
      assert AllDigits(s);
      assert IsDigit(s[0]);
    } else {
      assert s[0] == '-';
    }
  }

  /** The clients an emission reaches in the hub's current state. */
  function Recipients<M>(h: Hub, e: Emission<M>): (cs: set<ClientId>)
    ensures cs <= h.members.Keys
  {
    match e
    case ToClient(c, _) => if c in h.members then {c} else {}
    case ToRoom(r, _) => set c | c in h.members && r in h.members[c]
    case ToAll(_) => h.members.Keys
  }

  /** The counter agrees with the connected clients. */
  predicate Counted(h: Hub) {
    h.connected == |h.members.Keys|
  }

  /** `handleConnection`: count the client and greet it. */
  function Connect<M>(h: Hub, client: ClientId, now: string): (r: (Hub, seq<Emission<M>>))
    ensures r.0.connected == h.connected + 1
    ensures r.0.members == h.members[client := {}]
    ensures r.0.hasServer == h.hasServer
    ensures r.1 == [ToClient(client, Connected(Greeting, now))]
  {
    (h.(connected := h.connected + 1, members := h.members[client := {}]), [ToClient(client, Connected(Greeting, now))])
  }

  /** `handleDisconnect`: uncount the client; the server drops it from every room. */
  function Disconnect(h: Hub, client: ClientId): (h': Hub)
    ensures h'.connected == h.connected - 1
    ensures client !in h'.members
    ensures forall c :: c in h.members && c != client ==> c in h'.members && h'.members[c] == h.members[c]
    ensures h'.members.Keys == h.members.Keys - {client}
  {
    h.(connected := h.connected - 1, members := h.members - {client})
  }

  /** A new client that connects and disconnects leaves the hub as it found it. */
  lemma ConnectDisconnect<M>(h: Hub, client: ClientId, now: string)
    requires client !in h.members
    ensures Disconnect(Connect<M>(h, client, now).0, client) == h
  {
    assert (h.members[client := {}] - {client}) == h.members;
  }

  /** Connecting a new client and disconnecting a known one keep the counter exact. */
  lemma ConnectKeepsCounted<M>(h: Hub, client: ClientId, now: string)
    requires Counted(h) && client !in h.members
    ensures Counted(Connect<M>(h, client, now).0)
  {
    assert h.members[client := {}].Keys == h.members.Keys + {client};
  }

  lemma DisconnectKeepsCounted(h: Hub, client: ClientId)
    requires Counted(h) && client in h.members
    ensures Counted(Disconnect(h, client))
  {
    assert (h.members - {client}).Keys == h.members.Keys - {client};
  }

  /** `subscribe:sport`: join the sport's room and confirm to the client. */
  function Subscribe<M>(h: Hub, client: ClientId, sportId: Option<int>): (r: (Hub, seq<Emission<M>>))
    requires client in h.members
    ensures client in r.0.members && r.0.members[client] == h.members[client] + {Room(sportId)}
    ensures forall c :: c in h.members && c != client ==> c in r.0.members && r.0.members[c] == h.members[c]
    ensures r.0.members.Keys == h.members.Keys && r.0.connected == h.connected && r.0.hasServer == h.hasServer
    ensures r.1 == [ToClient(client, Subscribed(Room(sportId), sportId))]
  {
    var room := Room(sportId);
    (h.(members := h.members[client := h.members[client] + {room}]), [ToClient(client, Subscribed(room, sportId))])
  }

  /** `unsubscribe:sport`: leave the sport's room; nothing is sent. */
  function Unsubscribe(h: Hub, client: ClientId, sportId: Option<int>): (h': Hub)
    requires client in h.members
    ensures client in h'.members && h'.members[client] == h.members[client] - {Room(sportId)}
    ensures forall c :: c in h.members && c != client ==> c in h'.members && h'.members[c] == h.members[c]
    ensures h'.members.Keys == h.members.Keys && h'.connected == h.connected && h'.hasServer == h.hasServer
  {
    h.(members := h.members[client := h.members[client] - {Room(sportId)}])
  }

  /** Subscribing twice is subscribing once. */
  lemma SubscribeIdempotent<M>(h: Hub, client: ClientId, sportId: Option<int>)
    requires client in h.members
    ensures Subscribe<M>(Subscribe<M>(h, client, sportId).0, client, sportId).0 == Subscribe<M>(h, client, sportId).0
  {
  }

  /** `pushLiveUpdate(sportId, matches)`. */
  function PushLiveUpdate<M>(h: Hub, sportId: Option<int>, matches: seq<M>, now: string): (es: seq<Emission<M>>)
    ensures !h.hasServer ==> es == []
    ensures h.hasServer && sportId.None? ==> es == [ToAll(LiveUpdateAll(matches, now))]
    ensures h.hasServer && sportId.Some? ==>
      es == [ToRoom(Room(sportId), LiveUpdate(sportId.value, matches, now)), ToAll(LiveUpdateAll(matches, now))]
  {
    if !h.hasServer then []
    else
      var all := [ToAll(LiveUpdateAll(matches, now))];
      if sportId.Some? then [ToRoom(Room(sportId), LiveUpdate(sportId.value, matches, now))] + all else all
  }

  /**
   * A subscribed client receives its sport's update through the room, and a
   * client that unsubscribed again does not (it still gets the all-sports update).
   */
  lemma SubscribedClientReceives<M>(h: Hub, client: ClientId, sportId: int, matches: seq<M>, now: string)
    requires client in h.members && h.hasServer
    ensures var h1 := Subscribe<M>(h, client, Some(sportId)).0;
      var es := PushLiveUpdate(h1, Some(sportId), matches, now);
      client in Recipients(h1, es[0]) && client in Recipients(h1, es[1])
    ensures var h2 := Unsubscribe(Subscribe<M>(h, client, Some(sportId)).0, client, Some(sportId));
      var es := PushLiveUpdate(h2, Some(sportId), matches, now);
      client !in Recipients(h2, es[0]) && client in Recipients(h2, es[1])
  {
  }

  /** A sport's room update reaches only clients that joined that sport's room. */
  lemma RoomUpdateReachesSubscribersOnly<M>(h: Hub, sportId: int, matches: seq<M>, now: string, c: ClientId)
    requires h.hasServer
    ensures c in Recipients(h, PushLiveUpdate(h, Some(sportId), matches, now)[0]) <==>
      c in h.members && Room(Some(sportId)) in h.members[c]
  {
  }

  /** `getConnectedClients()`. */
  function ConnectedClients(h: Hub): (n: int)
    ensures Counted(h) ==> n == |h.members.Keys|
  {
    h.connected
  }
}

=== FILE: hier_parser.dfy ===
/**
 * The hierarchical in-play parser (`parseBet365Inplay`): one forward pass over
 * the upstream record stream, keeping a current category (CT), a current
 * event (EV) and a current market (MA), emitting one match per non-virtual EV
 * and attaching the quotes (PA) of qualifying markets to the current match.
 *
 * Two versions of the parser exist; they differ only in the virtual-event
 * test, the market test and the defaults, so one fold serves both:
 *   - `Deployed`  : the compiled service (dist/bets-api.service.js)
 *   - `Prototype` : the earlier stand-alone script (test_parse.js)
 */
module HierParser {
  import opened Wrappers
  import opened Text

  /** One upstream record; every field may be missing. `kind` is the feed's `type`, `ord` its `OR`. */
  datatype Record = Record(
    kind: Option<string>,
    na: Option<string>,
    id: Option<string>,
    cl: Option<string>,
    vi: Option<string>,
    hp: Option<string>,
    tu: Option<string>,
    ss: Option<string>,
    tm: Option<string>,
    tt: Option<string>,
    ord: Option<string>,
    od: Option<string>)

  /** An element of the record array: an object, a nested array, another scalar, or `null`. */
  datatype Item = Obj(rec: Record) | Arr(elems: seq<Item>) | Scalar | Null

  /** The `results` value handed to the parser: anything that is not an array, or an array. */
  datatype Payload = NotArray | Array(items: seq<Item>)

  datatype Dialect = Deployed | Prototype

  /** One odds entry: the outcome label ("1", "X" or "2") under the key `name` and the quoted price. */
  datatype Quote = Quote(name: string, value: Option<string>)

  /** An emitted match. */
  datatype FeedEvent = FeedEvent(
    id: Option<string>,
    sportId: Option<string>,
    league: Option<string>,
    home: string,
    away: string,
    name: Option<string>,
    ss: Option<string>,
    timer: Option<string>,
    timeStatus: Option<string>,
    odds: seq<Quote>)

  /** The error JavaScript raises when the loop reads `type` of a `null` element. */
  datatype ParseError = TypeError

  // ---------------------------------------------------------------- record tests

  predicate IsKind(item: Item, kind: string) {
    item.Obj? && item.rec.kind == Some(kind)
  }

  /** The category name, lower-cased, names an e-sports or Volta competition. */
  predicate CategoryIsVirtual(ct: Option<Record>) {
    var league := Lower(if ct.Some? then OrElse(ct.value.na, "") else "");
    Contains(league, "esoccer") || Contains(league, "ebasketball") || Contains(league, "volta")
  }

  /** The virtual-event filter applied to an EV record under the current category. */
  predicate IsVirtual(d: Dialect, ct: Option<Record>, ev: Record) {
    var name := Lower(OrElse(ev.na, ""));
    || ev.vi == Some("1")
    || CategoryIsVirtual(ct)
    || (d == Deployed && (Contains(name, "esoccer") || Contains(name, "ebasketball")))
    || (d == Deployed && ev.hp == Some("1") && Contains(OrElse(ev.tu, ""), "VIRTUAL"))
  }

  /** Whether quotes under this market are attached to the current match. */
  predicate MarketQualifies(d: Dialect, ma: Record) {
    || ma.id == Some("1777")
    || (d == Deployed && ma.na.Some?
        && (Contains(Lower(ma.na.value), "result") || Contains(Lower(ma.na.value), "winner")))
    || (d == Prototype && ma.na.Some? && Contains(ma.na.value, "Result"))
  }

  /** Outcome label from the feed's outcome order `OR`. */
  function Label(ord: Option<string>): (l: string)
    ensures l == "1" <==> ord == Some("0")
    ensures l == "X" <==> ord == Some("1")
    ensures l == "1" || l == "X" || l == "2"
  {
    if ord == Some("0") then "1" else if ord == Some("1") then "X" else "2"
  }

  /** `NA?.split(' v ')[k]`: undefined when the name is missing or has fewer pieces. */
  function NamePart(na: Option<string>, k: nat): Option<string> {
    if na.None? then None else Piece(na.value, " v ", k)
  }

  /** The match emitted for a non-virtual EV record, with odds still empty. */
  function NewEvent(d: Dialect, ct: Option<Record>, ev: Record): FeedEvent {
    var fallbackLeague := if d == Deployed then "Unknown League" else "Unknown";
    FeedEvent(
      id := ev.id,
      sportId := if Truthy(ev.cl) then ev.cl else None,
      league := if ct.Some? then ct.value.na else Some(fallbackLeague),
      home := OrElse(NamePart(ev.na, 0), if d == Deployed then "Team A" else "Unknown"),
      away := OrElse(NamePart(ev.na, 1), if d == Deployed then "Team B" else "Unknown"),
      name := ev.na,
      ss := if d == Deployed then Some(OrElse(ev.ss, "0-0")) else ev.ss,
      timer := if d == Deployed then Some(OrElse(ev.tm, "0")) else ev.tm,
      timeStatus := if d == Deployed then Some(OrElse(ev.tt, "0")) else ev.tt,
      odds := [])
  }

  // ---------------------------------------------------------------- the fold

  /**
   * The loop state. `evOpen` says the current event is set; it is then always
   * the last emitted match, which is the object the JavaScript mutates.
   */
  datatype Cursor = Cursor(ct: Option<Record>, evOpen: bool, ma: Option<Record>, events: seq<FeedEvent>)

  predicate Valid(c: Cursor) {
    c.evOpen ==> |c.events| > 0
  }

  const Start := Cursor(None, false, None, [])

  /** Appends a quote to the current (last) match. */
  function AddQuote(events: seq<FeedEvent>, q: Quote): (r: seq<FeedEvent>)
    requires |events| > 0
    ensures |r| == |events| && r[..|r| - 1] == events[..|events| - 1]
    ensures r[|r| - 1] == events[|events| - 1].(odds := events[|events| - 1].odds + [q])
  {
    var last := events[|events| - 1];
    events[..|events| - 1] + [last.(odds := last.odds + [q])]
  }

  /** One iteration of the loop body. */
  function Step(d: Dialect, c: Cursor, item: Item): (r: Cursor)
    requires Valid(c)
    ensures Valid(r)
    ensures |r.events| >= |c.events|
  {
    if !item.Obj? then c
    else
      var rec := item.rec;
      if rec.kind == Some("CT") then c.(ct := Some(rec))
      else if rec.kind == Some("EV") then
        if IsVirtual(d, c.ct, rec) then c.(evOpen := false)
        else c.(evOpen := true, events := c.events + [NewEvent(d, c.ct, rec)])
      else if rec.kind == Some("MA") && c.evOpen then c.(ma := Some(rec))
      else if rec.kind == Some("PA") && c.evOpen && c.ma.Some? then
        if MarketQualifies(d, c.ma.value)
        then c.(events := AddQuote(c.events, Quote(Label(rec.ord), rec.od)))
        else c
      else c
  }

  /** The state after the loop has consumed `items`, as a left fold. */
  function Run(d: Dialect, items: seq<Item>): (c: Cursor)
    ensures Valid(c)
  {
    if |items| == 0 then Start
    else Step(d, Run(d, items[..|items| - 1]), items[|items| - 1])
  }

  /** The record list: `results[0]` when that is itself an array, else `results`. */
  function Records(rs: seq<Item>): seq<Item> {
    if |rs| > 0 && rs[0].Arr? then rs[0].elems else rs
  }

  /** `parseBet365Inplay(results)`, failing where the JavaScript throws. */
  function Parse(d: Dialect, p: Payload): (r: Result<seq<FeedEvent>, ParseError>)
    ensures p.NotArray? ==> r == Success([])
    ensures r.Failure? <==> p.Array? && Null in Records(p.items)
  {
    match p
    case NotArray => Success([])
    case Array(rs) =>
      var items := Records(rs);
      if Null in items then Failure(TypeError) else Success(Run(d, items).events)
  }

  /** The parser as the source writes it: early exits, unwrapping, then one loop. */
  method ParseBet365Inplay(d: Dialect, p: Payload) returns (r: Result<seq<FeedEvent>, ParseError>)
    ensures r == Parse(d, p)
  {
    if p.NotArray? {
      return Success([]);
    }
    var items := Records(p.items);
    var c := Start;
    var i := 0;
    while i < |items|
      invariant 0 <= i <= |items|
      invariant Null !in items[..i]
      invariant c == Run(d, items[..i])
    {
      if items[i] == Null {
        return Failure(TypeError);
      }
      assert items[..i + 1][..i] == items[..i];
      c := Step(d, c, items[i]);
      i := i + 1;
    }
    assert items[..i] == items;
    return Success(c.events);
  }

  // ---------------------------------------------------------------- reference views

  /** The most recent CT record of the stream. */
  function LastCategory(items: seq<Item>): Option<Record> {
    if |items| == 0 then None
    else if IsKind(items[|items| - 1], "CT") then Some(items[|items| - 1].rec)
    else LastCategory(items[..|items| - 1])
  }

  /** The matches the stream announces, in order, ignoring every quote. */
  function Headers(d: Dialect, items: seq<Item>): seq<FeedEvent> {
    if |items| == 0 then []
    else
      var prefix := items[..|items| - 1];
      var last := items[|items| - 1];
      if IsKind(last, "EV") && !IsVirtual(d, LastCategory(prefix), last.rec)
      then Headers(d, prefix) + [NewEvent(d, LastCategory(prefix), last.rec)]
      else Headers(d, prefix)
  }

  /** Matches with their odds removed. */
  function Bare(events: seq<FeedEvent>): seq<FeedEvent> {
    seq(|events|, i requires 0 <= i < |events| => events[i].(odds := []))
  }

  /**
   * Whether a match is current after `items`: there is an EV record, and
   * the last one was not virtual under the category current when it came.
   */
  predicate MatchOpen(d: Dialect, items: seq<Item>) {
    if |items| == 0 then false
    else
      var n := |items| - 1;
      if IsKind(items[n], "EV") then !IsVirtual(d, LastCategory(items[..n]), items[n].rec)
      else MatchOpen(d, items[..n])
  }

  /** The most recent MA record that arrived while a match was current. */
  function LastMarket(d: Dialect, items: seq<Item>): Option<Record> {
    if |items| == 0 then None
    else
      var n := |items| - 1;
      if IsKind(items[n], "MA") && MatchOpen(d, items[..n]) then Some(items[n].rec)
      else LastMarket(d, items[..n])
  }

  /** A position holding a PA that arrives under a current match and a qualifying market. */
  predicate QuotedAt(d: Dialect, items: seq<Item>, k: nat)
    requires k < |items|
  {
    var market := LastMarket(d, items[..k]);
    IsKind(items[k], "PA") && MatchOpen(d, items[..k]) && market.Some? && MarketQualifies(d, market.value)
  }

  /** How many positions of the stream are quoted. */
  function QuotedCount(d: Dialect, items: seq<Item>): nat {
    if |items| == 0 then 0
    else QuotedCount(d, items[..|items| - 1]) + (if QuotedAt(d, items, |items| - 1) then 1 else 0)
  }

  /**
   * The quotes that belong to match i: those of the quoted positions reached
   * after exactly i + 1 matches had been announced, in stream order, each
   * labelled from its `OR` and priced with its `OD`.
   */
  function QuotesFor(d: Dialect, items: seq<Item>, i: nat): seq<Quote> {
    if |items| == 0 then []
    else
      var n := |items| - 1;
      QuotesFor(d, items[..n], i)
        + (if QuotedAt(d, items, n) && |Headers(d, items[..n])| == i + 1
           then [Quote(Label(items[n].rec.ord), items[n].rec.od)] else [])
  }

  function TotalQuotes(events: seq<FeedEvent>): nat {
    if |events| == 0 then 0 else TotalQuotes(events[..|events| - 1]) + |events[|events| - 1].odds|
  }

  // ---------------------------------------------------------------- properties

  lemma BareAppend(events: seq<FeedEvent>, e: FeedEvent)
    ensures Bare(events + [e]) == Bare(events) + [e.(odds := [])]
  {
  }

  lemma BareAddQuote(events: seq<FeedEvent>, q: Quote)
    requires |events| > 0
    ensures Bare(AddQuote(events, q)) == Bare(events)
  {
  }

  /**
   * Emission: the matches are exactly one per non-virtual EV record, in
   * stream order, judged under the latest category; CT, MA, PA and other
   * records never add a match. The category cursor is the latest CT.
   */
  lemma {:induction false} EmittedMatches(d: Dialect, items: seq<Item>)
    ensures Run(d, items).ct == LastCategory(items)
    ensures Bare(Run(d, items).events) == Headers(d, items)
  {
    if |items| > 0 {
      var prefix := items[..|items| - 1];
      var last := items[|items| - 1];
      EmittedMatches(d, prefix);
      var c := Run(d, prefix);
      if IsKind(last, "EV") && !IsVirtual(d, c.ct, last.rec) {
        BareAppend(c.events, NewEvent(d, c.ct, last.rec));
      } else if last.Obj? && last.rec.kind == Some("PA") && c.evOpen && c.ma.Some? && MarketQualifies(d, c.ma.value) {
        BareAddQuote(c.events, Quote(Label(last.rec.ord), last.rec.od));
      }
    }
  }

  /**
   * The loop's match and market cursors are the stream views: a match is
   * current exactly when the last EV was not virtual, and the market cursor
   * is the last MA that arrived while a match was current.
   */
  lemma {:induction false} CursorViews(d: Dialect, items: seq<Item>)
    ensures Run(d, items).evOpen <==> MatchOpen(d, items)
    ensures Run(d, items).ma == LastMarket(d, items)
  {
    if |items| > 0 {
      var prefix := items[..|items| - 1];
      CursorViews(d, prefix);
      EmittedMatches(d, prefix);
    }
  }

  /** The category cursor is the last CT record, and is unset only when there is none. */
  lemma {:induction false} CategoryCursor(items: seq<Item>)
    ensures LastCategory(items).None? <==> forall k :: 0 <= k < |items| ==> !IsKind(items[k], "CT")
    ensures LastCategory(items).Some? ==>
      exists k :: 0 <= k < |items| && items[k] == Obj(LastCategory(items).value) && IsKind(items[k], "CT")
        && forall j :: k < j < |items| ==> !IsKind(items[j], "CT")
  {
    if |items| > 0 {
      var prefix := items[..|items| - 1];
      CategoryCursor(prefix);
      if !IsKind(items[|items| - 1], "CT") && LastCategory(prefix).Some? {
        var k :| 0 <= k < |prefix| && prefix[k] == Obj(LastCategory(prefix).value) && IsKind(prefix[k], "CT")
          && forall j :: k < j < |prefix| ==> !IsKind(prefix[j], "CT");
        assert items[k] == prefix[k];
      }
    }
  }

  /** A position holding an MA that arrives while a match is current. */
  predicate MarketAt(d: Dialect, items: seq<Item>, k: nat)
    requires k < |items|
  {
    IsKind(items[k], "MA") && MatchOpen(d, items[..k])
  }

  lemma MarketAtPrefix(d: Dialect, items: seq<Item>, n: nat, k: nat)
    requires k < n <= |items|
    ensures MarketAt(d, items, k) == MarketAt(d, items[..n], k)
  {
    assert items[..n][..k] == items[..k];
  }

  /** One step of the market cursor: only an MA under a current match moves it. */
  lemma MarketStep(d: Dialect, items: seq<Item>)
    requires |items| > 0
    ensures Run(d, items).ma ==
      if MarketAt(d, items, |items| - 1) then Some(items[|items| - 1].rec) else Run(d, items[..|items| - 1]).ma
  {
    CursorViews(d, items[..|items| - 1]);
  }

  /** The markets seen while a match was current, in stream order, are those of the prefix plus possibly the last. */
  lemma MarketAtExtend(d: Dialect, items: seq<Item>)
    requires |items| > 0
    ensures forall k :: 0 <= k < |items| - 1 ==> MarketAt(d, items, k) == MarketAt(d, items[..|items| - 1], k)
  {
    forall k | 0 <= k < |items| - 1
      ensures MarketAt(d, items, k) == MarketAt(d, items[..|items| - 1], k)
    {
      MarketAtPrefix(d, items, |items| - 1, k);
    }
  }

  /** The market cursor is unset exactly when no MA has arrived while a match was current. */
  lemma {:induction false} MarketCursorUnset(d: Dialect, items: seq<Item>)
    ensures Run(d, items).ma.None? <==> forall k :: 0 <= k < |items| ==> !MarketAt(d, items, k)
  {
    if |items| > 0 {
      var prefix := items[..|items| - 1];
      var n := |items| - 1;
      MarketCursorUnset(d, prefix);
      MarketStep(d, items);
      MarketAtExtend(d, items);
      if Run(d, items).ma.None? {
        forall k | 0 <= k < |items|
          ensures !MarketAt(d, items, k)
        {
          if k < n {
            assert !MarketAt(d, prefix, k);
          }
        }
      } else if !MarketAt(d, items, n) {
        var k :| 0 <= k < |prefix| && MarketAt(d, prefix, k);
        assert MarketAt(d, items, k);
      }
    }
  }

  /** Position k holds the last MA that arrived while a match was current. */
  predicate LastMarketAt(d: Dialect, items: seq<Item>, k: nat) {
    k < |items| && MarketAt(d, items, k) && forall j :: k < j < |items| ==> !MarketAt(d, items, j)
  }

  lemma LastMarketExtend(d: Dialect, items: seq<Item>, k: nat)
    requires |items| > 0 && !MarketAt(d, items, |items| - 1)
    requires LastMarketAt(d, items[..|items| - 1], k)
    ensures LastMarketAt(d, items, k)
  {
    MarketAtExtend(d, items);
  }

  /**
   * The market cursor is the last MA record that arrived while a match was
   * current: neither a CT nor a new EV resets it.
   */
  lemma {:induction false} MarketCursor(d: Dialect, items: seq<Item>)
    requires Run(d, items).ma.Some?
    ensures exists k: nat :: LastMarketAt(d, items, k) && items[k] == Obj(Run(d, items).ma.value)
  {
    var n := |items| - 1;
    MarketStep(d, items);
    if !MarketAt(d, items, n) {
      var prefix := items[..n];
      MarketCursor(d, prefix);
      var k: nat :| LastMarketAt(d, prefix, k) && prefix[k] == Obj(Run(d, prefix).ma.value);
      LastMarketExtend(d, items, k);
      assert items[k] == prefix[k];
    } else {
      assert items[n] == Obj(items[n].rec);
      assert LastMarketAt(d, items, n);
    }
  }

  lemma TotalQuotesAppend(events: seq<FeedEvent>, e: FeedEvent)
    ensures TotalQuotes(events + [e]) == TotalQuotes(events) + |e.odds|
  {
    assert (events + [e])[..|events|] == events;
  }

  lemma TotalQuotesAddQuote(events: seq<FeedEvent>, q: Quote)
    requires |events| > 0
    ensures TotalQuotes(AddQuote(events, q)) == TotalQuotes(events) + 1
  {
    var r := AddQuote(events, q);
    assert r[..|r| - 1] == events[..|events| - 1];
  }

  /** One loop step adds a quote exactly when it attaches a PA to the current match. */
  lemma StepQuotes(d: Dialect, c: Cursor, item: Item)
    requires Valid(c)
    ensures TotalQuotes(Step(d, c, item).events) == TotalQuotes(c.events)
      + (if IsKind(item, "PA") && c.evOpen && c.ma.Some? && MarketQualifies(d, c.ma.value) then 1 else 0)
  {
    if IsKind(item, "EV") && !IsVirtual(d, c.ct, item.rec) {
      assert Step(d, c, item).events == c.events + [NewEvent(d, c.ct, item.rec)];
      TotalQuotesAppend(c.events, NewEvent(d, c.ct, item.rec));
    } else if IsKind(item, "PA") && c.evOpen && c.ma.Some? && MarketQualifies(d, c.ma.value) {
      assert Step(d, c, item).events == AddQuote(c.events, Quote(Label(item.rec.ord), item.rec.od));
      TotalQuotesAddQuote(c.events, Quote(Label(item.rec.ord), item.rec.od));
    } else {
      assert Step(d, c, item).events == c.events;
    }
  }

  /** One loop step appends a quote to the last match, opens a new match with no odds, or leaves the odds alone. */
  lemma StepOdds(d: Dialect, c: Cursor, item: Item, i: nat)
    requires Valid(c) && i < |Step(d, c, item).events|
    ensures Step(d, c, item).events[i].odds ==
      (if i < |c.events| then c.events[i].odds else [])
      + (if IsKind(item, "PA") && c.evOpen && c.ma.Some? && MarketQualifies(d, c.ma.value) && |c.events| == i + 1
         then [Quote(Label(item.rec.ord), item.rec.od)] else [])
  {
    var r := Step(d, c, item);
    if IsKind(item, "EV") && !IsVirtual(d, c.ct, item.rec) {
      assert r.events == c.events + [NewEvent(d, c.ct, item.rec)];
    } else if IsKind(item, "PA") && c.evOpen && c.ma.Some? && MarketQualifies(d, c.ma.value) {
      assert r.events == AddQuote(c.events, Quote(Label(item.rec.ord), item.rec.od));
      if i < |c.events| - 1 {
        assert r.events[i] == r.events[..|r.events| - 1][i];
      }
    } else {
      assert r.events == c.events;
    }
  }

  /** As many matches are emitted as the stream announces. */
  lemma HeadersCount(d: Dialect, items: seq<Item>)
    ensures |Headers(d, items)| == |Run(d, items).events|
  {
    EmittedMatches(d, items);
    assert |Bare(Run(d, items).events)| == |Run(d, items).events|;
  }

  /** A match not yet announced owns no quotes. */
  lemma {:induction false} QuotesForBeyond(d: Dialect, items: seq<Item>, i: nat)
    requires i >= |Run(d, items).events|
    ensures QuotesFor(d, items, i) == []
  {
    if |items| > 0 {
      var n := |items| - 1;
      var prefix := items[..n];
      HeadersCount(d, prefix);
      QuotesForBeyond(d, prefix, i);
    }
  }

  /**
   * Odds attachment: the odds of the i-th emitted match are exactly the
   * quotes of the quoted PA positions between its EV and the next emitting
   * EV, in stream order, labelled from `OR` and priced with `OD`.
   */
  lemma {:induction false} OddsOfMatch(d: Dialect, items: seq<Item>, i: nat)
    requires i < |Run(d, items).events|
    ensures Run(d, items).events[i].odds == QuotesFor(d, items, i)
  {
    var n := |items| - 1;
    var prefix := items[..n];
    var c := Run(d, prefix);
    HeadersCount(d, prefix);
    CursorViews(d, prefix);
    StepOdds(d, c, items[n], i);
    if i < |c.events| {
      OddsOfMatch(d, prefix, i);
    } else {
      QuotesForBeyond(d, prefix, i);
    }
  }

  /**
   * Quotes: every quoted PA adds exactly one odds entry, to the match
   * current at that point, and nothing else does; in particular no match's
   * odds are capped.
   */
  lemma {:induction false} QuoteCount(d: Dialect, items: seq<Item>)
    ensures TotalQuotes(Run(d, items).events) == QuotedCount(d, items)
    ensures forall i :: 0 <= i < |Run(d, items).events| ==> Run(d, items).events[i].odds == QuotesFor(d, items, i)
  {
    if |items| > 0 {
      var n := |items| - 1;
      var prefix := items[..n];
      QuoteCount(d, prefix);
      CursorViews(d, prefix);
      StepQuotes(d, Run(d, prefix), items[n]);
    }
    forall i | 0 <= i < |Run(d, items).events|
      ensures Run(d, items).events[i].odds == QuotesFor(d, items, i)
    {
      OddsOfMatch(d, items, i);
    }
  }

  /** Every odds entry of every match is labelled "1", "X" or "2". */
  predicate LabelsOk(events: seq<FeedEvent>) {
    forall i, j :: 0 <= i < |events| && 0 <= j < |events[i].odds| ==> events[i].odds[j].name in {"1", "X", "2"}
  }

  lemma StepLabels(d: Dialect, c: Cursor, item: Item)
    requires Valid(c) && LabelsOk(c.events)
    ensures LabelsOk(Step(d, c, item).events)
  {
    if IsKind(item, "PA") && c.evOpen && c.ma.Some? && MarketQualifies(d, c.ma.value) {
      var q := Quote(Label(item.rec.ord), item.rec.od);
      var r := AddQuote(c.events, q);
      assert Step(d, c, item).events == r;
      forall i, j | 0 <= i < |r| && 0 <= j < |r[i].odds|
        ensures r[i].odds[j].name in {"1", "X", "2"}
      {
        if i < |r| - 1 {
          assert r[i] == c.events[i];
        }
      }
    }
  }

  /** Every odds label is "1", "X" or "2". */
  lemma {:induction false} LabelsWellFormed(d: Dialect, items: seq<Item>)
    ensures LabelsOk(Run(d, items).events)
  {
    if |items| > 0 {
      LabelsWellFormed(d, items[..|items| - 1]);
      StepLabels(d, Run(d, items[..|items| - 1]), items[|items| - 1]);
    }
  }

  /** A PA while no match is current (before any EV, or after a virtual one) changes nothing. */
  lemma StrayQuoteIgnored(d: Dialect, items: seq<Item>, pa: Item)
    requires IsKind(pa, "PA")
    requires !MatchOpen(d, items)
    ensures Run(d, items + [pa]) == Run(d, items)
  {
    CursorViews(d, items);
    var c := Run(d, items);
    assert !c.evOpen;
    assert pa.rec.kind != Some("CT") && pa.rec.kind != Some("EV") && pa.rec.kind != Some("MA");
    assert Step(d, c, pa) == c;
    assert (items + [pa])[..|items|] == items;
  }

  /** A virtual EV emits nothing and closes the current match, so later quotes are dropped. */
  lemma VirtualEventCloses(d: Dialect, items: seq<Item>, ev: Record)
    requires ev.kind == Some("EV")
    requires IsVirtual(d, Run(d, items).ct, ev)
    ensures Run(d, items + [Obj(ev)]).events == Run(d, items).events
    ensures !Run(d, items + [Obj(ev)]).evOpen
  {
    var c := Run(d, items);
    assert (items + [Obj(ev)])[..|items|] == items;
    assert Run(d, items + [Obj(ev)]) == Step(d, c, Obj(ev));
  }

  /** The prototype's virtual test is weaker: whatever it drops, the deployed parser drops too. */
  lemma PrototypeFilterWeaker(ct: Option<Record>, ev: Record)
    requires IsVirtual(Prototype, ct, ev)
    ensures IsVirtual(Deployed, ct, ev)
  {
  }

  /** A nested record array in `results[0]` is parsed in place of `results`. */
  lemma NestedUnwrap(d: Dialect, rs: seq<Item>)
    requires |rs| > 0 && rs[0].Arr?
    requires |rs[0].elems| == 0 || !rs[0].elems[0].Arr?
    ensures Parse(d, Array(rs)) == Parse(d, Array(rs[0].elems))
  {
  }

  /**
   * Team names: a name `home v away`, split at its first " v ", yields those
   * two names; a name with no " v " keeps the whole name as home and the
   * default away team.
   */
  lemma TeamNames(d: Dialect, ct: Option<Record>, ev: Record, home: string, away: string)
    requires ev.na == Some(home + " v " + away)
    requires IndexOf(home + " v " + away, " v ") == Some(|home|)
    requires !Contains(away, " v ")
    requires home != "" && away != ""
    ensures NewEvent(d, ct, ev).home == home && NewEvent(d, ct, ev).away == away
  {
    SplitAround(home, " v ", away);
  }

  lemma SingleTeamName(ev: Record, name: string)
    requires ev.na == Some(name) && name != ""
    requires !Contains(name, " v ")
    ensures NewEvent(Deployed, None, ev).home == name
    ensures NewEvent(Deployed, None, ev).away == "Team B"
    ensures NewEvent(Deployed, None, ev).league == Some("Unknown League")
  {
  }
}

=== FILE: jwt_guard.dfy ===
/**
 * The bearer-token guard (src/jwt.guard.ts): a request passes when its
 * `authorization` header starts with `Bearer ` and the rest of the header
 * verifies as a token; the verified claims are then attached to the request.
 */
module JwtGuard {
  import opened Wrappers
  import opened Text
  import A = Auth

  const Scheme: string := "Bearer "

  datatype Request = Request(authorization: Option<string>, player: Option<A.Claims>)

  datatype GuardError = MissingToken | Unauthorized(cause: A.AuthError)

  /** `headers['authorization'] ?? ''`. */
  function Header(req: Request): string {
    req.authorization.GetOr("")
  }

  /** `authHeader.slice(7)`: the header after the scheme. */
  function TokenOf(header: string): (token: string)
    requires StartsWith(header, Scheme)
    ensures Scheme + token == header
  {
    header[|Scheme|..]
  }

  /** `canActivate`: the request with its claims attached, or why it was refused. */
  function CanActivate(req: Request, crypto: A.Crypto): (r: Result<Request, GuardError>)
    ensures !StartsWith(Header(req), Scheme) ==> r == Failure(MissingToken)
    ensures StartsWith(Header(req), Scheme) ==>
      var token := TokenOf(Header(req));
      && (crypto.verify(token).None? ==> r == Failure(Unauthorized(A.InvalidToken)))
      && (crypto.verify(token).Some? ==> r == Success(req.(player := crypto.verify(token))))
  {
    var header := Header(req);
    if !StartsWith(header, Scheme) then Failure(MissingToken)
    else
      match A.VerifyToken(TokenOf(header), crypto)
      case Failure(e) => Failure(Unauthorized(e))
      case Success(claims) => Success(req.(player := Some(claims)))
  }

  /** A request with no header is refused before any token is verified. */
  lemma MissingHeaderRefused(req: Request, crypto: A.Crypto)
    requires req.authorization.None?
    ensures CanActivate(req, crypto) == Failure(MissingToken)
  {
  }

  /** The scheme is case-sensitive and needs its space: `bearer x` and `Bearerx` are refused. */
  lemma SchemeIsExact(token: string, crypto: A.Crypto)
    requires token == "" || token[0] != ' '
    ensures CanActivate(Request(Some("bearer " + token), None), crypto) == Failure(MissingToken)
    ensures CanActivate(Request(Some("Bearer" + token), None), crypto) == Failure(MissingToken)
  {
    assert ("bearer " + token)[0] == 'b';
    assert token == "" || ("Bearer" + token)[6] == token[0];
  }

  /** The token verified is exactly what follows `Bearer `: the guard inverts `"Bearer " + token`. */
  lemma BearerRoundTrip(token: string, crypto: A.Crypto, claims: A.Claims)
    requires crypto.verify(token) == Some(claims)
    ensures CanActivate(Request(Some(Scheme + token), None), crypto) == Success(Request(Some(Scheme + token), Some(claims)))
  {
    assert StartsWith(Scheme + token, Scheme) by {
      assert (Scheme + token)[..|Scheme|] == Scheme;
    }
    assert TokenOf(Scheme + token) == token by {
      assert (Scheme + token)[|Scheme|..] == token;
    }
  }
}

=== FILE: ledger.dfy ===
/**
 * The bet ledger (src/bets.service.ts): validating a bet request, computing
 * its potential win in exact decimals, and placing it as one all-or-nothing
 * step against the store (debit the player, add a PENDING bet, append a
 * BET_PLACED transaction); and the paginated history of a player's own bets
 * and transactions.
 *
 * Money is `real`, so every amount is exact. The store is a value; a
 * placement returns the new store, or the old one on any error.
 */
module Ledger {
  import opened Wrappers
  import opened Text

  const MinStake: real := 10.0
  const MaxStake: real := 100000.0
  const MinOdds: real := 1.01
  const MaxOdds: real := 1000.0

  /** A bet request; a missing text field is "" and a missing number is 0. */
  datatype BetRequest = BetRequest(
    matchId: string,
    matchName: string,
    league: Option<string>,
    market: string,
    selection: string,
    oddsType: string,
    odds: real,
    stake: real)

  /** The distinct rejections, in the order they are checked. */
  datatype BetError =
    | MissingFields
    | StakeTooLow
    | StakeTooHigh
    | InvalidOdds
    | InvalidOddsType
    | PlayerNotFound
    | AccountSuspended
    | InsufficientBalance(required: real, available: real)
  {
    /** The HTTP status of the exception raised. */
    function Status(): nat {
      match this
      case PlayerNotFound => 404
      case AccountSuspended => 403
      case _ => 400
    }
  }

  datatype Account = Account(balance: real, isActive: bool)

  datatype Bet = Bet(
    id: nat,
    playerId: int,
    matchId: string,
    matchName: string,
    league: string,
    market: string,
    selection: string,
    oddsType: string,
    odds: real,
    stake: real,
    potentialWin: real,
    status: string,
    createdAt: int,
    settledAt: Option<int>)

  datatype Txn = Txn(
    id: nat,
    playerId: int,
    kind: string,
    amount: real,
    balanceBefore: real,
    balanceAfter: real,
    ref: string,
    createdAt: int)

  /** Players by id, bets and transactions in insertion order, and the next row ids. */
  datatype Store = Store(
    players: map<int, Account>,
    bets: seq<Bet>,
    txns: seq<Txn>,
    nextBetId: nat,
    nextTxnId: nat)

  datatype Receipt = Receipt(bet: Bet, newBalance: real)

  /** The store after the call and what the caller receives. */
  datatype Placement = Placement(store: Store, result: Result<Receipt, BetError>)

  // ---------------------------------------------------------------- validation

  /** `!matchId || !selection || !odds || !stake`. */
  predicate MissingField(req: BetRequest) {
    req.matchId == "" || req.selection == "" || req.odds == 0.0 || req.stake == 0.0
  }

  /** The first failing request check, if any; none of them reads the store. */
  function Validate(req: BetRequest): (e: Option<BetError>)
    ensures e == Some(MissingFields) <==> MissingField(req)
    ensures e == Some(StakeTooLow) <==> !MissingField(req) && req.stake < MinStake
    ensures e == Some(StakeTooHigh) <==> !MissingField(req) && MinStake <= req.stake && req.stake > MaxStake
    ensures e == Some(InvalidOdds) <==>
      !MissingField(req) && MinStake <= req.stake <= MaxStake && (req.odds < MinOdds || req.odds > MaxOdds)
    ensures e == Some(InvalidOddsType) <==>
      !MissingField(req) && MinStake <= req.stake <= MaxStake && MinOdds <= req.odds <= MaxOdds
      && req.oddsType != "Back" && req.oddsType != "Lay"
    ensures e.None? ==>
      MinStake <= req.stake <= MaxStake && MinOdds <= req.odds <= MaxOdds
      && req.matchId != "" && req.selection != "" && (req.oddsType == "Back" || req.oddsType == "Lay")
  {
    if MissingField(req) then Some(MissingFields)
    else if req.stake < MinStake then Some(StakeTooLow)
    else if req.stake > MaxStake then Some(StakeTooHigh)
    else if req.odds < MinOdds || req.odds > MaxOdds then Some(InvalidOdds)
    else if req.oddsType != "Back" && req.oddsType != "Lay" then Some(InvalidOddsType)
    else None
  }

  /** The stake bounds are inclusive at both ends. */
  lemma StakeBoundsInclusive(req: BetRequest)
    requires !MissingField(req)
    requires req.stake == MinStake || req.stake == MaxStake
    ensures Validate(req) != Some(StakeTooLow) && Validate(req) != Some(StakeTooHigh)
  {
  }

  /** What a winning bet pays out on top of the stake: the profit for Back, the stake for Lay. */
  function PotentialWin(oddsType: string, stake: real, odds: real): (w: real)
    requires oddsType == "Back" || oddsType == "Lay"
    requires MinStake <= stake && MinOdds <= odds
    ensures oddsType == "Lay" ==> w == stake
    ensures oddsType == "Back" ==> w + stake == stake * odds
    ensures 0.0 < w
  {
    if oddsType == "Back" then stake * (odds - 1.0) else stake
  }

  /** Exact decimals: 100 at 2.50 Back wins 150, and Lay wins the stake. */
  lemma PotentialWinExamples()
    ensures PotentialWin("Back", 100.0, 2.5) == 150.0
    ensures PotentialWin("Lay", 100.0, 2.5) == 100.0
  {
  }

  // ---------------------------------------------------------------- placement

  /** `placeBet(playerId, dto)`: validation, then the atomic check-and-write. */
  function PlaceBet(s: Store, playerId: int, req: BetRequest, now: int): (p: Placement)
    ensures p.result.Failure? ==> p.store == s
    ensures Validate(req).Some? ==> p.result == Failure(Validate(req).value)
    ensures Validate(req).None? && playerId !in s.players ==> p.result == Failure(PlayerNotFound)
    ensures Validate(req).None? && playerId in s.players && !s.players[playerId].isActive ==>
      p.result == Failure(AccountSuspended)
    ensures Validate(req).None? && playerId in s.players && s.players[playerId].isActive
            && s.players[playerId].balance < req.stake ==>
      p.result == Failure(InsufficientBalance(req.stake, s.players[playerId].balance))
    ensures p.result.Success? <==>
      Validate(req).None? && playerId in s.players && s.players[playerId].isActive
      && s.players[playerId].balance >= req.stake
    ensures p.result.Success? ==>
      var before := s.players[playerId].balance;
      var r := p.result.value;
      && playerId in p.store.players
      && p.store.players[playerId] == s.players[playerId].(balance := before - req.stake)
      && r.newBalance == before - req.stake && r.newBalance >= 0.0
      && p.store.players.Keys == s.players.Keys
      && (forall q :: q in s.players && q != playerId ==> p.store.players[q] == s.players[q])
      && p.store.bets == s.bets + [r.bet]
      && r.bet.id == s.nextBetId && r.bet.playerId == playerId && r.bet.status == "PENDING"
      && r.bet.stake == req.stake && r.bet.odds == req.odds
      && r.bet.matchId == req.matchId && r.bet.matchName == req.matchName
      && r.bet.market == req.market && r.bet.selection == req.selection && r.bet.oddsType == req.oddsType
      && r.bet.league == req.league.GetOr("")
      && r.bet.createdAt == now && r.bet.settledAt.None?
      && p.store.nextBetId == s.nextBetId + 1 && p.store.nextTxnId == s.nextTxnId + 1
      && r.bet.potentialWin == PotentialWin(req.oddsType, req.stake, req.odds)
      && |p.store.txns| == |s.txns| + 1 && p.store.txns[..|s.txns|] == s.txns
      && var t := p.store.txns[|s.txns|];
         && t.id == s.nextTxnId && t.createdAt == now
         && t.playerId == playerId && t.kind == "BET_PLACED" && t.amount == -req.stake
         && t.balanceBefore == before && t.balanceAfter == r.newBalance
         && t.balanceBefore + t.amount == t.balanceAfter
         && t.ref == IntToString(r.bet.id)
  {
    match Validate(req)
    case Some(e) => Placement(s, Failure(e))
    case None =>
      if playerId !in s.players then Placement(s, Failure(PlayerNotFound))
      else
        var acct := s.players[playerId];
        if !acct.isActive then Placement(s, Failure(AccountSuspended))
        else if acct.balance < req.stake then Placement(s, Failure(InsufficientBalance(req.stake, acct.balance)))
        else
          var before := acct.balance;
          var after := before - req.stake;
          var bet := Bet(
            id := s.nextBetId, playerId := playerId,
            matchId := req.matchId, matchName := req.matchName, league := req.league.GetOr(""),
            market := req.market, selection := req.selection, oddsType := req.oddsType,
            odds := req.odds, stake := req.stake,
            potentialWin := PotentialWin(req.oddsType, req.stake, req.odds),
            status := "PENDING", createdAt := now, settledAt := None);
          var txn := Txn(
            id := s.nextTxnId, playerId := playerId, kind := "BET_PLACED",
            amount := -req.stake, balanceBefore := before, balanceAfter := after,
            ref := IntToString(bet.id), createdAt := now);
          var s' := Store(
            players := s.players[playerId := acct.(balance := after)],
            bets := s.bets + [bet],
            txns := s.txns + [txn],
            nextBetId := s.nextBetId + 1,
            nextTxnId := s.nextTxnId + 1);
          Placement(s', Success(Receipt(bet, after)))
  }

  // ---------------------------------------------------------------- store invariants

  /** No balance is negative. */
  predicate Solvent(s: Store) {
    forall q :: q in s.players ==> s.players[q].balance >= 0.0
  }

  /** Every stored row has an id below the next one handed out, and ids are unique. */
  predicate FreshIds(s: Store) {
    && (forall i :: 0 <= i < |s.bets| ==> s.bets[i].id < s.nextBetId)
    && (forall i, j :: 0 <= i < j < |s.bets| ==> s.bets[i].id != s.bets[j].id)
    && (forall i :: 0 <= i < |s.txns| ==> s.txns[i].id < s.nextTxnId)
    && (forall i, j :: 0 <= i < j < |s.txns| ==> s.txns[i].id != s.txns[j].id)
  }

  /** The index of a player's latest transaction, if any. */
  function LastTxnOf(txns: seq<Txn>, q: int): (r: Option<nat>)
    ensures r.Some? ==> r.value < |txns| && txns[r.value].playerId == q
    ensures r.Some? ==> forall j :: r.value < j < |txns| ==> txns[j].playerId != q
    ensures r.None? ==> forall j :: 0 <= j < |txns| ==> txns[j].playerId != q
  {
    if |txns| == 0 then None
    else if txns[|txns| - 1].playerId == q then Some(|txns| - 1)
    else LastTxnOf(txns[..|txns| - 1], q)
  }

  /**
   * The audit trail reconciles: each row's before plus amount is its after,
   * and a player's latest row ends at the player's current balance.
   */
  predicate Reconciled(s: Store) {
    && (forall i :: 0 <= i < |s.txns| ==> s.txns[i].balanceBefore + s.txns[i].amount == s.txns[i].balanceAfter)
    && (forall q :: q in s.players && LastTxnOf(s.txns, q).Some? ==>
          s.txns[LastTxnOf(s.txns, q).value].balanceAfter == s.players[q].balance)
  }

  /** Rows were written at non-decreasing times, none later than `now`. */
  predicate ChronologicalUpTo(s: Store, now: int) {
    && (forall i, j :: 0 <= i <= j < |s.bets| ==> s.bets[i].createdAt <= s.bets[j].createdAt)
    && (forall i :: 0 <= i < |s.bets| ==> s.bets[i].createdAt <= now)
    && (forall i, j :: 0 <= i <= j < |s.txns| ==> s.txns[i].createdAt <= s.txns[j].createdAt)
    && (forall i :: 0 <= i < |s.txns| ==> s.txns[i].createdAt <= now)
  }

  /** A placement keeps every balance non-negative. */
  lemma PlaceBetKeepsSolvent(s: Store, playerId: int, req: BetRequest, now: int)
    requires Solvent(s)
    ensures Solvent(PlaceBet(s, playerId, req, now).store)
  {
  }

  /** A placement keeps row ids unique. */
  lemma PlaceBetKeepsIdsFresh(s: Store, playerId: int, req: BetRequest, now: int)
    requires FreshIds(s)
    ensures FreshIds(PlaceBet(s, playerId, req, now).store)
  {
  }

  /** A placement keeps the audit trail reconciled with the balances. */
  lemma PlaceBetKeepsReconciled(s: Store, playerId: int, req: BetRequest, now: int)
    requires Reconciled(s)
    ensures Reconciled(PlaceBet(s, playerId, req, now).store)
  {
    var p := PlaceBet(s, playerId, req, now);
    if p.result.Success? {
      var s' := p.store;
      forall q | q in s'.players && LastTxnOf(s'.txns, q).Some?
        ensures s'.txns[LastTxnOf(s'.txns, q).value].balanceAfter == s'.players[q].balance
      {
        if q != playerId {
          assert s'.txns[..|s'.txns| - 1] == s.txns;
          assert LastTxnOf(s'.txns, q) == LastTxnOf(s.txns, q);
        }
      }
    }
  }

  /** A placement at time `now` keeps the rows in time order. */
  lemma PlaceBetKeepsChronological(s: Store, playerId: int, req: BetRequest, now: int, later: int)
    requires ChronologicalUpTo(s, now) && now <= later
    ensures ChronologicalUpTo(PlaceBet(s, playerId, req, now).store, later)
  {
  }

  /**
   * Two bets each staking a player's whole balance: the first is placed and
   * the second is refused for insufficient funds, never both placed.
   */
  lemma NoDoubleSpend(s: Store, playerId: int, req: BetRequest, now: int)
    requires Validate(req).None?
    requires playerId in s.players && s.players[playerId].isActive
    requires s.players[playerId].balance == req.stake
    ensures PlaceBet(s, playerId, req, now).result.Success?
    ensures PlaceBet(PlaceBet(s, playerId, req, now).store, playerId, req, now).result
         == Failure(InsufficientBalance(req.stake, 0.0))
  {
  }

  // ---------------------------------------------------------------- history

  /** The player's bets, in insertion order. */
  function OwnBets(bets: seq<Bet>, playerId: int): (r: seq<Bet>)
    ensures forall b :: b in r <==> b in bets && b.playerId == playerId
  {
    if |bets| == 0 then []
    else OwnBets(bets[..|bets| - 1], playerId)
         + (if bets[|bets| - 1].playerId == playerId then [bets[|bets| - 1]] else [])
  }

  function OwnTxns(txns: seq<Txn>, playerId: int): (r: seq<Txn>)
    ensures forall t :: t in r <==> t in txns && t.playerId == playerId
  {
    if |txns| == 0 then []
    else OwnTxns(txns[..|txns| - 1], playerId)
         + (if txns[|txns| - 1].playerId == playerId then [txns[|txns| - 1]] else [])
  }

  function Reverse<T>(xs: seq<T>): (r: seq<T>)
    ensures |r| == |xs| && forall i :: 0 <= i < |xs| ==> r[i] == xs[|xs| - 1 - i]
  {
    if |xs| == 0 then [] else [xs[|xs| - 1]] + Reverse(xs[..|xs| - 1])
  }

  /** The rows a page skips: `(page - 1) * limit`. */
  function Skip(page: int, limit: int): (n: nat)
    requires page >= 1 && limit >= 0
  {
    (page - 1) * limit
  }

  /** How many of `total` rows a page holds: none past the end, at most `limit`, fewer on the last page. */
  function PageLength(total: nat, page: int, limit: int): nat
    requires page >= 1 && limit >= 0
  {
    var skip := Skip(page, limit);
    if skip >= total then 0 else if total - skip < limit then total - skip else limit
  }

  /** Row k of the whole list sits on page k div limit + 1, at offset k mod limit. */
  lemma PageOfRow(k: nat, limit: int)
    requires limit >= 1
    ensures Skip(k / limit + 1, limit) + k % limit == k
    ensures k % limit < limit
  {
  }

  /** `skip: (page - 1) * limit, take: limit`; a limit of 0 takes no rows. */
  function Window<T>(xs: seq<T>, page: int, limit: int): (r: seq<T>)
    requires page >= 1 && limit >= 0
    ensures Skip(page, limit) >= |xs| ==> r == []
    ensures Skip(page, limit) < |xs| ==> |r| == if |xs| - Skip(page, limit) < limit then |xs| - Skip(page, limit) else limit
    ensures forall j :: 0 <= j < |r| ==> Skip(page, limit) + j < |xs| && r[j] == xs[Skip(page, limit) + j]
    ensures |r| == PageLength(|xs|, page, limit)
  {
    var skip := Skip(page, limit);
    if skip >= |xs| then [] else xs[skip..if skip + limit < |xs| then skip + limit else |xs|]
  }

  /** `Math.ceil(total / limit)`: the fewest pages of `limit` rows that hold `total` rows. */
  function PageCount(total: nat, limit: int): (n: nat)
    requires limit >= 1
    ensures n * limit >= total
    ensures n > 0 ==> (n - 1) * limit < total
  {
    var q := (total + limit - 1) / limit;
    var r := (total + limit - 1) % limit;
    assert total + limit - 1 == q * limit + r;
    assert (q - 1) * limit == q * limit - limit;
    q
  }

  /** A page count that holds row k reaches page k div limit + 1. */
  lemma PageCountCovers(total: nat, limit: int, k: nat)
    requires limit >= 1 && k < total
    ensures k / limit + 1 <= PageCount(total, limit)
  {
    var n := PageCount(total, limit);
    var p := k / limit;
    PageOfRow(k, limit);
    if n <= p {
      MulMono(n, p, limit);
    }
  }

  lemma MulMono(a: nat, b: nat, c: nat)
    requires a <= b
    ensures a * c <= b * c
  {
  }

  /**
   * The JavaScript number `Math.ceil(total / limit)` for a non-negative
   * limit: a page count, or `Infinity` (some rows, limit 0), or `NaN` (no
   * rows, limit 0). Both of the latter serialise to `null` in the response.
   */
  datatype PageTotal = Pages(count: nat) | Infinite | NotANumber

  function PagesFor(total: nat, limit: int): (p: PageTotal)
    requires limit >= 0
    ensures limit >= 1 ==> p.Pages? && p.count * limit >= total && (p.count > 0 ==> (p.count - 1) * limit < total)
    ensures limit == 0 ==> (p == Infinite <==> total > 0) && (p == NotANumber <==> total == 0)
  {
    if limit >= 1 then Pages(PageCount(total, limit))
    else if total > 0 then Infinite
    else NotANumber
  }

  datatype BetPage = BetPage(bets: seq<Bet>, total: nat, page: int, pages: PageTotal)

  /** `getMyBets(playerId, page, limit)`: the caller's bets, newest first, one page of them. */
  function GetMyBets(s: Store, playerId: int, page: int, limit: int): (r: BetPage)
    requires page >= 1 && limit >= 0
    ensures |r.bets| <= limit && r.page == page
    ensures r.total == |OwnBets(s.bets, playerId)|
    ensures |r.bets| == PageLength(r.total, page, limit)
    ensures limit >= 1 ==>
      r.pages.Pages? && r.pages.count * limit >= r.total && (r.pages.count > 0 ==> (r.pages.count - 1) * limit < r.total)
    ensures limit == 0 ==> r.bets == [] && (r.pages == Infinite <==> r.total > 0) && (r.pages == NotANumber <==> r.total == 0)
    ensures forall b :: b in r.bets ==> b in s.bets && b.playerId == playerId
  {
    var own := Reverse(OwnBets(s.bets, playerId));
    var rows := Window(own, page, limit);
    assert forall b :: b in rows ==> b in own;
    BetPage(rows, |own|, page, PagesFor(|own|, limit))
  }

  /** `getMyTransactions(playerId, page, limit)`: the caller's transactions, newest first, one page. */
  function GetMyTransactions(s: Store, playerId: int, page: int, limit: int): (r: seq<Txn>)
    requires page >= 1 && limit >= 0
    ensures |r| <= limit
    ensures |r| == PageLength(|OwnTxns(s.txns, playerId)|, page, limit)
    ensures forall t :: t in r ==> t in s.txns && t.playerId == playerId
  {
    var own := Reverse(OwnTxns(s.txns, playerId));
    var rows := Window(own, page, limit);
    assert forall t :: t in rows ==> t in own;
    rows
  }

  /**
   * Pagination covers the history exactly: the caller's k-th newest bet is
   * row k mod limit of page k div limit + 1, and that page exists.
   */
  lemma EveryBetOnItsPage(s: Store, playerId: int, limit: int, k: nat)
    requires limit >= 1
    requires k < |OwnBets(s.bets, playerId)|
    ensures var r := GetMyBets(s, playerId, k / limit + 1, limit);
      && r.pages.Pages? && k / limit + 1 <= r.pages.count
      && k % limit < |r.bets|
      && r.bets[k % limit] == Reverse(OwnBets(s.bets, playerId))[k]
  {
    PageOfRow(k, limit);
    PageCountCovers(|OwnBets(s.bets, playerId)|, limit, k);
  }

  /** Likewise for transactions. */
  lemma EveryTxnOnItsPage(s: Store, playerId: int, limit: int, k: nat)
    requires limit >= 1
    requires k < |OwnTxns(s.txns, playerId)|
    ensures var r := GetMyTransactions(s, playerId, k / limit + 1, limit);
      k % limit < |r| && r[k % limit] == Reverse(OwnTxns(s.txns, playerId))[k]
  {
    PageOfRow(k, limit);
  }

  /** Bets in non-decreasing creation time. */
  predicate OldestFirst(bets: seq<Bet>) {
    forall i, j :: 0 <= i <= j < |bets| ==> bets[i].createdAt <= bets[j].createdAt
  }

  /** A player's own bets keep the store's time order. */
  lemma {:induction false} OwnBetsChronological(bets: seq<Bet>, playerId: int)
    requires OldestFirst(bets)
    ensures OldestFirst(OwnBets(bets, playerId))
  {
    if |bets| > 0 {
      var prefix := bets[..|bets| - 1];
      var last := bets[|bets| - 1];
      assert OldestFirst(prefix);
      OwnBetsChronological(prefix, playerId);
      var ownPrefix := OwnBets(prefix, playerId);
      var own := OwnBets(bets, playerId);
      if last.playerId == playerId {
        assert own == ownPrefix + [last];
        forall i | 0 <= i < |ownPrefix|
          ensures ownPrefix[i].createdAt <= last.createdAt
        {
          assert ownPrefix[i] in prefix;
          var idx :| 0 <= idx < |prefix| && prefix[idx] == ownPrefix[i];
          assert bets[idx] == ownPrefix[i];
        }
      } else {
        assert own == ownPrefix;
      }
    }
  }

  /** Bets in non-increasing creation time. */
  predicate NewestFirst(bets: seq<Bet>) {
    forall i, j :: 0 <= i <= j < |bets| ==> bets[i].createdAt >= bets[j].createdAt
  }

  /** Any page of the reversed list of time-ordered bets is newest first. */
  lemma WindowOfReversedNewestFirst(own: seq<Bet>, page: int, limit: int)
    requires page >= 1 && limit >= 0
    requires OldestFirst(own)
    ensures NewestFirst(Window(Reverse(own), page, limit))
  {
    var rev := Reverse(own);
    var rows := Window(rev, page, limit);
    var skip := Skip(page, limit);
    forall i, j | 0 <= i <= j < |rows|
      ensures rows[i].createdAt >= rows[j].createdAt
    {
      assert rows[i] == rev[skip + i] == own[|own| - 1 - (skip + i)];
      assert rows[j] == rev[skip + j] == own[|own| - 1 - (skip + j)];
    }
  }

  /** Every page lists bets newest first. */
  lemma BetPagesNewestFirst(s: Store, playerId: int, page: int, limit: int, now: int)
    requires page >= 1 && limit >= 0
    requires ChronologicalUpTo(s, now)
    ensures NewestFirst(GetMyBets(s, playerId, page, limit).bets)
  {
    assert OldestFirst(s.bets);
    OwnBetsChronological(s.bets, playerId);
    WindowOfReversedNewestFirst(OwnBets(s.bets, playerId), page, limit);
  }
}

=== FILE: live_scores.dfy ===
/**
 * The live-score poller (src/live-scores.service.ts): every five seconds,
 * unless a poll is still running, fetch all live matches, group them by
 * their sport field, push each group to the gateway under its numeric sport
 * id, then push the whole list.
 *
 * The poller's state is the interval handle and the re-entrancy flag. A
 * poll's outcome is the list of pushes it makes. Grouping follows
 * JavaScript object semantics: a key is the sport field's string (or
 * `unknown`), and `Object.entries` lists array-index keys in ascending
 * numeric order before the other keys in first-seen order.
 */
module LiveScores {
  import opened Wrappers
  import opened Text
  import G = Gateway

  const PollMs: nat := 5000

  /** The interval handle (if one is set) and whether a poll is in progress. */
  datatype Poller = Poller(timer: Option<nat>, isPolling: bool)

  /** One `pushLiveUpdate(sportId, matches)` call. */
  datatype Push<M> = Push(sportId: Option<int>, matches: seq<M>)

  /** What `getLiveGames(undefined)` gave the poll: a throw, or a result whose `results` may be absent. */
  datatype Fetch<M> = Threw | Returned(results: Option<seq<M>>)

  /** One object-literal key with the matches pushed onto it, in feed order. */
  datatype Group<M> = Group(key: string, members: seq<M>)

  // ---------------------------------------------------------------- lifecycle

  /** `onModuleInit`: arm the interval and start the first poll at once. */
  function Init(p: Poller, handle: nat): (r: (Poller, bool))
    ensures r.0.timer == Some(handle)
    ensures r.1 <==> !p.isPolling
    ensures r.0.isPolling
  {
    var (q, go) := BeginPoll(p.(timer := Some(handle)));
    (q, go)
  }

  /** The re-entrancy guard: a tick while a poll runs does nothing. */
  function BeginPoll(p: Poller): (r: (Poller, bool))
    ensures r.1 <==> !p.isPolling
    ensures r.0 == p.(isPolling := true)
  {
    if p.isPolling then (p, false) else (p.(isPolling := true), true)
  }

  /** The `finally` of a poll. */
  function EndPoll(p: Poller): (q: Poller)
    ensures !q.isPolling && q.timer == p.timer
  {
    p.(isPolling := false)
  }

  /** `onModuleDestroy`: clear the interval if one is set; returns the handle cleared. */
  function Destroy(p: Poller): (r: (Poller, Option<nat>))
    ensures r.0.timer.None? && r.0.isPolling == p.isPolling
    ensures r.1 == p.timer
  {
    if p.timer.Some? then (p.(timer := None), p.timer) else (p, None)
  }

  /** Destroying twice clears the interval once. */
  lemma DestroyIdempotent(p: Poller)
    ensures Destroy(Destroy(p).0).0 == Destroy(p).0
    ensures Destroy(Destroy(p).0).1 == None
  {
  }

  /** Of two ticks with no poll finishing in between, at most one polls. */
  lemma TicksDoNotOverlap(p: Poller)
    ensures !(BeginPoll(p).1 && BeginPoll(BeginPoll(p).0).1)
    ensures BeginPoll(EndPoll(BeginPoll(p).0)).1
  {
  }

  // ---------------------------------------------------------------- grouping

  /** `match.sport_id ?? 'unknown'`. */
  function KeyOf<M>(sportOf: M -> Option<string>, m: M): string {
    sportOf(m).GetOr("unknown")
  }

  /** The matches filed under a key, in feed order. */
  function Members<M>(ms: seq<M>, sportOf: M -> Option<string>, key: string): (r: seq<M>)
    ensures |r| <= |ms|
  {
    if |ms| == 0 then []
    else Members(ms[..|ms| - 1], sportOf, key)
         + (if KeyOf(sportOf, ms[|ms| - 1]) == key then [ms[|ms| - 1]] else [])
  }

  predicate DistinctKeys<M>(gs: seq<Group<M>>) {
    forall i, j :: 0 <= i < j < |gs| ==> gs[i].key != gs[j].key
  }

  /** Some group is filed under the key. */
  predicate HasKey<M>(gs: seq<Group<M>>, k: string) {
    exists i :: 0 <= i < |gs| && gs[i].key == k
  }

  /** `(bySport[sid] ??= []).push(match)`. */
  function File<M>(gs: seq<Group<M>>, key: string, m: M): (r: seq<Group<M>>)
    requires DistinctKeys(gs)
    ensures HasKey(gs, key) ==> |r| == |gs|
    ensures !HasKey(gs, key) ==> r == gs + [Group(key, [m])]
    ensures forall i :: 0 <= i < |gs| ==> r[i].key == gs[i].key
    ensures forall i :: 0 <= i < |gs| ==> r[i].members == gs[i].members + (if gs[i].key == key then [m] else [])
  {
    if |gs| == 0 then [Group(key, [m])]
    else if gs[0].key == key then
      assert gs[0].key == key;
      [gs[0].(members := gs[0].members + [m])] + gs[1..]
    else
      HasKeyTail(gs, key);
      [gs[0]] + File(gs[1..], key, m)
  }

  /** Filing keeps the keys distinct: an existing key is reused, a new one appended. */
  lemma FileDistinct<M>(gs: seq<Group<M>>, key: string, m: M)
    requires DistinctKeys(gs)
    ensures DistinctKeys(File(gs, key, m))
  {
    var r := File(gs, key, m);
    forall i, j | 0 <= i < j < |r|
      ensures r[i].key != r[j].key
    {
      if j == |gs| {
        assert r[j].key == key && r[i].key == gs[i].key;
      }
    }
  }

  /** A key that the first group does not have is among the groups iff it is among the rest. */
  lemma HasKeyTail<M>(gs: seq<Group<M>>, key: string)
    requires |gs| > 0 && gs[0].key != key
    ensures HasKey(gs[1..], key) <==> HasKey(gs, key)
  {
    if HasKey(gs[1..], key) {
      var i :| 0 <= i < |gs[1..]| && gs[1..][i].key == key;
      assert gs[i + 1].key == key;
    }
    if HasKey(gs, key) {
      var i :| 0 <= i < |gs| && gs[i].key == key;
      assert gs[1..][i - 1].key == key;
    }
  }

  /** The object literal after the grouping loop: keys in first-seen order. */
  function GroupBy<M>(ms: seq<M>, sportOf: M -> Option<string>): (gs: seq<Group<M>>)
    ensures DistinctKeys(gs)
  {
    if |ms| == 0 then []
    else
      var m := ms[|ms| - 1];
      FileDistinct(GroupBy(ms[..|ms| - 1], sportOf), KeyOf(sportOf, m), m);
      File(GroupBy(ms[..|ms| - 1], sportOf), KeyOf(sportOf, m), m)
  }

  /** Filing adds the key if it is new and keeps every other key. */
  lemma FileKeys<M>(gs: seq<Group<M>>, key: string, m: M, k: string)
    requires DistinctKeys(gs)
    ensures HasKey(File(gs, key, m), k) <==> HasKey(gs, k) || k == key
  {
    var r := File(gs, key, m);
    if HasKey(r, k) {
      var i :| 0 <= i < |r| && r[i].key == k;
      if i < |gs| {
        assert gs[i].key == k;
      }
    }
    if HasKey(gs, k) {
      var i :| 0 <= i < |gs| && gs[i].key == k;
      assert r[i].key == k;
    }
    if k == key {
      if HasKey(gs, key) {
        var i :| 0 <= i < |gs| && gs[i].key == k;
        assert r[i].key == k;
      } else {
        assert r[|gs|].key == k;
      }
    }
  }

  /** Some match of the feed carries the key. */
  predicate Occurs<M>(ms: seq<M>, sportOf: M -> Option<string>, k: string) {
    exists i :: 0 <= i < |ms| && KeyOf(sportOf, ms[i]) == k
  }

  lemma OccursStep<M>(ms: seq<M>, sportOf: M -> Option<string>, k: string)
    requires |ms| > 0
    ensures Occurs(ms, sportOf, k) <==> Occurs(ms[..|ms| - 1], sportOf, k) || KeyOf(sportOf, ms[|ms| - 1]) == k
  {
    var prefix := ms[..|ms| - 1];
    if Occurs(prefix, sportOf, k) {
      var i :| 0 <= i < |prefix| && KeyOf(sportOf, prefix[i]) == k;
      assert ms[i] == prefix[i];
    }
    if Occurs(ms, sportOf, k) {
      var i :| 0 <= i < |ms| && KeyOf(sportOf, ms[i]) == k;
      if i < |prefix| {
        assert ms[i] == prefix[i];
      }
    }
  }

  /** Grouping yields exactly the keys that occur in the feed. */
  lemma {:induction false} GroupByKeys<M>(ms: seq<M>, sportOf: M -> Option<string>)
    ensures forall k :: HasKey(GroupBy(ms, sportOf), k) <==> Occurs(ms, sportOf, k)
  {
    if |ms| > 0 {
      var prefix := ms[..|ms| - 1];
      var key := KeyOf(sportOf, ms[|ms| - 1]);
      GroupByKeys(prefix, sportOf);
      forall k
        ensures HasKey(GroupBy(ms, sportOf), k) <==> Occurs(ms, sportOf, k)
      {
        FileKeys(GroupBy(prefix, sportOf), key, ms[|ms| - 1], k);
        OccursStep(ms, sportOf, k);
      }
    }
  }

  lemma MembersStep<M>(ms: seq<M>, sportOf: M -> Option<string>, k: string)
    requires |ms| > 0
    ensures Members(ms, sportOf, k)
         == Members(ms[..|ms| - 1], sportOf, k) + (if KeyOf(sportOf, ms[|ms| - 1]) == k then [ms[|ms| - 1]] else [])
  {
  }

  /** Each group holds exactly the feed's matches with its key, in feed order. */
  ghost predicate FiledExactly<M>(gs: seq<Group<M>>, ms: seq<M>, sportOf: M -> Option<string>) {
    forall i :: 0 <= i < |gs| ==> gs[i].members == Members(ms, sportOf, gs[i].key)
  }

  /** Grouping files each match under its key and nowhere else. */
  lemma {:induction false} GroupByMembers<M>(ms: seq<M>, sportOf: M -> Option<string>)
    ensures FiledExactly(GroupBy(ms, sportOf), ms, sportOf)
  {
    if |ms| > 0 {
      var prefix := ms[..|ms| - 1];
      var m := ms[|ms| - 1];
      var key := KeyOf(sportOf, m);
      GroupByMembers(prefix, sportOf);
      var before := GroupBy(prefix, sportOf);
      assert FiledExactly(before, prefix, sportOf);
      var gs := File(before, key, m);
      assert gs == GroupBy(ms, sportOf);
      forall i | 0 <= i < |gs|
        ensures gs[i].members == Members(ms, sportOf, gs[i].key)
      {
        MembersStep(ms, sportOf, gs[i].key);
        if i < |before| {
          assert gs[i].key == before[i].key;
        } else {
          assert !HasKey(before, key);
          assert gs[i] == Group(key, [m]);
          GroupByKeys(prefix, sportOf);
          MembersAbsent(prefix, sportOf, key);
        }
      }
    }
  }

  /** A key that no match carries collects nothing. */
  lemma {:induction false} MembersAbsent<M>(ms: seq<M>, sportOf: M -> Option<string>, key: string)
    requires !Occurs(ms, sportOf, key)
    ensures Members(ms, sportOf, key) == []
  {
    if |ms| > 0 {
      OccursStep(ms, sportOf, key);
      MembersAbsent(ms[..|ms| - 1], sportOf, key);
    }
  }

  /** Grouping keeps every match: the group sizes add up to the feed's length. */
  lemma {:induction false} GroupSizes<M>(ms: seq<M>, sportOf: M -> Option<string>)
    ensures TotalMembers(GroupBy(ms, sportOf)) == |ms|
  {
    if |ms| > 0 {
      var prefix := ms[..|ms| - 1];
      var m := ms[|ms| - 1];
      GroupSizes(prefix, sportOf);
      FileAddsOne(GroupBy(prefix, sportOf), KeyOf(sportOf, m), m);
    }
  }

  function TotalMembers<M>(gs: seq<Group<M>>): nat {
    if |gs| == 0 then 0 else TotalMembers(gs[..|gs| - 1]) + |gs[|gs| - 1].members|
  }

  lemma {:induction false} TotalMembersAppend<M>(gs: seq<Group<M>>, hs: seq<Group<M>>)
    ensures TotalMembers(gs + hs) == TotalMembers(gs) + TotalMembers(hs)
  {
    if |hs| > 0 {
      assert (gs + hs)[..|gs + hs| - 1] == gs + hs[..|hs| - 1];
      TotalMembersAppend(gs, hs[..|hs| - 1]);
    } else {
      assert gs + hs == gs;
    }
  }

  lemma {:induction false} FileAddsOne<M>(gs: seq<Group<M>>, key: string, m: M)
    requires DistinctKeys(gs)
    ensures TotalMembers(File(gs, key, m)) == TotalMembers(gs) + 1
  {
    if |gs| == 0 {
      assert TotalMembers([Group(key, [m])]) == TotalMembers([Group(key, [m])][..0]) + 1;
    } else {
      var r := File(gs, key, m);
      assert gs == [gs[0]] + gs[1..];
      TotalMembersAppend([gs[0]], gs[1..]);
      assert [gs[0]][..0] == [];
      if gs[0].key == key {
        assert r == [r[0]] + gs[1..];
        TotalMembersAppend([r[0]], gs[1..]);
        assert [r[0]][..0] == [];
      } else {
        FileAddsOne(gs[1..], key, m);
        assert r == [gs[0]] + File(gs[1..], key, m);
        TotalMembersAppend([gs[0]], File(gs[1..], key, m));
      }
    }
  }

  // ---------------------------------------------------------------- entry order

  /** The numeric value that orders an array-index key. */
  function IndexValue(k: string): nat {
    if AllDigits(k) then DigitsValue(k) else 0
  }

  /** Insert a group into a list already in ascending key value. */
  function InsertByIndex<M>(g: Group<M>, sorted: seq<Group<M>>): (r: seq<Group<M>>)
    ensures |r| == |sorted| + 1
    ensures multiset(r) == multiset(sorted) + multiset{g}
  {
    if |sorted| == 0 || IndexValue(g.key) <= IndexValue(sorted[0].key) then [g] + sorted
    else
      assert sorted == [sorted[0]] + sorted[1..];
      [sorted[0]] + InsertByIndex(g, sorted[1..])
  }

  predicate AscendingIndex<M>(gs: seq<Group<M>>) {
    forall i, j :: 0 <= i < j < |gs| ==> IndexValue(gs[i].key) <= IndexValue(gs[j].key)
  }

  /** A lower bound of the key values of a group and a list also bounds the list with the group inserted. */
  lemma {:induction false} InsertByIndexBound<M>(g: Group<M>, sorted: seq<Group<M>>, b: nat)
    requires b <= IndexValue(g.key)
    requires forall i :: 0 <= i < |sorted| ==> b <= IndexValue(sorted[i].key)
    ensures forall i :: 0 <= i < |InsertByIndex(g, sorted)| ==> b <= IndexValue(InsertByIndex(g, sorted)[i].key)
  {
    if |sorted| > 0 && IndexValue(g.key) > IndexValue(sorted[0].key) {
      InsertByIndexBound(g, sorted[1..], b);
    }
  }

  lemma {:induction false} InsertByIndexSorted<M>(g: Group<M>, sorted: seq<Group<M>>)
    requires AscendingIndex(sorted)
    ensures AscendingIndex(InsertByIndex(g, sorted))
  {
    if |sorted| > 0 && IndexValue(g.key) > IndexValue(sorted[0].key) {
      InsertByIndexSorted(g, sorted[1..]);
      InsertByIndexBound(g, sorted[1..], IndexValue(sorted[0].key));
    }
  }

  function SortByIndex<M>(gs: seq<Group<M>>): (r: seq<Group<M>>)
    ensures |r| == |gs|
    ensures multiset(r) == multiset(gs)
  {
    if |gs| == 0 then []
    else
      assert gs == gs[..|gs| - 1] + [gs[|gs| - 1]];
      InsertByIndex(gs[|gs| - 1], SortByIndex(gs[..|gs| - 1]))
  }

  lemma {:induction false} SortByIndexSorted<M>(gs: seq<Group<M>>)
    ensures AscendingIndex(SortByIndex(gs))
  {
    if |gs| > 0 {
      SortByIndexSorted(gs[..|gs| - 1]);
      InsertByIndexSorted(gs[|gs| - 1], SortByIndex(gs[..|gs| - 1]));
    }
  }

  function IndexGroups<M>(gs: seq<Group<M>>): (r: seq<Group<M>>)
    ensures forall i :: 0 <= i < |r| ==> IsArrayIndex(r[i].key)
  {
    if |gs| == 0 then []
    else IndexGroups(gs[..|gs| - 1]) + (if IsArrayIndex(gs[|gs| - 1].key) then [gs[|gs| - 1]] else [])
  }

  function NamedGroups<M>(gs: seq<Group<M>>): (r: seq<Group<M>>)
    ensures forall i :: 0 <= i < |r| ==> !IsArrayIndex(r[i].key)
  {
    if |gs| == 0 then []
    else NamedGroups(gs[..|gs| - 1]) + (if !IsArrayIndex(gs[|gs| - 1].key) then [gs[|gs| - 1]] else [])
  }

  lemma {:induction false} SplitKeepsAll<M>(gs: seq<Group<M>>)
    ensures multiset(IndexGroups(gs)) + multiset(NamedGroups(gs)) == multiset(gs)
  {
    if |gs| > 0 {
      SplitKeepsAll(gs[..|gs| - 1]);
      assert gs == gs[..|gs| - 1] + [gs[|gs| - 1]];
    }
  }

  /** `Object.entries(bySport)`: array-index keys in ascending order, then the others in first-seen order. */
  function Entries<M>(gs: seq<Group<M>>): (r: seq<Group<M>>)
    ensures |r| == |gs|
    ensures multiset(r) == multiset(gs)
  {
    SplitKeepsAll(gs);
    var r := SortByIndex(IndexGroups(gs)) + NamedGroups(gs);
    assert |multiset(r)| == |multiset(gs)|;
    r
  }

  /** Sorting the array-index groups keeps them array-index groups. */
  lemma SortedAreIndex<M>(gs: seq<Group<M>>)
    ensures forall i :: 0 <= i < |SortByIndex(IndexGroups(gs))| ==> IsArrayIndex(SortByIndex(IndexGroups(gs))[i].key)
  {
    var idx := IndexGroups(gs);
    var sorted := SortByIndex(idx);
    forall i | 0 <= i < |sorted|
      ensures IsArrayIndex(sorted[i].key)
    {
      assert sorted[i] in multiset(idx);
      var k :| 0 <= k < |idx| && idx[k] == sorted[i];
    }
  }

  /**
   * The entry order is the object-property order: the same groups, every
   * array-index key before every other key, array indices ascending, and
   * the other keys in the order they were first seen.
   */
  lemma EntriesOrder<M>(gs: seq<Group<M>>)
    ensures var es := Entries(gs);
      var n := |SortByIndex(IndexGroups(gs))|;
      && multiset(es) == multiset(gs)
      && |es| == |gs|
      && (forall i :: 0 <= i < n ==> IsArrayIndex(es[i].key))
      && (forall i :: n <= i < |es| ==> !IsArrayIndex(es[i].key))
      && (forall i, j :: 0 <= i < j < n ==> IndexValue(es[i].key) <= IndexValue(es[j].key))
      && es[n..] == NamedGroups(gs)
  {
    var sorted := SortByIndex(IndexGroups(gs));
    var es := Entries(gs);
    assert es == sorted + NamedGroups(gs);
    SortByIndexSorted(IndexGroups(gs));
    SortedAreIndex(gs);
  }

  // ---------------------------------------------------------------- the poll

  /** The pushes of one poll, given what the fetch gave it. */
  function PollPushes<M>(fetch: Fetch<M>, sportOf: M -> Option<string>): (ps: seq<Push<M>>)
    ensures fetch.Threw? ==> ps == []
    ensures fetch.Returned? && fetch.results.GetOr([]) == [] ==> ps == []
    ensures fetch.Returned? && fetch.results.GetOr([]) != [] ==>
      var ms := fetch.results.value;
      var es := Entries(GroupBy(ms, sportOf));
      && |ps| == |es| + 1
      && ps[|ps| - 1] == Push(None, ms)
      && forall i :: 0 <= i < |es| ==> ps[i] == Push(ParseInt(es[i].key), es[i].members)
  {
    match fetch
    case Threw => []
    case Returned(results) =>
      var ms := results.GetOr([]);
      if |ms| == 0 then []
      else
        EntryPushes(Entries(GroupBy(ms, sportOf))) + [Push(None, ms)]
  }

  /** One push per entry: the key read by `parseInt`, and the entry's matches. */
  function EntryPushes<M>(es: seq<Group<M>>): (ps: seq<Push<M>>)
    ensures |ps| == |es|
    ensures forall i :: 0 <= i < |es| ==> ps[i] == Push(ParseInt(es[i].key), es[i].members)
  {
    seq(|es|, i requires 0 <= i < |es| => Push(ParseInt(es[i].key), es[i].members))
  }

  /** One tick: skipped while a poll runs; otherwise a poll, after which the flag is clear. */
  function Tick<M>(p: Poller, fetch: Fetch<M>, sportOf: M -> Option<string>): (r: (Poller, seq<Push<M>>))
    ensures p.isPolling ==> r == (p, [])
    ensures !p.isPolling ==> r == (p, PollPushes(fetch, sportOf))
  {
    var (q, go) := BeginPoll(p);
    if !go then (q, []) else (EndPoll(q), PollPushes(fetch, sportOf))
  }

  /** The pushes of a poll over a non-empty feed, one per entry and then the whole feed. */
  lemma PollPushesShape<M>(ms: seq<M>, sportOf: M -> Option<string>)
    requires |ms| > 0
    ensures var ps := PollPushes(Returned(Some(ms)), sportOf);
      && |ps| == |GroupBy(ms, sportOf)| + 1
      && ps[|ps| - 1] == Push(None, ms)
  {
  }

  /** An element of one list is an element of any list with the same multiset. */
  lemma SameElements<M>(xs: seq<Group<M>>, ys: seq<Group<M>>, i: nat) returns (j: nat)
    requires multiset(xs) == multiset(ys) && i < |xs|
    ensures j < |ys| && ys[j] == xs[i]
  {
    assert xs[i] in multiset(ys);
    j :| 0 <= j < |ys| && ys[j] == xs[i];
  }

  /** Every sport push carries one key's number and exactly that key's matches. */
  lemma PushesComeFromKeys<M>(ms: seq<M>, sportOf: M -> Option<string>, i: nat)
    requires |ms| > 0
    requires i < |PollPushes(Returned(Some(ms)), sportOf)| - 1
    ensures var ps := PollPushes(Returned(Some(ms)), sportOf);
      exists k :: Occurs(ms, sportOf, k) && ps[i] == Push(ParseInt(k), Members(ms, sportOf, k))
  {
    var gs := GroupBy(ms, sportOf);
    var es := Entries(gs);
    var ps := PollPushes(Returned(Some(ms)), sportOf);
    assert ps[i] == Push(ParseInt(es[i].key), es[i].members);
    var j := SameElements(es, gs, i);
    var k := gs[j].key;
    GroupByMembers(ms, sportOf);
    assert FiledExactly(gs, ms, sportOf);
    assert gs[j].members == Members(ms, sportOf, k);
    GroupByKeys(ms, sportOf);
    assert HasKey(gs, k);
    assert Occurs(ms, sportOf, k) && ps[i] == Push(ParseInt(k), Members(ms, sportOf, k));
  }

  /** Every key of the feed is pushed once with its number and its matches. */
  lemma KeysArePushed<M>(ms: seq<M>, sportOf: M -> Option<string>, k: string)
    requires Occurs(ms, sportOf, k)
    ensures var ps := PollPushes(Returned(Some(ms)), sportOf);
      exists i :: 0 <= i < |ps| - 1 && ps[i] == Push(ParseInt(k), Members(ms, sportOf, k))
  {
    var gs := GroupBy(ms, sportOf);
    var es := Entries(gs);
    var ps := PollPushes(Returned(Some(ms)), sportOf);
    GroupByKeys(ms, sportOf);
    assert HasKey(gs, k);
    var j :| 0 <= j < |gs| && gs[j].key == k;
    var i := SameElements(gs, es, j);
    PollPushesShape(ms, sportOf);
    assert ps[i] == Push(ParseInt(es[i].key), es[i].members);
    GroupByMembers(ms, sportOf);
    assert FiledExactly(gs, ms, sportOf);
    assert gs[j].members == Members(ms, sportOf, k);
  }

  /** A sport key written as a decimal number is pushed under that number. */
  lemma NumericKeyPushedAsNumber(n: int)
    ensures ParseInt(IntToString(n)) == Some(n)
  {
    ParseIntOfIntToString(n);
  }

  // ---------------------------------------------------------------- delivery

  /** The gateway emissions of a poll's pushes, in order. */
  function Deliver<M>(h: G.Hub, ps: seq<Push<M>>, now: string): (es: seq<G.Emission<M>>)
    ensures !h.hasServer ==> es == []
  {
    if |ps| == 0 then []
    else Deliver(h, ps[..|ps| - 1], now) + G.PushLiveUpdate(h, ps[|ps| - 1].sportId, ps[|ps| - 1].matches, now)
  }

  function CountRoom<M>(es: seq<G.Emission<M>>): nat {
    if |es| == 0 then 0 else CountRoom(es[..|es| - 1]) + (if es[|es| - 1].ToRoom? then 1 else 0)
  }

  function CountAll<M>(es: seq<G.Emission<M>>): nat {
    if |es| == 0 then 0 else CountAll(es[..|es| - 1]) + (if es[|es| - 1].ToAll? then 1 else 0)
  }

  function CountNumbered<M>(ps: seq<Push<M>>): nat {
    if |ps| == 0 then 0 else CountNumbered(ps[..|ps| - 1]) + (if ps[|ps| - 1].sportId.Some? then 1 else 0)
  }

  lemma {:induction false} CountAppend<M>(a: seq<G.Emission<M>>, b: seq<G.Emission<M>>)
    ensures CountRoom(a + b) == CountRoom(a) + CountRoom(b)
    ensures CountAll(a + b) == CountAll(a) + CountAll(b)
  {
    if |b| > 0 {
      assert (a + b)[..|a + b| - 1] == a + b[..|b| - 1];
      CountAppend(a, b[..|b| - 1]);
    } else {
      assert a + b == a;
    }
  }

  /**
   * With a server, the pushes reach the socket as one all-sports update each
   * and one room update for each push that has a sport number.
   */
  lemma {:induction false} DeliverCounts<M>(h: G.Hub, ps: seq<Push<M>>, now: string)
    requires h.hasServer
    ensures CountAll(Deliver(h, ps, now)) == |ps|
    ensures CountRoom(Deliver(h, ps, now)) == CountNumbered(ps)
  {
    if |ps| > 0 {
      var last := ps[|ps| - 1];
      DeliverCounts(h, ps[..|ps| - 1], now);
      var tail := G.PushLiveUpdate(h, last.sportId, last.matches, now);
      CountAppend(Deliver(h, ps[..|ps| - 1], now), tail);
      if last.sportId.Some? {
        assert tail[..1] == [tail[0]] && tail[..1][..0] == [];
        assert CountAll(tail[..1]) == 0 && CountRoom(tail[..1]) == 1;
      } else {
        assert tail[..0] == [];
      }
      assert CountAll(tail) == 1;
    }
  }
}

=== FILE: sites.dfy ===
/**
 * Site configuration by domain (src/site.service.ts) and the controller that
 * derives the domain from the Host header (src/site.controller.ts).
 *
 * The service keeps a process-local cache of configurations keyed by
 * `site:config:<domain>`, each entry valid until a millisecond deadline.
 * On a miss it looks the domain up in the database (a function parameter
 * here), falls back to a built-in Playbaji configuration, and caches the
 * result for sixty seconds only when the site is active.
 */
module Sites {
  import opened Wrappers
  import opened Text

  const CacheTtlMs: nat := 60000

  datatype CurrencyInfo = CurrencyInfo(code: string, symbol: string, rate: real)

  datatype SiteCurrency = SiteCurrency(isDefault: bool, currency: CurrencyInfo)

  /** A site's `config` JSON: the built-in colour pair, or whatever a stored site holds. */
  datatype Config = Colors(primary: string, accent: string) | Stored(json: string)

  datatype Site = Site(
    id: int,
    domain: string,
    name: string,
    template: string,
    logoUrl: Option<string>,
    config: Config,
    currencies: seq<SiteCurrency>,
    isActive: bool,
    createdAt: int,
    updatedAt: int)

  datatype Entry = Entry(data: Site, expiresAt: int)

  type MemCache = map<string, Entry>

  /** What a lookup returned, the cache after it, and the domains it asked the database for. */
  datatype Served = Served(site: Site, cache: MemCache, queried: seq<string>)

  function CacheKey(domain: string): string {
    "site:config:" + domain
  }

  /** Distinct domains never share a cache entry. */
  lemma CacheKeysDistinct(a: string, b: string)
    requires a != b
    ensures CacheKey(a) != CacheKey(b)
  {
    if CacheKey(a) == CacheKey(b) {
      PrefixCancel("site:config:", a, b);
    }
  }

  /** An entry is served while its deadline is strictly in the future. */
  predicate Fresh(cache: MemCache, key: string, now: int) {
    key in cache && cache[key].expiresAt > now
  }

  // ---------------------------------------------------------------- the default site

  /** The taka sign, U+09F3. */
  const Taka: string := "\U{09F3}"

  /** The default currency symbol as the source file spells it: three Latin-1 characters. */
  const WrittenTaka: string := "\U{00E0}\U{00A7}\U{00B3}"

  /** The three UTF-8 bytes of a code point between U+0800 and U+FFFF. */
  function Utf8Of3(cp: nat): (bytes: seq<nat>)
    requires 0x800 <= cp < 0x1_0000
    ensures |bytes| == 3 && forall i :: 0 <= i < 3 ==> bytes[i] < 0x100
  {
    [0xE0 + cp / 0x1000, 0x80 + (cp / 0x40) % 0x40, 0x80 + cp % 0x40]
  }

  /** Each byte read as the Latin-1 character of the same number. */
  function Latin1(bytes: seq<nat>): (s: string)
    requires forall i :: 0 <= i < |bytes| ==> bytes[i] < 0x100
    ensures |s| == |bytes| && forall i :: 0 <= i < |bytes| ==> s[i] as int == bytes[i]
  {
    seq(|bytes|, i requires 0 <= i < |bytes| => bytes[i] as char)
  }

  /**
   * The symbol written in the source is the taka sign's UTF-8 bytes read back
   * as Latin-1: it is three characters and not the taka sign.
   */
  lemma WrittenTakaIsMojibake()
    ensures WrittenTaka == Latin1(Utf8Of3(0x09F3))
    ensures WrittenTaka != Taka && |WrittenTaka| == 3 && |Taka| == 1
  {
  }

  function DefaultSiteWith(symbol: string, domain: string, now: int): Site {
    Site(
      id := 0,
      domain := domain,
      name := "Playbaji",
      template := "playbaji",
      logoUrl := None,
      config := Colors("#0b1624", "#ffc107"),
      currencies := [SiteCurrency(true, CurrencyInfo("BDT", symbol, 1.0))],
      isActive := true,
      createdAt := now,
      updatedAt := now)
  }

  /** The fallback site exactly as the source builds it. */
  function DefaultSiteAsWritten(domain: string, now: int): (s: Site)
    ensures |s.currencies| == 1 && s.currencies[0].currency.symbol == WrittenTaka
  {
    DefaultSiteWith(WrittenTaka, domain, now)
  }

  /** The as-written fallback shows a three-character symbol where the taka sign is meant. */
  lemma DefaultSymbolAsWrittenIsWrong(domain: string, now: int)
    ensures DefaultSiteAsWritten(domain, now).currencies[0].currency.symbol != Taka
  {
    WrittenTakaIsMojibake();
  }

  /**
   * The fallback site for a domain with no stored site: Playbaji, id 0, the
   * requested domain, active, and one default BDT currency at rate 1 shown
   * with the taka sign.
   */
  function DefaultSite(domain: string, now: int): (s: Site)
    ensures s.id == 0 && s.domain == domain && s.name == "Playbaji" && s.isActive
    ensures |s.currencies| == 1 && s.currencies[0].isDefault
    ensures s.currencies[0].currency == CurrencyInfo("BDT", Taka, 1.0)
    ensures s == DefaultSiteAsWritten(domain, now).(currencies := [SiteCurrency(true, CurrencyInfo("BDT", Taka, 1.0))])
  {
    DefaultSiteWith(Taka, domain, now)
  }

  // ---------------------------------------------------------------- lookup

  /**
   * `getConfigByDomain(domain)` given the cache, the database lookup and two
   * clock readings: `now` for the freshness test before the awaited query,
   * and `written` for the fallback's timestamps and the cache deadline after it.
   */
  function GetConfigByDomain(cache: MemCache, domain: string, lookup: string -> Option<Site>, now: int, written: int): (r: Served)
    ensures Fresh(cache, CacheKey(domain), now) ==> r == Served(cache[CacheKey(domain)].data, cache, [])
    ensures !Fresh(cache, CacheKey(domain), now) ==>
      && r.queried == [domain]
      && r.site == (if lookup(domain).Some? then lookup(domain).value else DefaultSite(domain, written))
      && (r.site.isActive ==> r.cache == cache[CacheKey(domain) := Entry(r.site, written + CacheTtlMs)])
      && (!r.site.isActive ==> r.cache == cache)
  {
    var key := CacheKey(domain);
    if Fresh(cache, key, now) then Served(cache[key].data, cache, [])
    else
      var site := match lookup(domain) case Some(s) => s case None => DefaultSite(domain, written);
      Served(site, if site.isActive then cache[key := Entry(site, written + CacheTtlMs)] else cache, [domain])
  }

  /** A domain with no stored site gets the default site, and it is cached until 60 s after the write. */
  lemma UnknownDomainGetsDefault(cache: MemCache, domain: string, lookup: string -> Option<Site>, now: int, written: int)
    requires !Fresh(cache, CacheKey(domain), now) && lookup(domain).None?
    ensures var r := GetConfigByDomain(cache, domain, lookup, now, written);
      && r.site == DefaultSite(domain, written)
      && Fresh(r.cache, CacheKey(domain), written)
      && r.cache[CacheKey(domain)].expiresAt == written + CacheTtlMs
  {
  }

  /**
   * Within the sixty seconds after an active site is written to the cache, a
   * second lookup is served from the cache with no database query; from the
   * deadline on the database is asked again. The deadline counts from the
   * write, after the query, not from the first request.
   */
  lemma CachedForSixtySeconds(cache: MemCache, domain: string, lookup: string -> Option<Site>,
                              now: int, written: int, later: int, laterWritten: int)
    requires !Fresh(cache, CacheKey(domain), now)
    requires GetConfigByDomain(cache, domain, lookup, now, written).site.isActive
    ensures var first := GetConfigByDomain(cache, domain, lookup, now, written);
      var second := GetConfigByDomain(first.cache, domain, lookup, later, laterWritten);
      && (later < written + CacheTtlMs ==> second.queried == [] && second.site == first.site)
      && (later >= written + CacheTtlMs ==> second.queried == [domain])
  {
  }

  /** An inactive site is returned but never cached, so every lookup queries the database. */
  lemma InactiveNeverCached(cache: MemCache, domain: string, lookup: string -> Option<Site>, now: int, written: int)
    requires !Fresh(cache, CacheKey(domain), now)
    requires lookup(domain).Some? && !lookup(domain).value.isActive
    ensures var r := GetConfigByDomain(cache, domain, lookup, now, written);
      r.site == lookup(domain).value && r.cache == cache && !Fresh(r.cache, CacheKey(domain), now)
  {
  }

  /** A lookup touches only its own domain's cache entry. */
  lemma OtherEntriesUntouched(cache: MemCache, domain: string, lookup: string -> Option<Site>, now: int, written: int, other: string)
    requires other != domain
    ensures var r := GetConfigByDomain(cache, domain, lookup, now, written);
      (CacheKey(other) in r.cache <==> CacheKey(other) in cache)
      && (CacheKey(other) in cache ==> r.cache[CacheKey(other)] == cache[CacheKey(other)])
  {
    CacheKeysDistinct(other, domain);
  }

  // ---------------------------------------------------------------- controller

  /** `(req.headers.host || 'unknown').split(':')[0]`. */
  function Domain(host: Option<string>): (d: string)
    ensures !Contains(d, ":")
    ensures !Truthy(host) ==> d == "unknown"
  {
    var h := OrElse(host, "unknown");
    NoColonNoIndex("unknown", 0);
    FirstPieceFree(h, ":");
    Split(h, ":")[0]
  }

  /** A string with no colon character has no colon in it. */
  lemma {:induction false} NoColonNoIndex(s: string, from: nat)
    requires from <= |s|
    requires forall i :: 0 <= i < |s| ==> s[i] != ':'
    ensures IndexOfFrom(s, ":", from).None?
    decreases |s| - from
  {
    if from < |s| {
      assert s[from..from + 1][0] == s[from];
      NoColonNoIndex(s, from + 1);
    }
  }

  /** The domain is the Host up to its first colon; a Host without one is the domain. */
  lemma DomainIsHostPrefix(host: string)
    requires host != ""
    ensures StartsWith(host, Domain(Some(host)))
    ensures !Contains(host, ":") ==> Domain(Some(host)) == host
    ensures Contains(host, ":") ==> host[|Domain(Some(host))|] == ':'
  {
    assert OrElse(Some(host), "unknown") == host;
    var parts := Split(host, ":");
    match IndexOf(host, ":")
    case None =>
    case Some(i) =>
      assert parts[0] == host[..i];
      assert OccursAt(host, ":", i);
  }

  /** `getConfig(req)`: the service called with the Host's domain. */
  function GetConfig(cache: MemCache, host: Option<string>, lookup: string -> Option<Site>, now: int, written: int): (r: Served)
    ensures !Fresh(cache, CacheKey(Domain(host)), now) ==> r.queried == [Domain(host)]
    ensures forall q :: q in r.queried ==> !Contains(q, ":")
  {
    GetConfigByDomain(cache, Domain(host), lookup, now, written)
  }
}

=== FILE: text.dfy ===
/**
 * The JavaScript string operations the services rely on, over `seq<char>`:
 * `includes`, `indexOf`, `startsWith`, `split` with a string separator,
 * ASCII `toLowerCase`, decimal rendering of integers (template literals and
 * `String(n)`) and `parseInt(s, 10)`.
 */
module Text {
  import opened Wrappers

  /** `t` occurs in `s` starting at index `i`. */
  predicate OccursAt(s: string, t: string, i: nat) {
    i + |t| <= |s| && s[i..i + |t|] == t
  }

  /**
   * `s.indexOf(t, from)`: the first index at or after `from` where `t` occurs.
   */
  function IndexOfFrom(s: string, t: string, from: nat): (r: Option<nat>)
    requires from <= |s|
    ensures r.Some? ==> from <= r.value && OccursAt(s, t, r.value)
    ensures r.Some? ==> forall j :: from <= j < r.value ==> !OccursAt(s, t, j)
    ensures r.None? ==> forall j :: from <= j <= |s| ==> !OccursAt(s, t, j)
    decreases |s| - from
  {
    if OccursAt(s, t, from) then Some(from)
    else if from == |s| then None
    else IndexOfFrom(s, t, from + 1)
  }

  /** `s.indexOf(t)`, with `None` for JavaScript's -1. */
  function IndexOf(s: string, t: string): Option<nat> {
    IndexOfFrom(s, t, 0)
  }

  /** `s.includes(t)`. */
  predicate Contains(s: string, t: string) {
    IndexOf(s, t).Some?
  }

  /** `includes` holds exactly when `t` occurs somewhere in `s`. */
  lemma ContainsIff(s: string, t: string)
    ensures Contains(s, t) <==> exists i: nat :: OccursAt(s, t, i)
  {
    if !Contains(s, t) {
      forall i: nat
        ensures !OccursAt(s, t, i)
      {
        if i <= |s| {
          assert !OccursAt(s, t, i);
        }
      }
    }
  }

  /** A string contains every one of its own slices. */
  lemma ContainsSlice(s: string, t: string, i: nat)
    requires OccursAt(s, t, i)
    ensures Contains(s, t)
  {
    ContainsIff(s, t);
  }

  /** A JavaScript value that is a non-empty string: `undefined`, `null` and `''` are falsy. */
  predicate Truthy(o: Option<string>) {
    o.Some? && o.value != ""
  }

  /** `o || fallback` for an optional string. */
  function OrElse(o: Option<string>, fallback: string): (r: string)
    ensures Truthy(o) ==> r == o.value
    ensures !Truthy(o) ==> r == fallback
  {
    if Truthy(o) then o.value else fallback
  }

  /** `s.startsWith(p)`. */
  predicate StartsWith(s: string, p: string) {
    |p| <= |s| && s[..|p|] == p
  }

  /**
   * `s.split(sep)` for a non-empty string separator: the pieces between
   * successive leftmost, non-overlapping occurrences of `sep`.
   */
  function Split(s: string, sep: string): (parts: seq<string>)
    requires |sep| > 0
    ensures |parts| >= 1
    ensures IndexOf(s, sep).None? <==> |parts| == 1
    ensures IndexOf(s, sep).None? ==> parts[0] == s
    ensures IndexOf(s, sep).Some? ==> parts[0] == s[..IndexOf(s, sep).value]
    decreases |s|
  {
    match IndexOf(s, sep)
    case None => [s]
    case Some(i) => [s[..i]] + Split(s[i + |sep|..], sep)
  }

  /** The text before the first occurrence of the separator does not contain it. */
  lemma HeadFree(s: string, sep: string, i: nat)
    requires |sep| > 0
    requires IndexOf(s, sep) == Some(i)
    ensures !Contains(s[..i], sep)
  {
    var head := s[..i];
    if Contains(head, sep) {
      var j := IndexOf(head, sep).value;
      assert head[j..j + |sep|] == s[j..j + |sep|];
      assert OccursAt(s, sep, j);
    }
  }

  /** No piece of a split contains the separator. */
  lemma {:induction false} SplitPiecesFree(s: string, sep: string)
    requires |sep| > 0
    ensures forall k :: 0 <= k < |Split(s, sep)| ==> !Contains(Split(s, sep)[k], sep)
    decreases |s|
  {
    match IndexOf(s, sep)
    case None =>
    case Some(i) =>
      HeadFree(s, sep, i);
      SplitStep(s, sep, i);
      SplitPiecesFree(s[i + |sep|..], sep);
  }

  /** The first piece of a split does not contain the separator. */
  lemma FirstPieceFree(s: string, sep: string)
    requires |sep| > 0
    ensures !Contains(Split(s, sep)[0], sep)
  {
    if IndexOf(s, sep).Some? {
      HeadFree(s, sep, IndexOf(s, sep).value);
    }
  }

  /** `parts.join(sep)`. */
  function Join(parts: seq<string>, sep: string): string
    requires |parts| >= 1
  {
    if |parts| == 1 then parts[0] else parts[0] + sep + Join(parts[1..], sep)
  }

  /** Splitting loses nothing: joining the pieces with the separator gives back the input. */
  lemma {:induction false} SplitJoin(s: string, sep: string)
    requires |sep| > 0
    ensures Join(Split(s, sep), sep) == s
    decreases |s|
  {
    if IndexOf(s, sep).Some? {
      var i := IndexOf(s, sep).value;
      var rest := s[i + |sep|..];
      SplitStep(s, sep, i);
      SplitJoin(rest, sep);
      JoinCons(s[..i], Split(rest, sep), sep);
      assert s[i..i + |sep|] == sep;
      assert s == s[..i] + s[i..i + |sep|] + rest;
    }
  }

  lemma SplitStep(s: string, sep: string, i: nat)
    requires |sep| > 0
    requires IndexOf(s, sep) == Some(i)
    ensures i + |sep| <= |s|
    ensures Split(s, sep) == [s[..i]] + Split(s[i + |sep|..], sep)
  {
  }

  lemma JoinCons(head: string, tail: seq<string>, sep: string)
    requires |tail| >= 1
    ensures Join([head] + tail, sep) == head + sep + Join(tail, sep)
  {
    assert ([head] + tail)[1..] == tail;
  }

  /** JavaScript's `split(sep)[k]` with `undefined` past the end. */
  function Piece(s: string, sep: string, k: nat): Option<string>
    requires |sep| > 0
  {
    var parts := Split(s, sep);
    if k < |parts| then Some(parts[k]) else None
  }

  /** A string of the shape `a + sep + b`, with `sep` first occurring right after `a`, splits there. */
  lemma SplitAround(a: string, sep: string, b: string)
    requires |sep| > 0
    requires IndexOf(a + sep + b, sep) == Some(|a|)
    requires !Contains(b, sep)
    ensures Split(a + sep + b, sep) == [a, b]
  {
    var s := a + sep + b;
    assert s[..|a|] == a;
    assert s[|a| + |sep|..] == b;
    assert IndexOf(b, sep).None?;
  }

  // ---------------------------------------------------------------- case

  /** `toLowerCase` on one character; only ASCII letters are modelled. */
  function LowerChar(c: char): char {
    if 'A' <= c <= 'Z' then (c as int - 'A' as int + 'a' as int) as char else c
  }

  /** `s.toLowerCase()` with ASCII case mapping. */
  function Lower(s: string): (r: string)
    ensures |r| == |s|
    ensures forall i :: 0 <= i < |s| ==> r[i] == LowerChar(s[i])
  {
    seq(|s|, i requires 0 <= i < |s| => LowerChar(s[i]))
  }

  // ---------------------------------------------------------------- numbers

  predicate IsDigit(c: char) {
    '0' <= c <= '9'
  }

  function DigitChar(d: nat): (c: char)
    requires d < 10
    ensures IsDigit(c)
  {
    ('0' as int + d) as char
  }

  function DigitValue(c: char): (d: nat)
    requires IsDigit(c)
    ensures d < 10
  {
    c as int - '0' as int
  }

  predicate AllDigits(s: string) {
    forall i :: 0 <= i < |s| ==> IsDigit(s[i])
  }

  /** The number a run of decimal digits denotes, most significant first. */
  function DigitsValue(ds: string): nat
    requires AllDigits(ds)
  {
    if |ds| == 0 then 0
    else DigitsValue(ds[..|ds| - 1]) * 10 + DigitValue(ds[|ds| - 1])
  }

  /** Decimal rendering of a natural number, without leading zeros. */
  function NatToString(n: nat): (s: string)
    ensures |s| >= 1 && AllDigits(s)
    ensures |s| > 1 ==> s[0] != '0'
  {
    if n < 10 then [DigitChar(n)] else NatToString(n / 10) + [DigitChar(n % 10)]
  }

  /** `String(i)` / `${i}` for an integer-valued number. */
  function IntToString(i: int): string {
    if i < 0 then "-" + NatToString(-i) else NatToString(i)
  }

  /** The characters `parseInt` skips before the number (JavaScript's StrWhiteSpaceChar). */
  predicate IsJsSpace(c: char) {
    || c == ' ' || c == '\t' || c == '\n' || c == '\r' || c == '\U{000B}' || c == '\U{000C}'
    || c == '\U{00A0}' || c == '\U{FEFF}' || c == '\U{1680}' || ('\U{2000}' <= c <= '\U{200A}')
    || c == '\U{2028}' || c == '\U{2029}' || c == '\U{202F}' || c == '\U{205F}' || c == '\U{3000}'
  }

  function TrimStart(s: string): (r: string)
    ensures |r| <= |s| && r == s[|s| - |r|..]
    ensures |r| > 0 ==> !IsJsSpace(r[0])
  {
    if |s| > 0 && IsJsSpace(s[0]) then TrimStart(s[1..]) else s
  }

  /** The longest prefix of `s` made of decimal digits. */
  function LeadingDigits(s: string): (ds: string)
    ensures AllDigits(ds) && StartsWith(s, ds)
    ensures |ds| < |s| ==> !IsDigit(s[|ds|])
  {
    if |s| > 0 && IsDigit(s[0]) then [s[0]] + LeadingDigits(s[1..]) else []
  }

  /**
   * `parseInt(s, 10)`: leading white space, an optional sign, then the
   * longest run of digits; `None` stands for `NaN` (no digit at all).
   */
  function ParseInt(s: string): Option<int> {
    var t := TrimStart(s);
    var negative := |t| > 0 && t[0] == '-';
    var body := if |t| > 0 && (t[0] == '-' || t[0] == '+') then t[1..] else t;
    var ds := LeadingDigits(body);
    if |ds| == 0 then None
    else if negative then Some(0 - DigitsValue(ds) as int)
    else Some(DigitsValue(ds))
  }

  lemma {:induction false} LeadingDigitsOfDigits(s: string)
    requires AllDigits(s)
    ensures LeadingDigits(s) == s
    decreases |s|
  {
    if |s| > 0 {
      LeadingDigitsOfDigits(s[1..]);
    }
  }

  lemma {:induction false} DigitsValueOfNat(n: nat)
    ensures DigitsValue(NatToString(n)) == n
  {
    if n >= 10 {
      var s := NatToString(n);
      DigitsValueOfNat(n / 10);
      assert s[..|s| - 1] == NatToString(n / 10);
    }
  }

  /** Nothing is trimmed from a string that starts with a digit or a minus sign. */
  lemma TrimStartKeeps(s: string)
    requires |s| > 0 && (IsDigit(s[0]) || s[0] == '-')
    ensures TrimStart(s) == s
  {
    assert !IsJsSpace(s[0]);
  }

  /** A run of digits parses as the number it denotes. */
  lemma ParseIntOfDigits(ds: string)
    requires |ds| >= 1 && AllDigits(ds)
    ensures ParseInt(ds) == Some(DigitsValue(ds) as int)
  {
    TrimStartKeeps(ds);
    assert ds[0] != '-' && ds[0] != '+';
    LeadingDigitsOfDigits(ds);
  }

  /** A minus sign followed by a run of digits parses as the negated number. */
  lemma ParseIntOfNegDigits(s: string)
    requires |s| >= 2 && s[0] == '-' && AllDigits(s[1..])
    ensures ParseInt(s) == Some(0 - DigitsValue(s[1..]) as int)
  {
    TrimStartKeeps(s);
    LeadingDigitsOfDigits(s[1..]);
  }

  /** `parseInt(String(i), 10) == i`: the decimal rendering reads back as the same integer. */
  lemma ParseIntOfIntToString(i: int)
    ensures ParseInt(IntToString(i)) == Some(i)
  {
    var n: nat := if i < 0 then -i else i;
    DigitsValueOfNat(n);
    if i < 0 {
      var s := IntToString(i);
      assert s[1..] == NatToString(n);
      ParseIntOfNegDigits(s);
    } else {
      ParseIntOfDigits(NatToString(n));
    }
  }

  /** Distinct integers render as distinct strings. */
  lemma IntToStringInjective(i: int, j: int)
    requires IntToString(i) == IntToString(j)
    ensures i == j
  {
    ParseIntOfIntToString(i);
    ParseIntOfIntToString(j);
  }

  /**
   * A property key JavaScript treats as an array index: the canonical
   * decimal form of an integer in [0, 2^32 - 2].
   */
  predicate IsArrayIndex(k: string) {
    && |k| >= 1
    && AllDigits(k)
    && (|k| == 1 || k[0] != '0')
    && DigitsValue(k) < 0xFFFF_FFFF
  }

  /** Two strings sharing a prefix are equal exactly when their suffixes are. */
  lemma PrefixCancel(p: string, a: string, b: string)
    ensures p + a == p + b <==> a == b
  {
    if p + a == p + b {
      assert a == (p + a)[|p|..];
      assert b == (p + b)[|p|..];
    }
  }
}

=== FILE: wrappers.dfy ===
/** Optional values and results with an error side, used by every module. */
module Wrappers {

  /** A value that may be absent: JavaScript's `undefined` / `null`. */
  datatype Option<+T> = None | Some(value: T) {

    /** The held value, or `default` when absent (JavaScript's `x ?? default`). */
    function GetOr(default: T): T {
      match this
      case Some(v) => v
      case None => default
    }
  }

  /** The outcome of an operation that either produces a value or fails with an error. */
  datatype Result<+R, +E> = Success(value: R) | Failure(error: E)
}
